=== FILE: README.md ===
# FOMOD installer core, modelled in Dafny

This project models the FOMOD installer of Wrye Bash. A FOMOD package describes an installation wizard in two documents:

- `info.xml` gives the module's name, author, version, description and website.
- `ModuleConfig.xml` describes the wizard itself:
  - a list of steps (pages), each gated by visibility flags;
  - groups of plugins on each page, each group typed `SelectExactlyOne`, `SelectAll`, `SelectAtMostOne` or some other type;
  - conditional patterns, which add files when flags are set.

The model covers two parts of the installer:

- **Descriptor and loader** (`Mopy/bash/bosh/fomods.py`):
  - the records `FomodFile`, `FomodPlugin`, `FomodGroup`, `FomodStep`, `FomodPattern`, `FomodConfig` and `FomodInfo`, with their `add_*` mutators;
  - the `order_list` sort;
  - the walks `get_fomod_config` and `get_fomod_info`, written as pure functions over an abstract element tree (tag, attributes, text, children; `get`, `find`, `findall`).
- **Wizard engine** (`Mopy/bash/bosh/gui_fomod.py`, logic only):
  - the `InstallerGroup` state machine (boxes, flags, files);
  - the radio and check-box handlers;
  - the per-type group initialisation in `construct_step`;
  - the forward search of `next_button_handler` and the target choice of `back_button_handler`;
  - the final resolver `get_all_files`.

Modules, one per file:

| file | module | what it holds |
|---|---|---|
| `wrappers.dfy` | `Wrappers` | `Option` and `Result` |
| `text.dfy` | `Texts` | `Text = Option<string>` (Python's `None` or a string), Python 2 string order, `rstrip` |
| `seqs.dfy` | `Seqs` | duplicate-free lists and append-if-absent |
| `element_tree.dfy` | `ElementTree` | the element tree with `get`, `find` and `findall` |
| `ordering.dfy` | `Ordering` | the stable key sort and `order_list` |
| `descriptor.dfy` | `Descriptor` | the descriptor records and their mutators |
| `loader.dfy` | `Loader` | `get_fomod_config` and `get_fomod_info` |
| `installer_group.dfy` | `InstallerGroups` | `InstallerGroup` and its methods |
| `handlers.dfy` | `Handlers` | the radio and check-box handlers, and the consistency of a group's selection |
| `step_builder.dfy` | `StepBuilder` | `construct_step`'s initial group state and the reopening of a saved step |
| `resolver.dfy` | `Resolver` | `get_all_files` |
| `navigation.dfy` | `Navigation` | the wizard as a state record, with `Start`, `Next`, `Back` and the click transitions |

The wizard state is a `Wizard` record with these fields:

- the steps and patterns;
- the current step number;
- the page's group map;
- the saved group map of every step left with Next (`ALL_STEPS`);
- whether the page shares its map with the saved one;
- the files collected so far (`FILES_LIST`).

The source shares maps between the page and `ALL_STEPS`. A reopened step, and a page where Next found no later step, both write their changes straight into `ALL_STEPS`. The model says this explicitly: the `aliased` flag is set in those two cases, and while it is set, `Store` writes every change through to the saved map.

Where the code's behaviour differs from its documented intent, the model follows the code:

- `get_fomod_info` raises when `Name` is missing or has no text. `LoadInfo` returns an error in that case; it does not fall back to a default.
- The visibility test of `next_button_handler` looks only at the groups of the current page, not at the groups of earlier saved steps.
- `get_all_files` de-duplicates nothing.
- Each press of Next on a page with no later visible step appends the collected files to `FILES_LIST` again.
- `Next` uses the source's counting visibility test, and `ClickCheck` keeps the files of an at-most-one box switched off. `NextIntended` and `ClickCheckIntended` are the corrected transitions (see Findings). `NextAgrees` and `ClickCheckAgrees` state when each pair behaves the same.
- One exception: `ReadGroup` and `ReadStep` order their lists with the corrected `OrderList`. An empty plugin or group list with an order other than `Explicit` therefore reads as the empty list. In the source, `order_list` returns None there, and `construct_step` then fails when it iterates over that list (see Findings). For every other list, both members state that the result equals the list `Ordering.OrderListAsWritten` gives.

## Model

| member | source | states |
|---|---|---|
| Descriptor.DefaultInfo | Mopy/bash/bosh/fomods.py:17-22 | A fresh info record holds the given module name and an empty author, version, description and website |
| Descriptor.PluginAddFile | Mopy/bash/bosh/fomods.py:147-148 | The entry is appended at the end, earlier entries keep their places, and no other field of the plugin changes |
| Descriptor.PluginAddFlag | Mopy/bash/bosh/fomods.py:150-151 | Last write wins: the name maps to the new value, every other flag keeps its value, and nothing else changes |
| Descriptor.GroupAddPlugin | Mopy/bash/bosh/fomods.py:165-166 | The plugin is appended at the end of the plugin list and the rest of the group is untouched |
| Descriptor.StepAddGroup | Mopy/bash/bosh/fomods.py:177-178 | The group is appended at the end of the group list and the rest of the step is untouched |
| Descriptor.StepAddFlag | Mopy/bash/bosh/fomods.py:180-181 | Last-write-wins update of the visibility map; other visibility flags and fields are untouched |
| Descriptor.PatternAddFile | Mopy/bash/bosh/fomods.py:193-195 | An entry already present is never appended again; the list grows by at most one, keeps its existing entries in order, and stays duplicate-free |
| Descriptor.PatternAddFlag | Mopy/bash/bosh/fomods.py:197-198 | Last-write-wins update of the pattern's flags; the files are untouched |
| Seqs.AppendAllNew | Mopy/bash/bosh/gui_fomod.py:154-157 | Appending each entry not yet present keeps the old list as a prefix, adds every new entry, adds nothing else, and keeps a duplicate-free list duplicate-free |
| Seqs.AppendAllNewPresent | Mopy/bash/bosh/gui_fomod.py:154-157 | Adding entries that are all present already leaves the list unchanged |
| Seqs.AppendAllNewDistinct | Mopy/bash/bosh/gui_fomod.py:153-157 | Refilling a cleared list with distinct entries gives exactly those entries in order |
| Texts.RStrip | Mopy/bash/bosh/fomods.py:36-46 | The result is a prefix of the input that does not end in whitespace, and everything removed is whitespace |
| Texts.RStripIdempotent | Mopy/bash/bosh/fomods.py:36-46 | Stripping a stripped text changes nothing |
| Texts.LessEqTextTransitive | Mopy/bash/bosh/fomods.py:116-120 | Python 2's order on names, with `None` below every string, is transitive, as the sort needs |
| ElementTree.Get | Mopy/bash/bosh/fomods.py:248-252 | `get` yields None exactly when the attribute is absent, and otherwise its value |
| ElementTree.Find | Mopy/bash/bosh/fomods.py:300-301 | `find` yields None exactly when `findall` finds nothing, and otherwise the first match in document order |
| ElementTree.FindAllOneStep | Mopy/bash/bosh/fomods.py:297 | A one-step path selects exactly the children carrying that tag, in document order |
| ElementTree.FindAllTwoSteps | Mopy/bash/bosh/fomods.py:297 | A two-step path selects exactly the matching grandchildren under the matching children |
| Ordering.SortBy | Mopy/bash/bosh/fomods.py:115-120 | The sort is a permutation of its input |
| Ordering.SortBySorted | Mopy/bash/bosh/fomods.py:115-120 | The sort's result is ordered by name, ascending or with `reverse` descending |
| Ordering.SortByStable | Mopy/bash/bosh/fomods.py:115-120 | The sort is stable: entries with the same name keep their relative order |
| Ordering.SortBySortedIdentity | Mopy/bash/bosh/fomods.py:115-120 | Sorting a list that is already ordered leaves it unchanged |
| Ordering.OrderList | Mopy/bash/bosh/fomods.py:105-122 | `Explicit` returns the list unchanged; `Ascending` sorts by name ascending and any other word descending; the result is a stable permutation (empty list corrected, see Findings) |
| Ordering.OrderListIdempotent | Mopy/bash/bosh/fomods.py:105-120 | Ordering an ordered list again with the same word changes nothing |
| Ordering.OrderListAsWritten | Mopy/bash/bosh/fomods.py:105-122 | As written, the result is None exactly for an empty list with an order other than `Explicit`, and otherwise agrees with `OrderList` |
| Ordering.OrderListAsWrittenLosesEmptyList | Mopy/bash/bosh/fomods.py:114-122 | An empty list ordered `Ascending` yields None, where the corrected function yields the empty list |
| Loader.ReadFile | Mopy/bash/bosh/fomods.py:254-274 | Every attribute of a file entry that is absent keeps its default (`''`, or no priority), and every present attribute is copied |
| Loader.ReadFileRoundTrip | Mopy/bash/bosh/fomods.py:254-274 | A file entry written out as attributes (priority only when set) reads back as the same entry |
| Loader.ReadFiles | Mopy/bash/bosh/fomods.py:321-338 | One entry per element, in document order |
| Loader.SetFlags | Mopy/bash/bosh/fomods.py:358-362 | Repeated `add_flag` keeps every old key, adds every key of a pair, and adds no other key |
| Loader.SetFlagsLastWins | Mopy/bash/bosh/fomods.py:358-362 | After repeated `add_flag`, a key holds the value of its last pair |
| Loader.SetFlagsEachLastWins | Mopy/bash/bosh/fomods.py:358-362 | Every key holds the value of the last pair naming it |
| Loader.SetFlagsUntouched | Mopy/bash/bosh/fomods.py:358-362 | A key that no pair names keeps its value |
| Loader.SetFlagsKeys | Mopy/bash/bosh/fomods.py:358-362 | The keys after repeated `add_flag` are the old keys plus the keys of the pairs |
| Loader.DependencyFlags | Mopy/bash/bosh/fomods.py:246-252 | The flags recorded for a pattern are exactly those named by a dependency that carries both `flag` and `value` |
| Loader.DependencyFlagsLastWins | Mopy/bash/bosh/fomods.py:246-252 | A recorded flag takes the value of the last complete dependency that names it |
| Loader.PatternAddFiles | Mopy/bash/bosh/fomods.py:254-293 | Adding the entries through `add_file` keeps the flags and appends each entry not yet present |
| Loader.ReadPattern | Mopy/bash/bosh/fomods.py:243-293 | The pattern's flag map is `DependencyFlags` of its dependencies: exactly the flags of its complete dependencies, each holding the value of the last complete dependency that names it (`Loader.DependencyFlagsLastWins`); its files are exactly the `files/file` and `files/folder` entries, each held once |
| Loader.ReadEach | Mopy/bash/bosh/fomods.py:297-373 | A walk over elements succeeds exactly when every element reads; then it gives one result per element, in order |
| Loader.PluginAddFiles | Mopy/bash/bosh/fomods.py:321-356 | A plugin's entries are appended in order, duplicates included, and nothing else changes |
| Loader.ConditionFlagPairs | Mopy/bash/bosh/fomods.py:358-362 | Each `conditionFlags/flag` element gives the pair of its `name` attribute and its text |
| Loader.ConditionFlags | Mopy/bash/bosh/fomods.py:358-362 | A plugin's flag map has every `conditionFlags/flag` name as a key and no other key; each name holds the text of the last element naming it |
| Loader.AttrOfOptional | Mopy/bash/bosh/fomods.py:315-320 | An optional element's attribute is read when the element exists; otherwise the default `''` stays |
| Loader.ReadPlugin | Mopy/bash/bosh/fomods.py:310-362 | Fails exactly when `description` is missing. Otherwise: the name and description text are read; the files are every `files/file` entry then every `files/folder` entry, without de-duplication; the flag map is `ConditionFlags` of its `conditionFlags/flag` elements; the image is the `path` of `image` and the type name is the `name` of `typeDescriptor/type`, each `''` when that element is missing |
| Loader.GroupAddPlugins | Mopy/bash/bosh/fomods.py:363 | Plugins are appended in order |
| Loader.StepAddGroups | Mopy/bash/bosh/fomods.py:368 | Groups are appended in order |
| Loader.StepAddFlags | Mopy/bash/bosh/fomods.py:302-304 | Every visibility dependency's flag is a key, even a missing (None) one, and no other key is added |
| Loader.StepAddFlagsFold | Mopy/bash/bosh/fomods.py:302-304 | Adding the dependencies one `add_flag` at a time gives the last-write-wins map of their (flag, value) pairs |
| Loader.VisibilityPairs | Mopy/bash/bosh/fomods.py:302-304 | Each `visible/flagDependency` gives the pair of its `flag` and `value` attributes, in document order |
| Loader.VisibilityFlags | Mopy/bash/bosh/fomods.py:301-304 | A step's visibility map has every dependency's flag as a key and no other key; each flag holds the value of the last dependency naming it |
| Loader.ReadGroup | Mopy/bash/bosh/fomods.py:305-367 | Fails exactly when the `plugins` child is missing or some plugin fails to read. Otherwise: name, type and order are read; the plugins are a permutation of the plugins read; they keep document order without an order or with `Explicit`, and are sorted by name otherwise; whenever `order_list` as written yields a list, the plugins are that list; with no `plugin` element they are the empty list |
| Loader.StepHeader | Mopy/bash/bosh/fomods.py:298-304 | A step's name and group order are read, and its visibility map is `VisibilityFlags` of its `visible/flagDependency` elements |
| Loader.VisibleDependenciesNeedVisible | Mopy/bash/bosh/fomods.py:301-302 | Without a `visible` child there is no `visible/flagDependency`, so the guard changes nothing |
| Loader.ReadStep | Mopy/bash/bosh/fomods.py:297-373 | Fails exactly when `optionalFileGroups` is missing or some group fails to read. Otherwise: the name and group order are read, the visibility map is `VisibilityFlags` of the dependencies; the groups are a permutation of the groups read, in document order without an order or with `Explicit`; whenever `order_list` as written yields a list, the groups are that list; with no `group` element they are the empty list |
| Loader.LoadConfig | Mopy/bash/bosh/fomods.py:224-375 | A missing document, or a root that is not `config`, gives the default config with no steps and no patterns. On a `config` root it fails exactly when `moduleName` is missing or some step fails to read. Otherwise: the name is the `moduleName` text; the image is `moduleImage`'s `path`, or `''` without that element; there is one step per `installStep` in document order; patterns are read only under `conditionalFileInstalls`; dependencies and required files keep their defaults |
| Loader.LoadConfigRoundTrip | Mopy/bash/bosh/fomods.py:236-239 | A config written with a name, an image and readable steps loads back with that name and image, the steps in document order, and no patterns |
| Loader.OptionalField | Mopy/bash/bosh/fomods.py:37-46 | An absent optional info field keeps `''`; a present one without text is an error; otherwise the field is the stripped text |
| Loader.LoadInfo | Mopy/bash/bosh/fomods.py:24-47 | A missing document, or a root that is not `fomod`, gives the defaults with the given name. On a `fomod` root it fails exactly when `Name` is missing or has no text, or `Version`, `Author` or `Website` is present without text. Otherwise the name is the stripped `Name` text, and each other field is its element's stripped text, or `''` when the element (or, for Description, its text) is missing |
| Loader.LoadInfoRoundTrip | Mopy/bash/bosh/fomods.py:24-47 | An info record whose fields end in no white space, written out as a `fomod` document, loads back as the same record |
| ElementTree.FindFirstChild | Mopy/bash/bosh/fomods.py:36-46 | `find(tag)` picks the first child carrying the tag |
| InstallerGroups.NewGroup | Mopy/bash/bosh/gui_fomod.py:58-65 | A new group has the given name and type and no boxes, plugins, flags or files |
| InstallerGroups.AddPlugin | Mopy/bash/bosh/gui_fomod.py:70-72 | A plugin already present is not added again; otherwise it is appended; the list stays duplicate-free |
| InstallerGroups.UpdateBoxValue | Mopy/bash/bosh/gui_fomod.py:85-87 | One box is set; every other box is untouched |
| InstallerGroups.UpdateRadioValue | Mopy/bash/bosh/gui_fomod.py:89-103 | The keys become the old keys plus `key`, which takes `value`. When the value is off or the button is first, no other key changes; otherwise exactly `key` is on |
| InstallerGroups.ChangeOtherElements | Mopy/bash/bosh/gui_fomod.py:105-114 | Every registered box except the excluded one takes the new value; every other box keeps its value |
| InstallerGroups.Toggle | Mopy/bash/bosh/gui_fomod.py:139-146 | A contributed flag name is present afterwards exactly when it was absent, and then it carries the plugin's value; names not contributed are untouched |
| InstallerGroups.ToggleTwiceKeys | Mopy/bash/bosh/gui_fomod.py:139-146 | Toggling the same contribution twice restores the set of flag names |
| InstallerGroups.ToggleTwiceRestores | Mopy/bash/bosh/gui_fomod.py:139-146 | When the stored values agree with the plugin's, toggling twice restores the whole map |
| InstallerGroups.UpdateFlags | Mopy/bash/bosh/gui_fomod.py:116-146 | No-op when no plugin has the name. Exactly-one and select-all groups end with exactly the named plugin's flags; at-most-one groups end with them when switching on and with none when switching off; other groups toggle the flags of every plugin carrying the name, one after the other (`ToggleEach` over `Named`), which with distinct plugin names is exactly the named plugin's flags |
| InstallerGroups.UpdateFiles | Mopy/bash/bosh/gui_fomod.py:148-157 | No-op when no plugin has the name. The three radio-style types end with exactly the named plugin's files, each once; other types keep their list as a prefix and append the new files of every plugin carrying the name, one after the other (`AppendEachNew` over `Named`), which with distinct plugin names is exactly the named plugin's files not yet present |
| InstallerGroups.FlagsOverToggles | Mopy/bash/bosh/gui_fomod.py:121-146 | In an independent group, the per-plugin loop of `update_flags` equals toggling, in order, the flags of the plugins carrying the name, whatever the names |
| InstallerGroups.FilesOverAppends | Mopy/bash/bosh/gui_fomod.py:148-157 | In an independent group, the per-plugin loop of `update_files` equals appending, in order, the new files of the plugins carrying the name, whatever the names |
| InstallerGroups.UpdateFilesTwiceAddsNothing | Mopy/bash/bosh/gui_fomod.py:148-157 | In an independent check-box group, selecting the same plugin a second time adds no file |
| InstallerGroups.FilesOverSingle | Mopy/bash/bosh/gui_fomod.py:150-152 | With unique plugin names, `update_files` applies exactly the one plugin of that name |
| InstallerGroups.UpdateFlagsTwiceRestoresNames | Mopy/bash/bosh/gui_fomod.py:139-146 | In an independent check-box group, selecting the same plugin twice gives back the original set of flag names |
| InstallerGroups.FlagsOverSingle | Mopy/bash/bosh/gui_fomod.py:121-123 | With unique plugin names, `update_flags` applies exactly the one plugin of that name |
| Handlers.RadioButton | Mopy/bash/bosh/gui_fomod.py:484-493 | A radio event sets the clicked box and keeps the group's identity, plugins and registered boxes |
| Handlers.RadioButtonSelects | Mopy/bash/bosh/gui_fomod.py:484-491 | Clicking the button of a plugin in an exactly-one or select-all group selects that plugin alone, with its flags and files |
| Handlers.RadioButtonKeepsExactlyOne | Mopy/bash/bosh/gui_fomod.py:484-491 | An exactly-one group stays consistent: one plugin on, carrying its flags and files |
| Handlers.CheckBoxAsWritten | Mopy/bash/bosh/gui_fomod.py:495-511 | As written: the clicked box takes the event's value, no box is lost, and the box keys grow by that box only; in an independent group the flags of the plugins carrying the name are toggled and their new files appended |
| Handlers.CheckBox | Mopy/bash/bosh/gui_fomod.py:495-511 | The clicked box takes the event's value, no box is lost, and the box keys grow by that box only; in an independent group the flags of the plugins carrying the name are toggled and their new files appended (at-most-one switch-off corrected, see Findings) |
| Handlers.CheckBoxSelects | Mopy/bash/bosh/gui_fomod.py:499-508 | Checking an at-most-one box selects that plugin alone, with its flags and files |
| Handlers.CheckBoxClears | Mopy/bash/bosh/gui_fomod.py:504-508 | (corrected handler, see Findings) Unchecking the one selected at-most-one box leaves nothing selected and no flags or files |
| Handlers.CheckBoxKeepsAtMostOne | Mopy/bash/bosh/gui_fomod.py:495-508 | (corrected handler, see Findings) Every check-box event keeps an at-most-one group consistent: nothing selected and nothing carried, or one plugin with its flags and files |
| Handlers.CheckBoxAgrees | Mopy/bash/bosh/gui_fomod.py:495-508 | Every event except switching an at-most-one box off is handled exactly as written |
| Handlers.CheckBoxAsWrittenRefills | Mopy/bash/bosh/gui_fomod.py:504-508 | As written, switching the only selected at-most-one box off clears the box and flags but refills the plugin's files |
| Handlers.CheckBoxAsWrittenOff | Mopy/bash/bosh/gui_fomod.py:504-508 | As written, unchecking the selected box of a consistent at-most-one group leaves no box on and no flags, but the plugin's files carried |
| Handlers.CheckBoxAsWrittenKeepsFilesOfUnselected | Mopy/bash/bosh/gui_fomod.py:495-508 | Checking then unchecking a plugin with files leaves a group with no box on and no flags that still carries those files |
| StepBuilder.SelectFirst | Mopy/bash/bosh/gui_fomod.py:264-268 | A preselected button is on, other boxes keep their values, and the group keeps its plugins |
| StepBuilder.SelectFirstCarries | Mopy/bash/bosh/gui_fomod.py:264-268 | The preselection carries the plugin's flags and files |
| StepBuilder.Register | Mopy/bash/bosh/gui_fomod.py:74-76 | `add_element` registers the box name and changes nothing else |
| StepBuilder.AddRadioOff | Mopy/bash/bosh/gui_fomod.py:276-278 | A later exactly-one plugin is added with its button off, and the flags and files are untouched |
| StepBuilder.AddSelected | Mopy/bash/bosh/gui_fomod.py:297-299 | A select-all plugin is added with its button on |
| StepBuilder.AddUnchecked | Mopy/bash/bosh/gui_fomod.py:303-326 | A check-box plugin is added with its box off; it is registered only in an at-most-one group; flags and files are untouched |
| StepBuilder.AddGroup | Mopy/bash/bosh/gui_fomod.py:163-164 | `add_group` stores the group under its name and leaves the other entries |
| StepBuilder.FreshExactlyOne | Mopy/bash/bosh/gui_fomod.py:254-281 | A new exactly-one group with distinct names starts with its first plugin alone selected, carrying that plugin's flags and files |
| StepBuilder.FreshAll | Mopy/bash/bosh/gui_fomod.py:286-299 | A new select-all group has every box on, and carries the flags and files of its last plugin only |
| StepBuilder.FreshUnselected | Mopy/bash/bosh/gui_fomod.py:303-330 | A new group of any other type has one box per plugin, all off, no flags and no files; only at-most-one boxes are registered, all of them |
| StepBuilder.FreshAtMostOne | Mopy/bash/bosh/gui_fomod.py:303-316 | A new at-most-one group starts consistent, with nothing selected |
| StepBuilder.ReopenGroup | Mopy/bash/bosh/gui_fomod.py:240-330 | On a reopened step only a select-all group changes (it re-selects its plugins); the group's identity and plugins are kept |
| StepBuilder.ReopenFreshGroup | Mopy/bash/bosh/gui_fomod.py:240-330 | Reopening a group straight after it was built changes nothing |
| StepBuilder.FreshStepLookup | Mopy/bash/bosh/gui_fomod.py:226-337 | With unique group names, a new page holds each group under its own name, built fresh |
| StepBuilder.ReopenStep | Mopy/bash/bosh/gui_fomod.py:226-337 | Reopening keeps the saved map's keys, and keeps the map itself when no group is select-all |
| StepBuilder.ReopenFreshStep | Mopy/bash/bosh/gui_fomod.py:226-337 | Going back to a page left straight after it was built shows the same state |
| StepBuilder.FreshStepBoxed | Mopy/bash/bosh/gui_fomod.py:249-330 | A step built fresh with unique group names has, in the group stored under each name, a box for every plugin of that group |
| StepBuilder.ReopenStepKeeps | Mopy/bash/bosh/gui_fomod.py:240-299 | Reopening leaves unchanged the saved group of a name that no select-all group of the step carries |
| StepBuilder.BoxedFound | Mopy/bash/bosh/gui_fomod.py:240-326 | With unique group names, every `get_box_value` of the reopened step finds its box |
| Resolver.SourcedFiles | Mopy/bash/bosh/gui_fomod.py:25-28 | A group's installed files are exactly those with a non-empty source |
| Resolver.GroupFilesSound | Mopy/bash/bosh/gui_fomod.py:23-28 | Every group-stage file has a source and comes from a saved group |
| Resolver.GroupFilesComplete | Mopy/bash/bosh/gui_fomod.py:23-28 | Every sourced file of every saved group is collected |
| Resolver.MergedFlagsLast | Mopy/bash/bosh/gui_fomod.py:34-38 | The merged map holds, for a non-empty name, the value of the last saved group that sets it |
| Resolver.MergedFlagsSource | Mopy/bash/bosh/gui_fomod.py:34-38 | Every merged flag has a name other than `''` and the value of the last group setting it |
| Resolver.PatternWithoutMatchAddsNothing | Mopy/bash/bosh/gui_fomod.py:41-54 | A pattern none of whose flags match, in particular one with no flags, adds no files |
| Resolver.PatternAnyMatch | Mopy/bash/bosh/gui_fomod.py:41-54 | One matching flag is enough to add every file of the pattern, and the files are added once per matching flag |
| Resolver.ConditionalFilesSound | Mopy/bash/bosh/gui_fomod.py:40-54 | Every conditional file comes from a pattern with a matching flag |
| Resolver.ConditionalFilesComplete | Mopy/bash/bosh/gui_fomod.py:40-54 | Every file of a pattern with a matching flag is collected |
| Resolver.GetAllFilesMember | Mopy/bash/bosh/gui_fomod.py:19-54 | A file is collected exactly when a saved group holds it with a source, or a pattern lists it and the last saved group setting one of that pattern's flags gives it the pattern's value |
| Resolver.PatternLoopAgrees | Mopy/bash/bosh/gui_fomod.py:41-49 | The nested flag loop, walked in any key order, appends the pattern's files once per matching flag |
| Resolver.TwoMatchesAddTwice | Mopy/bash/bosh/gui_fomod.py:41-49 | A pattern with two matching flags adds its file twice: nothing is de-duplicated |
| Navigation.VisibleAgrees | Mopy/bash/bosh/gui_fomod.py:592-601 | When no two groups of the page set the same flag, the source's count decides visibility exactly as intended |
| Navigation.NoFlagsVisible | Mopy/bash/bosh/gui_fomod.py:592-601 | A step that asks for no flags is always shown |
| Navigation.VisibleAsWrittenCountsTwice | Mopy/bash/bosh/gui_fomod.py:592-601 | Two groups that set the same flag make the count admit a step asking for a flag set nowhere |
| Navigation.FirstVisible | Mopy/bash/bosh/gui_fomod.py:573-635 | The search yields the first step at or after its start that the counting test shows, or None when it shows none there |
| Navigation.FirstVisibleIntended | Mopy/bash/bosh/gui_fomod.py:573-635 | The same search with the intended test yields the first step whose flags are all set on the page, or None |
| Navigation.FirstVisibleAgrees | Mopy/bash/bosh/gui_fomod.py:592-601 | When no two groups of the page set the same flag, both searches stop at the same step |
| Navigation.Start | Mopy/bash/bosh/gui_fomod.py:655-687 | The wizard starts on step 0 with nothing saved and nothing collected; its page is step 0's groups built fresh, and it carries the given steps and patterns; with no steps it cannot start |
| Navigation.Next | Mopy/bash/bosh/gui_fomod.py:542-644 | The page is saved under its step. Either the wizard moves forward to the first later step the counting test shows, skipping only steps it hides, and builds it fresh; or it shows no later step, the files collected over the saved maps (walked in dictionary order) are appended, and the page stays, sharing its map |
| Navigation.NextIntended | Mopy/bash/bosh/gui_fomod.py:542-644 | As `Next`, with a step shown exactly when every flag it asks for is set on the page |
| Navigation.NextAgrees | Mopy/bash/bosh/gui_fomod.py:592-601 | When no two groups of the page set the same flag, Next behaves as intended |
| Navigation.BackTarget | Mopy/bash/bosh/gui_fomod.py:521-524 | The target is a saved step or the current one |
| Navigation.BackTargetPrevious | Mopy/bash/bosh/gui_fomod.py:521-524 | From a step saved after others, Back goes to the step saved just before its first occurrence |
| Navigation.BackTargetWraps | Mopy/bash/bosh/gui_fomod.py:521-524 | From the step saved first, the index wraps round to the current step itself |
| Navigation.BackTargetUnsaved | Mopy/bash/bosh/gui_fomod.py:521-524 | From a step not yet saved, Back goes to the step saved last |
| Navigation.BackTargetSaved | Mopy/bash/bosh/gui_fomod.py:521-524 | With a saved step, the target is always a saved step |
| Navigation.Back | Mopy/bash/bosh/gui_fomod.py:513-533 | At step 0 nothing happens. Otherwise Back succeeds exactly when the target step has a saved map holding all its groups and a box for every plugin `get_box_value` reads; the page is then `ReopenStep` of that saved map, which is the saved map itself when no group of the step is `SelectAll`; the page shares it; the files, steps and patterns are unchanged |
| Navigation.BackValid | Mopy/bash/bosh/gui_fomod.py:513-533 | On a reachable wizard whose steps have unique group names, Back never fails and keeps the wizard valid |
| Navigation.BackFailsOnSharedGroupName | Mopy/bash/bosh/gui_fomod.py:240-337 | A valid wizard whose saved step has two check-box groups named `X` cannot go back to it: only the second group is stored, and the box of the first group's plugin is missing |
| Navigation.Store | Mopy/bash/bosh/gui_fomod.py:492 | A handler's `add_group` replaces that group on the page and keeps the other groups, the step, the patterns, the collected files and the sharing; the saved map is updated exactly when the page shares it |
| Navigation.ClickRadio | Mopy/bash/bosh/gui_fomod.py:484-493 | The clicked group becomes `RadioButton`'s result and the rest of the wizard is kept as `Store` keeps it; in an exactly-one or select-all group a click on selects the last plugin of that name alone, with its flags and files; a consistent exactly-one group stays consistent |
| Navigation.ClickCheck | Mopy/bash/bosh/gui_fomod.py:495-511 | As written: the clicked group becomes `CheckBoxAsWritten`'s result and the rest of the wizard is kept; in an independent group the box takes the value, the flags are toggled and the new files appended; checking an at-most-one box selects that plugin alone with its flags and files; unchecking the selected box of a consistent group leaves no box on and no flags, but the plugin's files carried |
| Navigation.ClickCheckIntended | Mopy/bash/bosh/gui_fomod.py:495-511 | With the switch-off corrected: the clicked group becomes `CheckBox`'s result and the rest of the wizard is kept; independent groups as in `ClickCheck`; checking an at-most-one box selects that plugin alone; unchecking the selected box of a consistent group leaves nothing selected and nothing carried; every real toggle keeps the group consistent |
| Navigation.ClickCheckAgrees | Mopy/bash/bosh/gui_fomod.py:495-508 | Every click except switching an at-most-one box off is handled as intended |
| Navigation.StartValid | Mopy/bash/bosh/gui_fomod.py:655-687 | The first page is a valid wizard: each group is held under its name and a shared page equals its saved map |
| Navigation.NextValid | Mopy/bash/bosh/gui_fomod.py:542-644 | Next keeps the wizard valid |
| Navigation.NextIntendedValid | Mopy/bash/bosh/gui_fomod.py:542-644 | The corrected Next keeps the wizard valid |
| Navigation.StoreValid | Mopy/bash/bosh/gui_fomod.py:163-164 | Storing a group of the page under its name, losing none of its boxes, keeps the wizard valid |
| Navigation.ClickRadioValid | Mopy/bash/bosh/gui_fomod.py:484-493 | A radio click keeps the wizard valid |
| Navigation.ClickCheckValid | Mopy/bash/bosh/gui_fomod.py:495-511 | A check-box click keeps the wizard valid |
| Navigation.ClickCheckIntendedValid | Mopy/bash/bosh/gui_fomod.py:495-511 | The corrected check-box click keeps the wizard valid |
| Navigation.ListingMember | Mopy/bash/bosh/gui_fomod.py:23-24 | Walking every saved step and every saved map in full lists exactly the saved groups |

## Left out

- All wx presentation is left out because it is user interface only: panels, sizers, fonts, images, message dialogs, `bitmap_double_click`, `update_resources`, `close_window`, and the module-level launch at the end of `gui_fomod.py`.
- XML parsing is replaced by an already parsed element tree, given as a parameter, because it is I/O. This covers `os.path.exists`, opening the files, and lxml's recovering parser. A missing file is an absent document.
- The testing printout at the start of `next_button_handler` and the printing in `get_all_files` are left out because they are output only.
- `FomodFile` and `FomodPlugin` define no equality, so the source's `in` checks compare object identity. The model compares entries by value. Because each loaded entry is a distinct object, the source never skips an entry in `add_file`, `add_plugin` or `update_files` unless it is the same object. In the model, two entries with equal attributes count as one.
- A `FomodFile`'s priority is the integer 0 when the attribute is absent and the attribute's text otherwise. The model uses `None` and the text, because the source never does arithmetic on it.
- Python 2 dictionary order is not modelled; explicit order parameters stand in for it:
  - the keys of `ALL_STEPS`, as `stepOrder` in `Next` and `keys` in `Back`;
  - each saved group map, as `groupOrders`;
  - a pattern's flags, as `keys` in `Resolver.PatternLoop`.
  
  `Resolver.PatternLoopAgrees` shows that the collected files do not depend on the flag order.
- `InstallerGroup.element_map` holds the check-box widgets. The model keeps only the set of registered names. After Back these widgets belong to a destroyed frame, and calling `SetValue` on them is not modelled.
- The crashes on a plugin, group name or group type that is None are not modelled: the model accepts None names. They come from `u'' + element_name` in `add_element` and from building the group header text in `construct_step`.
- The getters `flag_value`, `get_element` and `get_flag_value` are not modelled; they are used only for display. `get_box_value` is modelled only by whether it finds its box: `Navigation.Back` fails when a reopened step reads a box that is missing, which happens when two groups of the step share a name (`Navigation.BackFailsOnSharedGroupName`).
- `construct_step` tests the group type once per plugin; the model tests it once per group. The type is the group's, so the result is the same.
- The candidate step in `next_button_handler` is `install_steps.index(install_steps[step_number]) + count`; the model uses `current + count`. Steps are distinct objects, so the index is the step number.
- Start with no steps, and Back to a step without a saved map, a saved group or a box it reads, raise in the source; the model returns `None`. A missing required element or text node in the loader is an `Err`.
- `order_list` on a list whose first entry is neither a group nor a plugin is not modelled: the model's lists are typed, so that case cannot arise.
- `FomodConfig.module_dependencies` and `required_files` are never filled by the source; they keep their defaults.
- Unicode is not modelled: `rstrip` removes the ASCII whitespace characters, and names compare by code point.
- Loader.ReadPattern: states which entries the file list holds and that each is held once, but not their order (file entries before folder entries).
- Loader.ReadGroup: an empty `plugins` list with an order other than `Explicit` reads as the empty list, because the loader uses the corrected `Ordering.OrderList`. The source's `order_list` returns None there, and `construct_step` then fails at `for plugin in plugin_list`. The model does not describe that failure.
- Loader.ReadStep: an empty `optionalFileGroups` list with an order other than `Explicit` reads as the empty list, for the same reason. In the source the group list becomes None, and `construct_step` then fails at `for group in group_list`.
- Navigation.BackValid: promises that Back succeeds only on wizards whose steps each have unique group names. With a shared name the source raises in `get_box_value`, and `Back` returns `None` (`Navigation.BackFailsOnSharedGroupName`).
- StepBuilder.FreshExactlyOne, StepBuilder.FreshAll, StepBuilder.FreshAtMostOne and StepBuilder.FreshStepLookup: describe only groups (and pages) whose plugin (and group) names are distinct. With a repeated name, the source keeps one box and one map entry per name, and the later plugin or group overwrites the earlier one; these lemmas say nothing about that case.

## Findings

| source | as written | input that shows it | evidently intended | confidence | as-written member | corrected member |
|---|---|---|---|---|---|---|
| Mopy/bash/bosh/gui_fomod.py:592-601 | A step is shown when the number of (group, flag) pairs on the page that match its visibility map equals the number of flags it asks for | Two groups both set `A=On`; the next step asks for `A=On` and `B=On`; the count is 2 and equals 2, so the step is shown although `B` is set nowhere | A step is shown when every flag it asks for is set on the page with the value asked for | high; not executed | Navigation.VisibleAsWritten (shown by Navigation.VisibleAsWrittenCountsTwice) | Navigation.Visible (agreement proved by Navigation.VisibleAgrees; used by Navigation.FirstVisibleIntended and Navigation.NextIntended) |
| Mopy/bash/bosh/gui_fomod.py:504-508 | Unchecking an at-most-one box clears the flags, but `update_files` then clears and refills the file list with that plugin's files | In a fresh at-most-one group, check a plugin that has files, then uncheck it: no box is on and no flag is set, yet its files stay and are installed | Unchecking clears the files together with the flags | high; not executed | Handlers.CheckBoxAsWritten (shown by Handlers.CheckBoxAsWrittenKeepsFilesOfUnselected) | Handlers.CheckBox (proved by Handlers.CheckBoxKeepsAtMostOne; used by Navigation.ClickCheckIntended) |
| Mopy/bash/bosh/fomods.py:114-122 | An empty list with an order other than `Explicit` falls off the end of `order_list`, which returns None | A group whose `plugins` element has `order="Ascending"` and no `plugin` child: its plugin list becomes None, and iterating over it in `construct_step` fails | The empty list | medium; not executed | Ordering.OrderListAsWritten (shown by Ordering.OrderListAsWrittenLosesEmptyList) | Ordering.OrderList (proved by Ordering.OrderListIdempotent; used by Loader.ReadGroup and Loader.ReadStep) |

=== FILE: descriptor.dfy ===
/**
 * The typed descriptor: records for files, plugins, groups, steps,
 * conditional patterns, the module configuration and the info document,
 * with their defaults and the small `add_*` mutators.
 */
module Descriptor {
  import opened Wrappers
  import opened Texts
  import opened Seqs

  /**
   * One file or folder mapping.  `priority` is None while the attribute is
   * absent (the source then keeps the integer 0) and otherwise the
   * attribute's text, which the source never converts to a number.
   */
  datatype FileEntry = FileEntry(
    source: string,
    destination: string,
    alwaysInstall: string,
    installIfUsable: string,
    priority: Option<string>)

  /** A freshly made entry: every field at its default. */
  const DefaultFile := FileEntry("", "", "", "", None)

  /** One selectable option of a group. */
  datatype Plugin = Plugin(
    name: Text,
    description: Text,
    image: Text,
    files: seq<FileEntry>,
    flags: map<Text, Text>,
    typeName: Text)

  const EmptyPlugin := Plugin(Some(""), Some(""), Some(""), [], map[], Some(""))

  /** A group of plugins; `order` is the `plugins/@order` word, if any. */
  datatype Group = Group(name: Text, groupType: Text, plugins: seq<Plugin>, order: Text)

  const EmptyGroup := Group(Some(""), Some(""), [], Some(""))

  /** One wizard page, gated by its visibility flags. */
  datatype Step = Step(name: Text, visibility: map<Text, Text>, groups: seq<Group>, groupOrder: Text)

  const EmptyStep := Step(Some(""), map[], [], Some(""))

  /** A conditional file install: flags to match and the files they add. */
  datatype Pattern = Pattern(flags: map<string, string>, files: seq<FileEntry>)

  const EmptyPattern := Pattern(map[], [])

  datatype Config = Config(
    moduleName: Text,
    moduleImage: Text,
    moduleDependencies: string,
    requiredFiles: seq<FileEntry>,
    steps: seq<Step>,
    patterns: seq<Pattern>)

  /** A configuration before anything has been read into it. */
  const DefaultConfig := Config(Some(""), Some(""), "", [], [], [])

  datatype Info = Info(name: string, author: string, version: string, description: string, website: string)

  /** An info record before anything has been read: only the given name is set. */
  function DefaultInfo(modName: string): (r: Info)
    ensures r.name == modName
    ensures r.author == "" && r.version == "" && r.description == "" && r.website == ""
  {
    Info(modName, "", "", "", "")
  }

  /** Last-write-wins update of one flag; every other flag is untouched. */
  function SetFlag<K, V>(m: map<K, V>, name: K, value: V): (r: map<K, V>)
    ensures r.Keys == m.Keys + {name}
    ensures r[name] == value
    ensures forall k :: k in m && k != name ==> r[k] == m[k]
  {
    m[name := value]
  }

  /** `FomodPlugin.add_file`: appends, duplicates included. */
  function PluginAddFile(p: Plugin, f: FileEntry): (r: Plugin)
    ensures |r.files| == |p.files| + 1 && r.files[..|p.files|] == p.files && r.files[|p.files|] == f
    ensures r.(files := p.files) == p
  {
    p.(files := p.files + [f])
  }

  /** `FomodPlugin.add_flag`. */
  function PluginAddFlag(p: Plugin, name: Text, value: Text): (r: Plugin)
    ensures r.flags.Keys == p.flags.Keys + {name} && r.flags[name] == value
    ensures forall k :: k in p.flags && k != name ==> r.flags[k] == p.flags[k]
    ensures r.(flags := p.flags) == p
  {
    p.(flags := SetFlag(p.flags, name, value))
  }

  /** `FomodGroup.add_plugin`: appends at the end. */
  function GroupAddPlugin(g: Group, p: Plugin): (r: Group)
    ensures |r.plugins| == |g.plugins| + 1 && r.plugins[..|g.plugins|] == g.plugins && r.plugins[|g.plugins|] == p
    ensures r.(plugins := g.plugins) == g
  {
    g.(plugins := g.plugins + [p])
  }

  /** `FomodStep.add_group`: appends at the end. */
  function StepAddGroup(s: Step, g: Group): (r: Step)
    ensures |r.groups| == |s.groups| + 1 && r.groups[..|s.groups|] == s.groups && r.groups[|s.groups|] == g
    ensures r.(groups := s.groups) == s
  {
    s.(groups := s.groups + [g])
  }

  /** `FomodStep.add_flag`. */
  function StepAddFlag(s: Step, name: Text, value: Text): (r: Step)
    ensures r.visibility.Keys == s.visibility.Keys + {name} && r.visibility[name] == value
    ensures forall k :: k in s.visibility && k != name ==> r.visibility[k] == s.visibility[k]
    ensures r.(visibility := s.visibility) == s
  {
    s.(visibility := SetFlag(s.visibility, name, value))
  }

  /** `FomodPattern.add_file`: never appends an entry already present. */
  function PatternAddFile(p: Pattern, f: FileEntry): (r: Pattern)
    ensures |p.files| <= |r.files| <= |p.files| + 1
    ensures r.files[..|p.files|] == p.files
    ensures f in r.files
    ensures f in p.files ==> r.files == p.files
    ensures NoDuplicates(p.files) ==> NoDuplicates(r.files)
    ensures r.flags == p.flags
  {
    p.(files := AppendIfAbsent(p.files, f))
  }

  /** `FomodPattern.add_flag`. */
  function PatternAddFlag(p: Pattern, name: string, value: string): (r: Pattern)
    ensures r.flags.Keys == p.flags.Keys + {name} && r.flags[name] == value
    ensures forall k :: k in p.flags && k != name ==> r.flags[k] == p.flags[k]
    ensures r.files == p.files
  {
    p.(flags := SetFlag(p.flags, name, value))
  }
}

=== FILE: element_tree.dfy ===
/**
 * An abstract markup tree standing in for the parsed documents: each element
 * has a tag, attributes, an optional text node and ordered children.
 * `Get`, `FindAll` and `Find` follow the element-path queries the loader
 * issues (`a/b/c`: children tagged `a`, then their children tagged `b`, ...).
 */
module ElementTree {
  import opened Wrappers
  import opened Texts

  datatype Element = Element(tag: string, attrs: map<string, string>, text: Text, children: seq<Element>)

  /** `element.get(name)`: the attribute's value, or None when it is absent. */
  function Get(e: Element, name: string): (r: Text)
    ensures r.Some? <==> name in e.attrs
    ensures r.Some? ==> r.value == e.attrs[name]
  {
    if name in e.attrs then Some(e.attrs[name]) else None
  }

  /** `element.findall(path)`: every match of `path` below `e`, in document order. */
  function FindAll(e: Element, path: seq<string>): (r: seq<Element>)
    ensures |path| == 0 ==> r == [e]
    ensures forall m :: m in r && |path| > 0 ==> m.tag == path[|path| - 1]
    decreases |path|, 1, 0
  {
    if |path| == 0 then [e] else FindAllIn(e.children, path[0], path[1..])
  }

  /** Matches of `tag/rest` among the elements `cs`, in order. */
  function FindAllIn(cs: seq<Element>, tag: string, rest: seq<string>): (r: seq<Element>)
    ensures forall m :: m in r && |rest| == 0 ==> m.tag == tag
    ensures forall m :: m in r && |rest| > 0 ==> m.tag == rest[|rest| - 1]
    decreases |rest| + 1, 0, |cs|
  {
    if |cs| == 0 then []
    else
      var here := if cs[0].tag == tag then FindAll(cs[0], rest) else [];
      here + FindAllIn(cs[1..], tag, rest)
  }

  /** `element.find(path)`: the first match in document order, or None. */
  function Find(e: Element, path: seq<string>): (r: Option<Element>)
    ensures r.None? <==> |FindAll(e, path)| == 0
    ensures r.Some? ==> r.value == FindAll(e, path)[0]
  {
    var all := FindAll(e, path);
    if |all| == 0 then None else Some(all[0])
  }

  /** The children of `e` carrying `tag`, in order. */
  function ChildrenTagged(cs: seq<Element>, tag: string): (r: seq<Element>)
    ensures forall m :: m in r ==> m in cs && m.tag == tag
    ensures forall m :: m in cs && m.tag == tag ==> m in r
  {
    if |cs| == 0 then []
    else (if cs[0].tag == tag then [cs[0]] else []) + ChildrenTagged(cs[1..], tag)
  }

  /** A one-step path selects exactly the children with that tag, in order. */
  lemma {:induction false} FindAllOneStep(cs: seq<Element>, tag: string)
    ensures FindAllIn(cs, tag, []) == ChildrenTagged(cs, tag)
    decreases |cs|
  {
    if |cs| > 0 {
      FindAllOneStep(cs[1..], tag);
    }
  }

  /** A two-step path concatenates, parent by parent, the tagged grandchildren. */
  lemma {:induction false} FindAllTwoSteps(cs: seq<Element>, a: string, b: string)
    ensures forall m :: m in FindAllIn(cs, a, [b]) <==>
      exists p :: p in cs && p.tag == a && m in p.children && m.tag == b
    decreases |cs|
  {
    if |cs| > 0 {
      FindAllTwoSteps(cs[1..], a, b);
      FindAllOneStep(cs[0].children, b);
      assert [b][1..] == [];
      forall m ensures m in FindAllIn(cs, a, [b]) <==>
        exists p :: p in cs && p.tag == a && m in p.children && m.tag == b
      {
        if m in FindAllIn(cs, a, [b]) {
          if cs[0].tag == a && m in FindAll(cs[0], [b]) {
            assert cs[0] in cs;
          } else {
            assert m in FindAllIn(cs[1..], a, [b]);
            var p :| p in cs[1..] && p.tag == a && m in p.children && m.tag == b;
            assert p in cs;
          }
        }
        if exists p :: p in cs && p.tag == a && m in p.children && m.tag == b {
          var p :| p in cs && p.tag == a && m in p.children && m.tag == b;
          if p == cs[0] {
            assert m in ChildrenTagged(cs[0].children, b);
          } else {
            assert p in cs[1..];
          }
        }
      }
    }
  }

  /** `find(tag)` picks the first child carrying `tag`. */
  lemma FindFirstChild(e: Element, tag: string, k: int)
    requires 0 <= k < |e.children| && e.children[k].tag == tag
    requires forall j :: 0 <= j < k ==> e.children[j].tag != tag
    ensures Find(e, [tag]) == Some(e.children[k])
  {
    assert [tag][1..] == [];
    assert FindAll(e, [tag]) == FindAllIn(e.children, tag, []);
    FindAllOneStep(e.children, tag);
    ChildrenTaggedFirst(e.children, tag, k);
  }

  lemma {:induction false} ChildrenTaggedFirst(cs: seq<Element>, tag: string, k: int)
    requires 0 <= k < |cs| && cs[k].tag == tag
    requires forall j :: 0 <= j < k ==> cs[j].tag != tag
    ensures |ChildrenTagged(cs, tag)| > 0 && ChildrenTagged(cs, tag)[0] == cs[k]
    decreases |cs|
  {
    if k > 0 {
      ChildrenTaggedFirst(cs[1..], tag, k - 1);
    }
  }

  /** Children all carrying `tag` are selected, all and in order, by a one-step path. */
  lemma {:induction false} ChildrenTaggedAll(cs: seq<Element>, tag: string)
    requires forall j :: 0 <= j < |cs| ==> cs[j].tag == tag
    ensures ChildrenTagged(cs, tag) == cs
    decreases |cs|
  {
    if |cs| > 0 {
      ChildrenTaggedAll(cs[1..], tag);
    }
  }

  /** A path whose first step no child carries matches nothing. */
  lemma {:induction false} NoChildTagged(cs: seq<Element>, tag: string, rest: seq<string>)
    requires forall j :: 0 <= j < |cs| ==> cs[j].tag != tag
    ensures FindAllIn(cs, tag, rest) == []
    decreases |cs|
  {
    if |cs| > 0 {
      NoChildTagged(cs[1..], tag, rest);
    }
  }
}

=== FILE: handlers.dfy ===
/**
 * The event handlers of the wizard page (`radio_button_handler`,
 * `check_box_handler`): which `InstallerGroup` updates run, with which
 * arguments, for each group type; and the selection invariants of
 * exactly-one and at-most-one groups that they keep.
 */
module Handlers {
  import opened Wrappers
  import opened Texts
  import opened Seqs
  import opened Descriptor
  import opened InstallerGroups

  /**
   * `radio_button_handler`: the clicked button is set, and the group's
   * flags and files are updated from the named plugin.
   */
  function RadioButton(g: InstallerGroup, chosen: Text, value: bool): (r: InstallerGroup)
    ensures r.boxes.Keys == g.boxes.Keys + {chosen} && r.boxes[chosen] == value
    ensures r.name == g.name && r.groupType == g.groupType && r.plugins == g.plugins && r.registered == g.registered
  {
    var g1 := UpdateRadioValue(g, chosen, value, false);
    var g2 := UpdateFlags(g1, chosen, false);
    UpdateFiles(g2, chosen)
  }

  /**
   * The flag update a check-box event triggers: switching an at-most-one
   * box on first switches every other registered box off and takes the
   * plugin's flags; every other event runs `update_flags` with
   * `at_most_true` False.
   */
  function CheckBoxFlags(g: InstallerGroup, chosen: Text, value: bool): (r: InstallerGroup)
    ensures g.registered <= g.boxes.Keys ==> r.boxes.Keys == g.boxes.Keys
    ensures g.boxes.Keys <= r.boxes.Keys
    ensures r.files == g.files && r.plugins == g.plugins && r.name == g.name
    ensures r.groupType == g.groupType && r.registered == g.registered
  {
    if g.groupType == AtMostOne && value then UpdateFlags(ChangeOtherElements(g, false, chosen), chosen, true)
    else UpdateFlags(g, chosen, false)
  }

  /**
   * `check_box_handler` as written: flags, then the box, then
   * `update_files`.  Switching an at-most-one box off clears the flags but
   * `update_files` still refills the files with that plugin's.
   */
  function CheckBoxAsWritten(g: InstallerGroup, chosen: Text, value: bool): (r: InstallerGroup)
    ensures g.registered <= g.boxes.Keys ==> r.boxes.Keys == g.boxes.Keys + {chosen}
    ensures g.boxes.Keys <= r.boxes.Keys
    ensures chosen in r.boxes && r.boxes[chosen] == value
    ensures r.name == g.name && r.groupType == g.groupType && r.plugins == g.plugins && r.registered == g.registered
    ensures !ReplacesSelection(g.groupType) ==>
      r.flags == ToggleEach(g.flags, Named(g.plugins, chosen)) && r.files == AppendEachNew(g.files, Named(g.plugins, chosen))
  {
    var g1 := CheckBoxFlags(g, chosen, value);
    var g2 := UpdateBoxValue(g1, chosen, value);
    UpdateFiles(g2, chosen)
  }

  /** Some plugin of the group carries `chosen`. */
  predicate Names(ps: seq<Plugin>, chosen: Text)
  {
    exists i :: 0 <= i < |ps| && ps[i].name == chosen
  }

  /**
   * `check_box_handler` with the at-most-one switch-off corrected: the
   * files are cleared together with the flags.  All other events are
   * handled as written.
   */
  function CheckBox(g: InstallerGroup, chosen: Text, value: bool): (r: InstallerGroup)
    ensures g.registered <= g.boxes.Keys ==> r.boxes.Keys == g.boxes.Keys + {chosen}
    ensures g.boxes.Keys <= r.boxes.Keys
    ensures chosen in r.boxes && r.boxes[chosen] == value
    ensures r.name == g.name && r.groupType == g.groupType && r.plugins == g.plugins && r.registered == g.registered
    ensures !ReplacesSelection(g.groupType) ==>
      r.flags == ToggleEach(g.flags, Named(g.plugins, chosen)) && r.files == AppendEachNew(g.files, Named(g.plugins, chosen))
  {
    var g1 := CheckBoxFlags(g, chosen, value);
    var g2 := UpdateBoxValue(g1, chosen, value);
    if g.groupType == AtMostOne && !value then
      if Names(g.plugins, chosen) then
        var i :| 0 <= i < |g.plugins| && g.plugins[i].name == chosen;
        LastNamedExists(g.plugins, chosen, i);
        g2.(files := [])
      else g2
    else UpdateFiles(g2, chosen)
  }

  /** When some plugin has the name, one of them is the last to have it. */
  lemma {:induction false} LastNamedExists(ps: seq<Plugin>, chosen: Text, i: int)
    requires 0 <= i < |ps| && ps[i].name == chosen
    ensures exists j :: IsLastNamed(ps, chosen, j)
    decreases |ps| - i
  {
    if forall j :: i < j < |ps| ==> ps[j].name != chosen {
      assert IsLastNamed(ps, chosen, i);
    } else {
      var j :| i < j < |ps| && ps[j].name == chosen;
      LastNamedExists(ps, chosen, j);
    }
  }

  /** The names of the plugins. */
  function PluginNames(ps: seq<Plugin>): set<Text>
  {
    set p | p in ps :: p.name
  }

  /** No box of the group is on. */
  predicate NoneSelected(g: InstallerGroup)
  {
    forall k :: k in g.boxes ==> !g.boxes[k]
  }

  /** Only the box of plugin `i` is on, and the group carries that plugin's flags and files. */
  predicate SelectedOnly(g: InstallerGroup, i: int)
  {
    && 0 <= i < |g.plugins|
    && g.plugins[i].name in g.boxes
    && (forall k :: k in g.boxes ==> (g.boxes[k] <==> k == g.plugins[i].name))
    && g.flags == g.plugins[i].flags
    && g.files == AppendAllNew([], g.plugins[i].files)
  }

  /** An exactly-one group: one plugin selected, its flags and files carried. */
  predicate ExactlyOneConsistent(g: InstallerGroup)
  {
    && g.groupType == ExactlyOne
    && UniqueNames(g.plugins)
    && g.boxes.Keys == PluginNames(g.plugins)
    && exists i :: 0 <= i < |g.plugins| && SelectedOnly(g, i)
  }

  /** An at-most-one group: nothing selected and nothing carried, or one plugin and its flags and files. */
  predicate AtMostOneConsistent(g: InstallerGroup)
  {
    && g.groupType == AtMostOne
    && UniqueNames(g.plugins)
    && g.boxes.Keys == PluginNames(g.plugins)
    && g.registered == PluginNames(g.plugins)
    && ((NoneSelected(g) && g.flags == map[] && g.files == []) || exists i :: 0 <= i < |g.plugins| && SelectedOnly(g, i))
  }

  lemma NameIndex(ps: seq<Plugin>, chosen: Text) returns (i: int)
    requires chosen in PluginNames(ps)
    ensures 0 <= i < |ps| && ps[i].name == chosen
  {
    var p :| p in ps && p.name == chosen;
    i :| 0 <= i < |ps| && ps[i] == p;
  }

  /** With unique names, a plugin name is carried by one plugin, which is the last with that name. */
  lemma LastIndex(ps: seq<Plugin>, chosen: Text) returns (i: int)
    requires UniqueNames(ps) && chosen in PluginNames(ps)
    ensures 0 <= i < |ps| && ps[i].name == chosen && IsLastNamed(ps, chosen, i)
  {
    i := NameIndex(ps, chosen);
    UniqueNamesLast(ps, i);
  }

  /** A radio event on the last plugin carrying its name selects that plugin alone. */
  lemma RadioButtonSelects(g: InstallerGroup, i: int)
    requires g.groupType == ExactlyOne || g.groupType == All
    requires 0 <= i < |g.plugins| && IsLastNamed(g.plugins, g.plugins[i].name, i)
    ensures SelectedOnly(RadioButton(g, g.plugins[i].name, true), i)
  {
  }

  /** `RadioButtonSelects` for whichever plugin is the last to carry the clicked name. */
  lemma RadioButtonSelectsLast(g: InstallerGroup, chosen: Text)
    requires g.groupType == ExactlyOne || g.groupType == All
    ensures forall i :: IsLastNamed(g.plugins, chosen, i) ==> SelectedOnly(RadioButton(g, chosen, true), i)
  {
    forall i | IsLastNamed(g.plugins, chosen, i) {
      RadioButtonSelects(g, i);
    }
  }

  /** Selecting a radio button of an exactly-one group keeps exactly one plugin selected. */
  lemma RadioButtonKeepsExactlyOne(g: InstallerGroup, chosen: Text)
    requires ExactlyOneConsistent(g)
    requires chosen in PluginNames(g.plugins)
    ensures ExactlyOneConsistent(RadioButton(g, chosen, true))
  {
    var i := LastIndex(g.plugins, chosen);
    RadioButtonSelects(g, i);
    SelectionFrame(g, RadioButton(g, chosen, true), i);
  }

  /** A selection step that keeps the plugins, type and box names keeps the group consistent. */
  lemma SelectionFrame(g: InstallerGroup, r: InstallerGroup, i: int)
    requires ExactlyOneConsistent(g)
    requires r.groupType == g.groupType && r.plugins == g.plugins && r.boxes.Keys == g.boxes.Keys
    requires 0 <= i < |r.plugins| && SelectedOnly(r, i)
    ensures ExactlyOneConsistent(r)
  {
  }

  /** Checking the box of the last plugin carrying its name selects that plugin alone. */
  lemma CheckBoxSelects(g: InstallerGroup, i: int)
    requires g.groupType == AtMostOne && g.registered == g.boxes.Keys
    requires 0 <= i < |g.plugins| && IsLastNamed(g.plugins, g.plugins[i].name, i)
    ensures SelectedOnly(CheckBox(g, g.plugins[i].name, true), i)
  {
  }

  /** `CheckBoxSelects` for whichever plugin is the last to carry the checked name. */
  lemma CheckBoxSelectsLast(g: InstallerGroup, chosen: Text)
    requires g.groupType == AtMostOne && g.registered == g.boxes.Keys
    ensures forall i :: IsLastNamed(g.plugins, chosen, i) ==> SelectedOnly(CheckBox(g, chosen, true), i)
  {
    forall i | IsLastNamed(g.plugins, chosen, i) {
      CheckBoxSelects(g, i);
    }
  }

  /** Unchecking the one selected box leaves nothing selected and nothing carried. */
  lemma CheckBoxClears(g: InstallerGroup, chosen: Text)
    requires g.groupType == AtMostOne && Names(g.plugins, chosen)
    requires chosen in g.boxes && forall k :: k in g.boxes && k != chosen ==> !g.boxes[k]
    ensures var r := CheckBox(g, chosen, false); NoneSelected(r) && r.flags == map[] && r.files == []
  {
    var i :| 0 <= i < |g.plugins| && g.plugins[i].name == chosen;
    LastNamedExists(g.plugins, chosen, i);
    var j :| IsLastNamed(g.plugins, chosen, j);
    var g1 := UpdateFlags(g, chosen, false);
    assert g1.flags == map[];
    CheckBoxOffShape(g, chosen);
  }

  /** Switching an at-most-one box off: flags cleared, the box set, files cleared. */
  lemma CheckBoxOffShape(g: InstallerGroup, chosen: Text)
    requires g.groupType == AtMostOne && Names(g.plugins, chosen)
    ensures CheckBox(g, chosen, false) == UpdateBoxValue(UpdateFlags(g, chosen, false), chosen, false).(files := [])
  {
  }

  /** A check-box step that keeps the plugins, type and box names keeps the group consistent. */
  lemma AtMostOneFrame(g: InstallerGroup, r: InstallerGroup)
    requires AtMostOneConsistent(g)
    requires r.groupType == g.groupType && r.plugins == g.plugins && r.boxes.Keys == g.boxes.Keys && r.registered == g.registered
    requires (NoneSelected(r) && r.flags == map[] && r.files == []) || exists i :: 0 <= i < |r.plugins| && SelectedOnly(r, i)
    ensures AtMostOneConsistent(r)
  {
  }

  /** A check-box step that keeps the plugins, type and box names and clears the selection keeps the group consistent. */
  lemma ClearedFrame(g: InstallerGroup, r: InstallerGroup)
    requires AtMostOneConsistent(g)
    requires r.groupType == g.groupType && r.plugins == g.plugins && r.boxes.Keys == g.boxes.Keys && r.registered == g.registered
    requires NoneSelected(r) && r.flags == map[] && r.files == []
    ensures AtMostOneConsistent(r)
  {
  }

  /**
   * Checking a box of an at-most-one group selects that plugin alone;
   * unchecking the selected box leaves nothing selected and nothing
   * carried.  The event's value is the box's new state.
   */
  lemma CheckBoxKeepsAtMostOne(g: InstallerGroup, chosen: Text, value: bool)
    requires AtMostOneConsistent(g)
    requires chosen in g.boxes && value == !g.boxes[chosen]
    ensures AtMostOneConsistent(CheckBox(g, chosen, value))
  {
    if value {
      CheckBoxOnKeepsAtMostOne(g, chosen);
    } else {
      CheckBoxOffKeepsAtMostOne(g, chosen);
    }
  }

  lemma CheckBoxOnKeepsAtMostOne(g: InstallerGroup, chosen: Text)
    requires AtMostOneConsistent(g) && chosen in g.boxes
    ensures AtMostOneConsistent(CheckBox(g, chosen, true))
  {
    var i := LastIndex(g.plugins, chosen);
    CheckBoxSelects(g, i);
    AtMostOneFrame(g, CheckBox(g, chosen, true));
  }

  lemma CheckBoxOffKeepsAtMostOne(g: InstallerGroup, chosen: Text)
    requires AtMostOneConsistent(g) && chosen in g.boxes && g.boxes[chosen]
    ensures AtMostOneConsistent(CheckBox(g, chosen, false))
  {
    CheckBoxOffClears(g, chosen);
    ClearedFrame(g, CheckBox(g, chosen, false));
  }

  /** Unchecking the selected box of a consistent at-most-one group clears the selection. */
  lemma CheckBoxOffClears(g: InstallerGroup, chosen: Text)
    requires AtMostOneConsistent(g) && chosen in g.boxes && g.boxes[chosen]
    ensures var r := CheckBox(g, chosen, false);
      NoneSelected(r) && r.flags == map[] && r.files == [] && r.boxes.Keys == g.boxes.Keys
  {
    SelectedIsOnly(g, chosen);
    CheckBoxClears(g, chosen);
  }

  /** In a consistent at-most-one group, a box that is on is a plugin's and the only one on. */
  lemma SelectedIsOnly(g: InstallerGroup, chosen: Text)
    requires AtMostOneConsistent(g) && chosen in g.boxes && g.boxes[chosen]
    ensures Names(g.plugins, chosen) && forall k :: k in g.boxes && k != chosen ==> !g.boxes[k]
  {
    var i := NameIndex(g.plugins, chosen);
  }

  /** Every event except switching an at-most-one box off is handled as written. */
  lemma CheckBoxAgrees(g: InstallerGroup, chosen: Text, value: bool)
    requires !(g.groupType == AtMostOne && !value)
    ensures CheckBox(g, chosen, value) == CheckBoxAsWritten(g, chosen, value)
  {
  }

  /**
   * As written, switching the only selected at-most-one box off clears the
   * box and the flags but leaves the group carrying the plugin's files.
   */
  lemma CheckBoxAsWrittenRefills(g: InstallerGroup, i: int)
    requires g.groupType == AtMostOne && 0 <= i < |g.plugins| && IsLastNamed(g.plugins, g.plugins[i].name, i)
    requires forall k :: k in g.boxes && k != g.plugins[i].name ==> !g.boxes[k]
    ensures var r := CheckBoxAsWritten(g, g.plugins[i].name, false);
      NoneSelected(r) && r.flags == map[] && r.files == AppendAllNew([], g.plugins[i].files)
  {
  }

  /**
   * As written, unchecking the selected box of a consistent at-most-one
   * group leaves no box on and no flag set, but the plugin's files carried.
   */
  lemma CheckBoxAsWrittenOff(g: InstallerGroup, chosen: Text)
    requires AtMostOneConsistent(g) && chosen in g.boxes && g.boxes[chosen]
    ensures var r := CheckBoxAsWritten(g, chosen, false);
      && NoneSelected(r) && r.flags == map[]
      && forall i :: 0 <= i < |g.plugins| && g.plugins[i].name == chosen ==> r.files == AppendAllNew([], g.plugins[i].files)
  {
    var i := LastIndex(g.plugins, chosen);
    SelectedIsOnly(g, chosen);
    CheckBoxAsWrittenRefills(g, i);
    var r := CheckBoxAsWritten(g, chosen, false);
    forall j | 0 <= j < |g.plugins| && g.plugins[j].name == chosen
      ensures r.files == AppendAllNew([], g.plugins[j].files)
    {
      assert j == i;
    }
  }

  /**
   * The input that shows it: in a consistent at-most-one group, check a
   * plugin that has files, then uncheck it.  No box is on and no flag is
   * set, yet the plugin's files remain, so the group is no longer
   * consistent.
   */
  lemma CheckBoxAsWrittenKeepsFilesOfUnselected(g: InstallerGroup, i: int)
    requires AtMostOneConsistent(g)
    requires 0 <= i < |g.plugins| && |g.plugins[i].files| > 0
    ensures var after := CheckBoxAsWritten(CheckBoxAsWritten(g, g.plugins[i].name, true), g.plugins[i].name, false);
      NoneSelected(after) && after.flags == map[] && after.files != [] && !AtMostOneConsistent(after)
  {
    var name := g.plugins[i].name;
    UniqueNamesLast(g.plugins, i);
    CheckBoxSelects(g, i);
    CheckBoxAgrees(g, name, true);
    var checked := CheckBoxAsWritten(g, name, true);
    CheckBoxAsWrittenRefills(checked, i);
    assert g.plugins[i].files[0] in CheckBoxAsWritten(checked, name, false).files;
  }
}

=== FILE: installer_group.dfy ===
/**
 * `InstallerGroup`: the selection state of one group while the wizard runs
 * — the checked state of each box, the registered check boxes of an
 * at-most-one group, the group's plugins, its current flags and files.
 */
module InstallerGroups {
  import opened Wrappers
  import opened Texts
  import opened Seqs
  import opened Descriptor

  datatype InstallerGroup = InstallerGroup(
    name: Text,
    groupType: Text,
    boxes: map<Text, bool>,
    registered: set<Text>,
    plugins: seq<Plugin>,
    flags: map<Text, Text>,
    files: seq<FileEntry>)

  /** A group as the step builder creates it. */
  function NewGroup(name: Text, groupType: Text): (r: InstallerGroup)
    ensures r.name == name && r.groupType == groupType
    ensures r.boxes == map[] && r.registered == {} && r.plugins == [] && r.flags == map[] && r.files == []
  {
    InstallerGroup(name, groupType, map[], {}, [], map[], [])
  }

  const ExactlyOne: Text := Some("SelectExactlyOne")
  const All: Text := Some("SelectAll")
  const AtMostOne: Text := Some("SelectAtMostOne")

  /** Group types whose flags and files are cleared and replaced on each selection. */
  predicate ReplacesSelection(groupType: Text)
  {
    groupType == ExactlyOne || groupType == All || groupType == AtMostOne
  }

  /** `add_plugin`: appends a plugin not yet in the list. */
  function AddPlugin(g: InstallerGroup, p: Plugin): (r: InstallerGroup)
    ensures |g.plugins| <= |r.plugins| <= |g.plugins| + 1
    ensures r.plugins[..|g.plugins|] == g.plugins
    ensures p in r.plugins
    ensures p in g.plugins ==> r.plugins == g.plugins
    ensures NoDuplicates(g.plugins) ==> NoDuplicates(r.plugins)
    ensures r.(plugins := g.plugins) == g
  {
    g.(plugins := AppendIfAbsent(g.plugins, p))
  }

  /** `update_box_value`: sets one box, leaving the others. */
  function UpdateBoxValue(g: InstallerGroup, key: Text, value: bool): (r: InstallerGroup)
    ensures r.boxes.Keys == g.boxes.Keys + {key} && r.boxes[key] == value
    ensures forall k :: k in g.boxes && k != key ==> r.boxes[k] == g.boxes[k]
    ensures r.(boxes := g.boxes) == g
  {
    g.(boxes := SetFlag(g.boxes, key, value))
  }

  /**
   * `update_radio_value`: when the button is switched off or is the first
   * of its group only its own entry changes; otherwise every other entry
   * is switched off, so exactly `key` is on.
   */
  function UpdateRadioValue(g: InstallerGroup, key: Text, value: bool, first: bool): (r: InstallerGroup)
    ensures r.boxes.Keys == g.boxes.Keys + {key} && r.boxes[key] == value
    ensures !value || first ==> forall k :: k in g.boxes && k != key ==> r.boxes[k] == g.boxes[k]
    ensures value && !first ==> forall k :: k in r.boxes ==> (r.boxes[k] <==> k == key)
    ensures r.(boxes := g.boxes) == g
  {
    if !value || first then UpdateBoxValue(g, key, value)
    else g.(boxes := (map k | k in g.boxes :: false)[key := value])
  }

  /**
   * `change_other_elements`: every registered box except `exclude` takes
   * `changeTo`; the other entries keep their values.
   */
  function ChangeOtherElements(g: InstallerGroup, changeTo: bool, exclude: Text): (r: InstallerGroup)
    ensures r.boxes.Keys == g.boxes.Keys + (g.registered - {exclude})
    ensures forall k :: k in g.registered && k != exclude ==> r.boxes[k] == changeTo
    ensures forall k :: k in g.boxes && (k !in g.registered || k == exclude) ==> r.boxes[k] == g.boxes[k]
    ensures r.(boxes := g.boxes) == g
  {
    g.(boxes := g.boxes + map k | k in g.registered && k != exclude :: changeTo)
  }

  /**
   * The pair-toggle rule of independent check boxes: a flag name the plugin
   * contributes is added with the plugin's value when absent and deleted
   * when present, whatever its stored value; other names are untouched.
   */
  function Toggle(m: map<Text, Text>, contributed: map<Text, Text>): (r: map<Text, Text>)
    ensures forall k :: k in contributed ==> (k in r <==> k !in m)
    ensures forall k :: k in contributed && k !in m ==> r[k] == contributed[k]
    ensures forall k :: k !in contributed ==> (k in r <==> k in m)
    ensures forall k :: k in m && k !in contributed ==> r[k] == m[k]
  {
    (map k | k in m && k !in contributed :: m[k]) + (map k | k in contributed && k !in m :: contributed[k])
  }

  /** Toggling the same contribution twice restores the set of flag names. */
  lemma ToggleTwiceKeys(m: map<Text, Text>, contributed: map<Text, Text>)
    ensures Toggle(Toggle(m, contributed), contributed).Keys == m.Keys
  {
    var once := Toggle(m, contributed);
    var twice := Toggle(once, contributed);
    forall k ensures k in twice <==> k in m {
      if k in contributed {
        assert k in twice <==> k !in once;
      }
    }
  }

  /** When the stored values agree with the plugin's, toggling twice restores the map. */
  lemma ToggleTwiceRestores(m: map<Text, Text>, contributed: map<Text, Text>)
    requires forall k :: k in m && k in contributed ==> m[k] == contributed[k]
    ensures Toggle(Toggle(m, contributed), contributed) == m
  {
    ToggleTwiceKeys(m, contributed);
  }

  /** `update_flags` for one plugin whose name matched. */
  function FlagsFor(flags: map<Text, Text>, groupType: Text, p: Plugin, atMostTrue: bool): (r: map<Text, Text>)
    ensures (groupType == ExactlyOne || groupType == All) ==> r == p.flags
    ensures groupType == AtMostOne ==> r == (if atMostTrue then p.flags else map[])
    ensures !ReplacesSelection(groupType) ==> r == Toggle(flags, p.flags)
  {
    if ReplacesSelection(groupType) then
      if atMostTrue || groupType == ExactlyOne || groupType == All then p.flags else map[]
    else Toggle(flags, p.flags)
  }

  /** Index of the last plugin named `name` in `ps`, if any. */
  predicate IsLastNamed(ps: seq<Plugin>, name: Text, i: int)
  {
    0 <= i < |ps| && ps[i].name == name && forall j :: i < j < |ps| ==> ps[j].name != name
  }

  /** How the last plugin of a name, or its absence, carries over to the tail of the list. */
  lemma LastNamedTail(ps: seq<Plugin>, name: Text)
    requires |ps| > 0
    ensures (forall i :: 0 <= i < |ps| ==> ps[i].name != name) ==> forall j :: 0 <= j < |ps| - 1 ==> ps[1..][j].name != name
    ensures forall i :: IsLastNamed(ps, name, i) && i > 0 ==> IsLastNamed(ps[1..], name, i - 1)
    ensures IsLastNamed(ps, name, 0) ==> forall j :: 0 <= j < |ps| - 1 ==> ps[1..][j].name != name
  {
    assert forall i :: 1 <= i < |ps| ==> ps[i] == ps[1..][i - 1];
  }

  /** The plugins of `ps` named `name`, in order. */
  function Named(ps: seq<Plugin>, name: Text): (r: seq<Plugin>)
    ensures forall p :: p in r ==> p in ps && p.name == name
    ensures forall i :: 0 <= i < |ps| && ps[i].name == name ==> ps[i] in r
    decreases |ps|
  {
    if |ps| == 0 then []
    else
      var rest := Named(ps[1..], name);
      assert forall i :: 1 <= i < |ps| ==> ps[i] == ps[1..][i - 1];
      (if ps[0].name == name then [ps[0]] else []) + rest
  }

  /** Toggles the flags of each plugin in turn. */
  function ToggleEach(flags: map<Text, Text>, ps: seq<Plugin>): map<Text, Text>
    decreases |ps|
  {
    if |ps| == 0 then flags else ToggleEach(Toggle(flags, ps[0].flags), ps[1..])
  }

  /** Appends the files of each plugin in turn, skipping those already present. */
  function AppendEachNew(files: seq<FileEntry>, ps: seq<Plugin>): seq<FileEntry>
    decreases |ps|
  {
    if |ps| == 0 then files else AppendEachNew(AppendAllNew(files, ps[0].files), ps[1..])
  }

  /** Applies `FlagsFor` for every plugin in `ps` named `name`, in order. */
  function FlagsOver(flags: map<Text, Text>, groupType: Text, ps: seq<Plugin>, name: Text, atMostTrue: bool): (r: map<Text, Text>)
    ensures (forall i :: 0 <= i < |ps| ==> ps[i].name != name) ==> r == flags
    ensures ReplacesSelection(groupType) ==>
      forall i :: IsLastNamed(ps, name, i) ==> r == FlagsFor(flags, groupType, ps[i], atMostTrue)
    decreases |ps|
  {
    if |ps| == 0 then flags
    else
      var next := if ps[0].name == name then FlagsFor(flags, groupType, ps[0], atMostTrue) else flags;
      var r := FlagsOver(next, groupType, ps[1..], name, atMostTrue);
      LastNamedTail(ps, name);
      r
  }

  /**
   * `update_flags`: for a radio-style group the flags become exactly the
   * named plugin's (or nothing, for an at-most-one box being switched off);
   * for other groups the plugin's flags are pair-toggled.  No-op when no
   * plugin has that name.
   */
  function UpdateFlags(g: InstallerGroup, name: Text, atMostTrue: bool): (r: InstallerGroup)
    ensures (forall i :: 0 <= i < |g.plugins| ==> g.plugins[i].name != name) ==> r == g
    ensures (g.groupType == ExactlyOne || g.groupType == All) ==>
      forall i :: IsLastNamed(g.plugins, name, i) ==> r.flags == g.plugins[i].flags
    ensures g.groupType == AtMostOne && !atMostTrue ==>
      forall i :: IsLastNamed(g.plugins, name, i) ==> r.flags == map[]
    ensures g.groupType == AtMostOne && atMostTrue ==>
      forall i :: IsLastNamed(g.plugins, name, i) ==> r.flags == g.plugins[i].flags
    ensures !ReplacesSelection(g.groupType) && UniqueNames(g.plugins) ==>
      forall i :: 0 <= i < |g.plugins| && g.plugins[i].name == name ==> r.flags == Toggle(g.flags, g.plugins[i].flags)
    ensures !ReplacesSelection(g.groupType) ==> r.flags == ToggleEach(g.flags, Named(g.plugins, name))
    ensures r.(flags := g.flags) == g
  {
    FlagsOverToggles(g.flags, g.groupType, g.plugins, name, atMostTrue);
    if UniqueNames(g.plugins) then
      FlagsOverUnique(g.flags, g.groupType, g.plugins, name, atMostTrue);
      g.(flags := FlagsOver(g.flags, g.groupType, g.plugins, name, atMostTrue))
    else g.(flags := FlagsOver(g.flags, g.groupType, g.plugins, name, atMostTrue))
  }

  /** `update_files` for one plugin whose name matched. */
  function FilesFor(files: seq<FileEntry>, groupType: Text, p: Plugin): (r: seq<FileEntry>)
    ensures ReplacesSelection(groupType) ==> r == AppendAllNew([], p.files)
    ensures !ReplacesSelection(groupType) ==> r == AppendAllNew(files, p.files)
  {
    AppendAllNew(if ReplacesSelection(groupType) then [] else files, p.files)
  }

  /** Applies `FilesFor` for every plugin in `ps` named `name`, in order. */
  function FilesOver(files: seq<FileEntry>, groupType: Text, ps: seq<Plugin>, name: Text): (r: seq<FileEntry>)
    ensures (forall i :: 0 <= i < |ps| ==> ps[i].name != name) ==> r == files
    ensures ReplacesSelection(groupType) ==>
      forall i :: IsLastNamed(ps, name, i) ==> r == AppendAllNew([], ps[i].files)
    ensures !ReplacesSelection(groupType) ==> |files| <= |r| && r[..|files|] == files
    decreases |ps|
  {
    if |ps| == 0 then files
    else
      var next := if ps[0].name == name then FilesFor(files, groupType, ps[0]) else files;
      var r := FilesOver(next, groupType, ps[1..], name);
      LastNamedTail(ps, name);
      if ReplacesSelection(groupType) then r
      else
        assert next[..|files|] == files;
        PrefixOfPrefix(files, next, r);
        r
  }

  /**
   * `update_files`: for a radio-style group the list is cleared and refilled
   * with the named plugin's files, each once; for other groups the plugin's
   * files not yet present are appended and nothing is removed.  No-op when
   * no plugin has that name.
   */
  function UpdateFiles(g: InstallerGroup, name: Text): (r: InstallerGroup)
    ensures (forall i :: 0 <= i < |g.plugins| ==> g.plugins[i].name != name) ==> r == g
    ensures ReplacesSelection(g.groupType) ==>
      forall i :: IsLastNamed(g.plugins, name, i) ==> r.files == AppendAllNew([], g.plugins[i].files)
    ensures !ReplacesSelection(g.groupType) ==> |g.files| <= |r.files| && r.files[..|g.files|] == g.files
    ensures !ReplacesSelection(g.groupType) && UniqueNames(g.plugins) ==>
      forall i :: 0 <= i < |g.plugins| && g.plugins[i].name == name ==> r.files == AppendAllNew(g.files, g.plugins[i].files)
    ensures !ReplacesSelection(g.groupType) ==> r.files == AppendEachNew(g.files, Named(g.plugins, name))
    ensures r.(files := g.files) == g
  {
    FilesOverAppends(g.files, g.groupType, g.plugins, name);
    if UniqueNames(g.plugins) then
      FilesOverUnique(g.files, g.groupType, g.plugins, name);
      g.(files := FilesOver(g.files, g.groupType, g.plugins, name))
    else g.(files := FilesOver(g.files, g.groupType, g.plugins, name))
  }

  /** A prefix of a prefix is a prefix. */
  lemma PrefixOfPrefix(a: seq<FileEntry>, b: seq<FileEntry>, c: seq<FileEntry>)
    requires |a| <= |b| <= |c| && b[..|a|] == a && c[..|b|] == b
    ensures c[..|a|] == a
  {
    assert c[..|b|][..|a|] == c[..|a|];
  }

  /** Names are unique among the plugins. */
  predicate UniqueNames(ps: seq<Plugin>)
  {
    forall i, j :: 0 <= i < j < |ps| ==> ps[i].name != ps[j].name
  }

  lemma UniqueNamesLast(ps: seq<Plugin>, i: int)
    requires UniqueNames(ps) && 0 <= i < |ps|
    ensures IsLastNamed(ps, ps[i].name, i)
  {
  }

  /**
   * Pair toggle on an independent check-box group: selecting the same
   * plugin twice gives back the original set of flag names.
   */
  lemma UpdateFlagsTwiceRestoresNames(g: InstallerGroup, i: int)
    requires !ReplacesSelection(g.groupType)
    requires UniqueNames(g.plugins) && 0 <= i < |g.plugins|
    ensures UpdateFlags(UpdateFlags(g, g.plugins[i].name, false), g.plugins[i].name, false).flags.Keys == g.flags.Keys
  {
    var name := g.plugins[i].name;
    var once := UpdateFlags(g, name, false);
    assert once.flags == Toggle(g.flags, g.plugins[i].flags) by { FlagsOverSingle(g.flags, g.groupType, g.plugins, i, false); }
    assert UpdateFlags(once, name, false).flags == Toggle(once.flags, g.plugins[i].flags) by {
      FlagsOverSingle(once.flags, g.groupType, g.plugins, i, false);
    }
    ToggleTwiceKeys(g.flags, g.plugins[i].flags);
  }

  /**
   * Independent check-box group: selecting the same plugin a second time
   * adds no file, since every one of its files is already listed.
   */
  lemma UpdateFilesTwiceAddsNothing(g: InstallerGroup, i: int)
    requires !ReplacesSelection(g.groupType)
    requires UniqueNames(g.plugins) && 0 <= i < |g.plugins|
    ensures UpdateFiles(UpdateFiles(g, g.plugins[i].name), g.plugins[i].name).files == UpdateFiles(g, g.plugins[i].name).files
  {
    var name := g.plugins[i].name;
    var once := UpdateFiles(g, name);
    FilesOverSingle(g.files, g.groupType, g.plugins, i);
    FilesOverSingle(once.files, g.groupType, g.plugins, i);
    AppendAllNewPresent(once.files, g.plugins[i].files);
  }

  /** With unique names, `FlagsOver` applies exactly the one matching plugin. */
  lemma {:induction false} FlagsOverSingle(flags: map<Text, Text>, groupType: Text, ps: seq<Plugin>, i: int, atMostTrue: bool)
    requires UniqueNames(ps) && 0 <= i < |ps|
    ensures FlagsOver(flags, groupType, ps, ps[i].name, atMostTrue) == FlagsFor(flags, groupType, ps[i], atMostTrue)
    decreases |ps|
  {
    var name := ps[i].name;
    assert forall j :: 1 <= j < |ps| ==> ps[j] == ps[1..][j - 1];
    if i == 0 {
      assert forall j :: 0 <= j < |ps[1..]| ==> ps[1..][j].name != name;
    } else {
      FlagsOverSingle(flags, groupType, ps[1..], i - 1, atMostTrue);
    }
  }

  /** `FlagsOverSingle` for every plugin carrying the name. */
  lemma FlagsOverUnique(flags: map<Text, Text>, groupType: Text, ps: seq<Plugin>, name: Text, atMostTrue: bool)
    requires UniqueNames(ps)
    ensures forall i :: 0 <= i < |ps| && ps[i].name == name ==>
      FlagsOver(flags, groupType, ps, name, atMostTrue) == FlagsFor(flags, groupType, ps[i], atMostTrue)
  {
    forall i | 0 <= i < |ps| && ps[i].name == name {
      FlagsOverSingle(flags, groupType, ps, i, atMostTrue);
    }
  }

  /** With unique names, `FilesOver` applies exactly the one matching plugin. */
  lemma {:induction false} FilesOverSingle(files: seq<FileEntry>, groupType: Text, ps: seq<Plugin>, i: int)
    requires UniqueNames(ps) && 0 <= i < |ps|
    ensures FilesOver(files, groupType, ps, ps[i].name) == FilesFor(files, groupType, ps[i])
    decreases |ps|
  {
    var name := ps[i].name;
    assert forall j :: 1 <= j < |ps| ==> ps[j] == ps[1..][j - 1];
    if i == 0 {
      assert forall j :: 0 <= j < |ps[1..]| ==> ps[1..][j].name != name;
    } else {
      FilesOverSingle(files, groupType, ps[1..], i - 1);
    }
  }

  /** `FilesOverSingle` for every plugin carrying the name. */
  lemma FilesOverUnique(files: seq<FileEntry>, groupType: Text, ps: seq<Plugin>, name: Text)
    requires UniqueNames(ps)
    ensures forall i :: 0 <= i < |ps| && ps[i].name == name ==>
      FilesOver(files, groupType, ps, name) == FilesFor(files, groupType, ps[i])
  {
    forall i | 0 <= i < |ps| && ps[i].name == name {
      FilesOverSingle(files, groupType, ps, i);
    }
  }

  /**
   * In an independent group, `update_flags` toggles the flags of every
   * plugin carrying the name, one after the other, whatever the names.
   */
  lemma {:induction false} FlagsOverToggles(flags: map<Text, Text>, groupType: Text, ps: seq<Plugin>, name: Text, atMostTrue: bool)
    ensures !ReplacesSelection(groupType) ==> FlagsOver(flags, groupType, ps, name, atMostTrue) == ToggleEach(flags, Named(ps, name))
    decreases |ps|
  {
    if |ps| > 0 {
      var next := if ps[0].name == name then FlagsFor(flags, groupType, ps[0], atMostTrue) else flags;
      FlagsOverToggles(next, groupType, ps[1..], name, atMostTrue);
      if ps[0].name == name {
        assert ([ps[0]] + Named(ps[1..], name))[1..] == Named(ps[1..], name);
      } else {
        assert Named(ps, name) == Named(ps[1..], name);
      }
    }
  }

  /**
   * In an independent group, `update_files` appends the new files of every
   * plugin carrying the name, one after the other, whatever the names.
   */
  lemma {:induction false} FilesOverAppends(files: seq<FileEntry>, groupType: Text, ps: seq<Plugin>, name: Text)
    ensures !ReplacesSelection(groupType) ==> FilesOver(files, groupType, ps, name) == AppendEachNew(files, Named(ps, name))
    decreases |ps|
  {
    if |ps| > 0 {
      var next := if ps[0].name == name then FilesFor(files, groupType, ps[0]) else files;
      FilesOverAppends(next, groupType, ps[1..], name);
      if ps[0].name == name {
        assert ([ps[0]] + Named(ps[1..], name))[1..] == Named(ps[1..], name);
      } else {
        assert Named(ps, name) == Named(ps[1..], name);
      }
    }
  }
}

=== FILE: loader.dfy ===
/**
 * The descriptor loader (`get_fomod_info`, `get_fomod_config`) as a pure walk
 * over an already parsed element tree.  A document that is absent stands for
 * a missing file.  Where the source would raise (an attribute read on a
 * missing element, `rstrip` on a missing text node) the walk returns `Err`.
 */
module Loader {
  import opened Wrappers
  import opened Texts
  import opened Seqs
  import opened ElementTree
  import opened Ordering
  import opened Descriptor

  /** Why the source aborts a load: a required element or text node is missing. */
  datatype LoadError = MissingElement(tag: string) | MissingText(tag: string)

  /** The value of an attribute the loader reads only when present. */
  function AttrOr(e: Element, name: string, default: string): (r: string)
    ensures name !in e.attrs ==> r == default
    ensures name in e.attrs ==> r == e.attrs[name]
  {
    match Get(e, name)
    case None => default
    case Some(v) => v
  }

  /** One `file` or `folder` element: each attribute that is absent keeps its default. */
  function ReadFile(e: Element): (f: FileEntry)
    ensures "source" !in e.attrs ==> f.source == ""
    ensures "destination" !in e.attrs ==> f.destination == ""
    ensures "alwaysInstall" !in e.attrs ==> f.alwaysInstall == ""
    ensures "installIfUsable" !in e.attrs ==> f.installIfUsable == ""
    ensures "priority" !in e.attrs ==> f.priority == None
    ensures "source" in e.attrs ==> f.source == e.attrs["source"]
    ensures "destination" in e.attrs ==> f.destination == e.attrs["destination"]
    ensures "alwaysInstall" in e.attrs ==> f.alwaysInstall == e.attrs["alwaysInstall"]
    ensures "installIfUsable" in e.attrs ==> f.installIfUsable == e.attrs["installIfUsable"]
    ensures "priority" in e.attrs ==> f.priority == Some(e.attrs["priority"])
  {
    DefaultFile.(
      source := AttrOr(e, "source", DefaultFile.source),
      destination := AttrOr(e, "destination", DefaultFile.destination),
      alwaysInstall := AttrOr(e, "alwaysInstall", DefaultFile.alwaysInstall),
      installIfUsable := AttrOr(e, "installIfUsable", DefaultFile.installIfUsable),
      priority := Get(e, "priority"))
  }

  /** A `file` element carrying every field of `f` as an attribute, `priority` only when set. */
  function FileElementOf(tag: string, f: FileEntry): (e: Element)
  {
    var attrs := map["source" := f.source, "destination" := f.destination,
                     "alwaysInstall" := f.alwaysInstall, "installIfUsable" := f.installIfUsable];
    Element(tag, if f.priority.Some? then attrs["priority" := f.priority.value] else attrs, None, [])
  }

  /** Reading back an entry written out as attributes gives the entry. */
  lemma ReadFileRoundTrip(tag: string, f: FileEntry)
    ensures ReadFile(FileElementOf(tag, f)) == f
  {
  }

  function ReadFiles(es: seq<Element>): (r: seq<FileEntry>)
    ensures |r| == |es|
    ensures forall i :: 0 <= i < |es| ==> r[i] == ReadFile(es[i])
  {
    if |es| == 0 then [] else [ReadFile(es[0])] + ReadFiles(es[1..])
  }

  /** The entries under `files/file` followed by those under `files/folder`. */
  function FileElements(e: Element): seq<Element>
  {
    FindAll(e, ["files", "file"]) + FindAll(e, ["files", "folder"])
  }

  /**
   * Folds last-write-wins flag updates over `pairs`: every key seen is
   * present; other keys are untouched (`SetFlagsLastWins` gives the values).
   */
  function SetFlags<K, V>(m: map<K, V>, pairs: seq<(K, V)>): (r: map<K, V>)
    ensures forall k :: k in r ==> k in m || exists i :: 0 <= i < |pairs| && pairs[i].0 == k
    ensures forall k :: k in m ==> k in r
    ensures forall i :: 0 <= i < |pairs| ==> pairs[i].0 in r
    decreases |pairs|
  {
    if |pairs| == 0 then m
    else
      var r := SetFlags(SetFlag(m, pairs[0].0, pairs[0].1), pairs[1..]);
      assert forall i :: 1 <= i < |pairs| ==> pairs[i] == pairs[1..][i - 1];
      r
  }

  /** A key takes the value of its last pair; keys without a pair keep theirs. */
  lemma {:induction false} SetFlagsLastWins<K, V>(m: map<K, V>, pairs: seq<(K, V)>, i: nat)
    requires i < |pairs|
    requires forall j :: i < j < |pairs| ==> pairs[j].0 != pairs[i].0
    ensures SetFlags(m, pairs)[pairs[i].0] == pairs[i].1
    decreases |pairs|
  {
    var m' := SetFlag(m, pairs[0].0, pairs[0].1);
    if i == 0 {
      SetFlagsUntouched(m', pairs[1..], pairs[0].0);
    } else {
      SetFlagsLastWins(m', pairs[1..], i - 1);
    }
  }

  /** `SetFlagsLastWins` for every pair that is the last with its key. */
  lemma SetFlagsEachLastWins<K, V>(m: map<K, V>, pairs: seq<(K, V)>)
    ensures forall i :: 0 <= i < |pairs| && (forall j :: i < j < |pairs| ==> pairs[j].0 != pairs[i].0) ==>
      pairs[i].0 in SetFlags(m, pairs) && SetFlags(m, pairs)[pairs[i].0] == pairs[i].1
  {
    forall i | 0 <= i < |pairs| && (forall j :: i < j < |pairs| ==> pairs[j].0 != pairs[i].0) {
      SetFlagsLastWins(m, pairs, i);
    }
  }

  lemma {:induction false} SetFlagsUntouched<K, V>(m: map<K, V>, pairs: seq<(K, V)>, k: K)
    requires k in m
    requires forall j :: 0 <= j < |pairs| ==> pairs[j].0 != k
    ensures SetFlags(m, pairs)[k] == m[k]
    decreases |pairs|
  {
    if |pairs| > 0 {
      SetFlagsUntouched(SetFlag(m, pairs[0].0, pairs[0].1), pairs[1..], k);
    }
  }

  /** A `flagDependency` names both its flag and its value. */
  predicate IsComplete(d: Element)
  {
    "flag" in d.attrs && "value" in d.attrs
  }

  /** The (flag, value) pairs of the complete dependencies, in order. */
  function DependencyPairs(deps: seq<Element>): seq<(string, string)>
  {
    if |deps| == 0 then []
    else
      var d := deps[0];
      var rest := DependencyPairs(deps[1..]);
      if IsComplete(d) then [(d.attrs["flag"], d.attrs["value"])] + rest else rest
  }

  /** The flags named by complete dependencies. */
  function CompleteFlags(deps: seq<Element>): set<string>
  {
    set d | d in deps && IsComplete(d) :: d.attrs["flag"]
  }

  /** The keys a sequence of pairs sets. */
  function Firsts<K, V>(pairs: seq<(K, V)>): set<K>
  {
    if |pairs| == 0 then {} else {pairs[0].0} + Firsts(pairs[1..])
  }

  /** The keys after a fold are the keys before plus every key of a pair. */
  lemma {:induction false} SetFlagsKeys<K, V>(m: map<K, V>, pairs: seq<(K, V)>)
    ensures SetFlags(m, pairs).Keys == m.Keys + Firsts(pairs)
    decreases |pairs|
  {
    if |pairs| > 0 {
      SetFlagsKeys(SetFlag(m, pairs[0].0, pairs[0].1), pairs[1..]);
    }
  }

  lemma {:induction false} DependencyPairsFlags(deps: seq<Element>)
    ensures Firsts(DependencyPairs(deps)) == CompleteFlags(deps)
    decreases |deps|
  {
    if |deps| > 0 {
      DependencyPairsFlags(deps[1..]);
      var d := deps[0];
      assert deps == [d] + deps[1..];
      assert CompleteFlags(deps) == (if IsComplete(d) then {d.attrs["flag"]} else {}) + CompleteFlags(deps[1..]);
    }
  }

  /** Adds each entry through `FomodPattern.add_file`. */
  function PatternAddFiles(p: Pattern, fs: seq<FileEntry>): (r: Pattern)
    ensures r.flags == p.flags
    ensures r.files == AppendAllNew(p.files, fs)
    decreases |fs|
  {
    if |fs| == 0 then p else PatternAddFiles(PatternAddFile(p, fs[0]), fs[1..])
  }

  /**
   * One `conditionalFileInstalls/patterns/pattern`: a flag is recorded only
   * when its dependency carries both `flag` and `value`; the files are the
   * `files/file` then `files/folder` entries, each kept once.
   */
  function ReadPattern(e: Element): (r: Pattern)
    ensures r.flags == DependencyFlags(FindAll(e, ["dependencies", "flagDependency"]))
    ensures r.flags.Keys == CompleteFlags(FindAll(e, ["dependencies", "flagDependency"]))
    ensures NoDuplicates(r.files)
    ensures forall f :: f in r.files ==> f in ReadFiles(FileElements(e))
    ensures forall f :: f in ReadFiles(FileElements(e)) ==> f in r.files
  {
    var deps := FindAll(e, ["dependencies", "flagDependency"]);
    var flags := DependencyFlags(deps);
    PatternAddFiles(EmptyPattern.(flags := flags), ReadFiles(FileElements(e)))
  }

  /**
   * The flag map of the complete dependencies, last write winning: exactly
   * the flags some complete dependency names are recorded.
   */
  function DependencyFlags(deps: seq<Element>): (r: map<string, string>)
    ensures r.Keys == CompleteFlags(deps)
  {
    SetFlagsKeys(map[], DependencyPairs(deps));
    DependencyPairsFlags(deps);
    SetFlags(map[], DependencyPairs(deps))
  }

  /** A key that no pair sets keeps its value. */
  lemma {:induction false} SetFlagsFresh<K, V>(m: map<K, V>, pairs: seq<(K, V)>, k: K)
    requires k in m && k !in Firsts(pairs)
    ensures SetFlags(m, pairs)[k] == m[k]
    decreases |pairs|
  {
    if |pairs| > 0 {
      SetFlagsFresh(SetFlag(m, pairs[0].0, pairs[0].1), pairs[1..], k);
    }
  }

  /**
   * A recorded flag takes the value of the last complete dependency naming it,
   * whatever the map held before.
   */
  lemma {:induction false} DependencyPairsLastWins(m: map<string, string>, deps: seq<Element>, i: nat)
    requires i < |deps| && IsComplete(deps[i])
    requires forall j :: i < j < |deps| && IsComplete(deps[j]) ==> deps[j].attrs["flag"] != deps[i].attrs["flag"]
    ensures deps[i].attrs["flag"] in SetFlags(m, DependencyPairs(deps))
    ensures SetFlags(m, DependencyPairs(deps))[deps[i].attrs["flag"]] == deps[i].attrs["value"]
    decreases |deps|
  {
    var d := deps[0];
    var m' := if IsComplete(d) then SetFlag(m, d.attrs["flag"], d.attrs["value"]) else m;
    var rest := DependencyPairs(deps[1..]);
    if IsComplete(d) {
      assert ([(d.attrs["flag"], d.attrs["value"])] + rest)[1..] == rest;
    }
    assert SetFlags(m, DependencyPairs(deps)) == SetFlags(m', rest);
    if i == 0 {
      DependencyPairsFlags(deps[1..]);
      assert forall j :: 0 <= j < |deps[1..]| ==> deps[1..][j] == deps[j + 1];
      assert d.attrs["flag"] !in CompleteFlags(deps[1..]);
      SetFlagsFresh(m', rest, d.attrs["flag"]);
    } else {
      DependencyPairsLastWins(m', deps[1..], i - 1);
    }
  }

  /** `DependencyFlags` keeps the value of the last complete dependency for each flag. */
  lemma DependencyFlagsLastWins(deps: seq<Element>, i: nat)
    requires i < |deps| && IsComplete(deps[i])
    requires forall j :: i < j < |deps| && IsComplete(deps[j]) ==> deps[j].attrs["flag"] != deps[i].attrs["flag"]
    ensures deps[i].attrs["flag"] in DependencyFlags(deps)
    ensures DependencyFlags(deps)[deps[i].attrs["flag"]] == deps[i].attrs["value"]
  {
    DependencyPairsLastWins(map[], deps, i);
  }

  function ReadPatterns(es: seq<Element>): (r: seq<Pattern>)
    ensures |r| == |es|
    ensures forall i :: 0 <= i < |es| ==> r[i] == ReadPattern(es[i])
  {
    if |es| == 0 then [] else [ReadPattern(es[0])] + ReadPatterns(es[1..])
  }

  /** Applies `read` to each element; the first failure aborts the whole walk. */
  function ReadEach<T>(es: seq<Element>, read: Element -> Result<T, LoadError>): (r: Result<seq<T>, LoadError>)
    ensures r.Ok? <==> forall i :: 0 <= i < |es| ==> read(es[i]).Ok?
    ensures r.Ok? ==> |r.value| == |es| && forall i :: 0 <= i < |es| ==> read(es[i]) == Ok(r.value[i])
    decreases |es|
  {
    if |es| == 0 then Ok([])
    else match read(es[0])
      case Err(err) => Err(err)
      case Ok(x) =>
        match ReadEach(es[1..], read)
        case Err(err) => Err(err)
        case Ok(xs) =>
          assert forall i :: 1 <= i < |es| ==> es[i] == es[1..][i - 1];
          Ok([x] + xs)
  }

  /** Adds the entries through `FomodPlugin.add_file`, duplicates included. */
  function PluginAddFiles(p: Plugin, fs: seq<FileEntry>): (r: Plugin)
    ensures r.files == p.files + fs
    ensures r.(files := p.files) == p
    decreases |fs|
  {
    if |fs| == 0 then p
    else
      assert p.files + fs == (p.files + [fs[0]]) + fs[1..];
      PluginAddFiles(PluginAddFile(p, fs[0]), fs[1..])
  }

  /** The `conditionFlags/flag` pairs: name from `@name`, value from the text. */
  function ConditionFlagPairs(es: seq<Element>): (r: seq<(Text, Text)>)
    ensures |r| == |es|
    ensures forall i :: 0 <= i < |es| ==> r[i] == (Get(es[i], "name"), es[i].text)
  {
    if |es| == 0 then [] else [(Get(es[0], "name"), es[0].text)] + ConditionFlagPairs(es[1..])
  }

  /**
   * A plugin's flag map: every `conditionFlags/flag` name is a key, nothing
   * else is, and a name takes the text of the last element carrying it.
   */
  function ConditionFlags(es: seq<Element>): (r: map<Text, Text>)
    ensures forall i :: 0 <= i < |es| ==> Get(es[i], "name") in r
    ensures forall k :: k in r ==> exists i :: 0 <= i < |es| && Get(es[i], "name") == k
    ensures forall i :: 0 <= i < |es| && (forall j :: i < j < |es| ==> Get(es[j], "name") != Get(es[i], "name")) ==>
      r[Get(es[i], "name")] == es[i].text
  {
    var pairs := ConditionFlagPairs(es);
    SetFlagsEachLastWins(map[], pairs);
    SetFlags(map[], pairs)
  }

  /** An optional element's attribute: the default when the element is missing. */
  function AttrOfOptional(e: Element, path: seq<string>, name: string): (r: Text)
    ensures Find(e, path).None? ==> r == Some("")
    ensures Find(e, path).Some? ==> r == Get(Find(e, path).value, name)
  {
    match Find(e, path)
    case None => Some("")
    case Some(x) => Get(x, name)
  }

  /**
   * One `plugins/plugin`.  Its `description` child is required; its files
   * are every `files/file` entry then every `files/folder` entry, in
   * document order and without deduplication.
   */
  function ReadPlugin(e: Element): (r: Result<Plugin, LoadError>)
    ensures r.Err? <==> Find(e, ["description"]).None?
    ensures r.Ok? ==> r.value.name == Get(e, "name")
    ensures r.Ok? ==> r.value.description == Find(e, ["description"]).value.text
    ensures r.Ok? ==> r.value.files == ReadFiles(FindAll(e, ["files", "file"])) + ReadFiles(FindAll(e, ["files", "folder"]))
    ensures r.Ok? ==> r.value.flags == ConditionFlags(FindAll(e, ["conditionFlags", "flag"]))
    ensures r.Ok? && Find(e, ["image"]).None? ==> r.value.image == Some("")
    ensures r.Ok? && Find(e, ["typeDescriptor", "type"]).None? ==> r.value.typeName == Some("")
    ensures r.Ok? ==> r.value.image == AttrOfOptional(e, ["image"], "path")
    ensures r.Ok? ==> r.value.typeName == AttrOfOptional(e, ["typeDescriptor", "type"], "name")
  {
    match Find(e, ["description"])
    case None => Err(MissingElement("description"))
    case Some(desc) =>
      var p := EmptyPlugin.(
        name := Get(e, "name"),
        description := desc.text,
        image := AttrOfOptional(e, ["image"], "path"),
        typeName := AttrOfOptional(e, ["typeDescriptor", "type"], "name"));
      var withFiles := PluginAddFiles(PluginAddFiles(p, ReadFiles(FindAll(e, ["files", "file"]))),
                                      ReadFiles(FindAll(e, ["files", "folder"])));
      Ok(withFiles.(flags := ConditionFlags(FindAll(e, ["conditionFlags", "flag"]))))
  }

  function PluginName(p: Plugin): Text { p.name }

  function GroupName(g: Group): Text { g.name }

  /** Adds the plugins through `FomodGroup.add_plugin`. */
  function GroupAddPlugins(g: Group, ps: seq<Plugin>): (r: Group)
    ensures r.plugins == g.plugins + ps
    ensures r.(plugins := g.plugins) == g
    decreases |ps|
  {
    if |ps| == 0 then g
    else
      assert g.plugins + ps == (g.plugins + [ps[0]]) + ps[1..];
      GroupAddPlugins(GroupAddPlugin(g, ps[0]), ps[1..])
  }

  /** Adds the groups through `FomodStep.add_group`. */
  function StepAddGroups(s: Step, gs: seq<Group>): (r: Step)
    ensures r.groups == s.groups + gs
    ensures r.(groups := s.groups) == s
    decreases |gs|
  {
    if |gs| == 0 then s
    else
      assert s.groups + gs == (s.groups + [gs[0]]) + gs[1..];
      StepAddGroups(StepAddGroup(s, gs[0]), gs[1..])
  }

  /** Adds the visibility pairs through `FomodStep.add_flag`, unchecked. */
  function StepAddFlags(s: Step, deps: seq<Element>): (r: Step)
    ensures r.(visibility := s.visibility) == s
    ensures forall d :: d in deps ==> Get(d, "flag") in r.visibility
    ensures forall k :: k in s.visibility ==> k in r.visibility
    ensures forall k :: k in r.visibility ==> k in s.visibility || exists d :: d in deps && Get(d, "flag") == k
    decreases |deps|
  {
    if |deps| == 0 then s
    else
      var r := StepAddFlags(StepAddFlag(s, Get(deps[0], "flag"), Get(deps[0], "value")), deps[1..]);
      assert forall d :: d in deps[1..] ==> d in deps;
      assert forall d :: d in deps ==> d == deps[0] || d in deps[1..];
      r
  }

  /** The `visible/flagDependency` pairs: flag from `@flag`, value from `@value`. */
  function VisibilityPairs(deps: seq<Element>): (r: seq<(Text, Text)>)
    ensures |r| == |deps|
    ensures forall i :: 0 <= i < |deps| ==> r[i] == (Get(deps[i], "flag"), Get(deps[i], "value"))
  {
    if |deps| == 0 then [] else [(Get(deps[0], "flag"), Get(deps[0], "value"))] + VisibilityPairs(deps[1..])
  }

  /** Adding the pairs one `add_flag` at a time is the last-write-wins fold over them. */
  lemma {:induction false} StepAddFlagsFold(s: Step, deps: seq<Element>)
    ensures StepAddFlags(s, deps).visibility == SetFlags(s.visibility, VisibilityPairs(deps))
    decreases |deps|
  {
    if |deps| > 0 {
      var s' := StepAddFlag(s, Get(deps[0], "flag"), Get(deps[0], "value"));
      StepAddFlagsFold(s', deps[1..]);
      assert VisibilityPairs(deps)[1..] == VisibilityPairs(deps[1..]);
    }
  }

  /**
   * A step's visibility map: every `visible/flagDependency` flag is a key,
   * nothing else is, and a flag takes the value of the last dependency
   * naming it.
   */
  function VisibilityFlags(deps: seq<Element>): (r: map<Text, Text>)
    ensures forall i :: 0 <= i < |deps| ==> Get(deps[i], "flag") in r
    ensures forall k :: k in r ==> exists i :: 0 <= i < |deps| && Get(deps[i], "flag") == k
    ensures forall i :: 0 <= i < |deps| && (forall j :: i < j < |deps| ==> Get(deps[j], "flag") != Get(deps[i], "flag")) ==>
      r[Get(deps[i], "flag")] == Get(deps[i], "value")
  {
    var pairs := VisibilityPairs(deps);
    SetFlagsEachLastWins(map[], pairs);
    SetFlags(map[], pairs)
  }

  /**
   * One `optionalFileGroups/group`.  Its `plugins` child is required; when
   * that child carries an `order`, the plugins are ordered by name.
   */
  function ReadGroup(e: Element): (r: Result<Group, LoadError>)
    ensures r.Err? <==> Find(e, ["plugins"]).None? || ReadEach(FindAll(e, ["plugins", "plugin"]), ReadPlugin).Err?
    ensures r.Ok? ==> r.value.name == Get(e, "name") && r.value.groupType == Get(e, "type")
    ensures r.Ok? ==> r.value.order == Get(Find(e, ["plugins"]).value, "order")
    ensures r.Ok? ==> multiset(r.value.plugins) == multiset(ReadEach(FindAll(e, ["plugins", "plugin"]), ReadPlugin).value)
    ensures r.Ok? && r.value.order in {None, Some("Explicit")} ==>
      r.value.plugins == ReadEach(FindAll(e, ["plugins", "plugin"]), ReadPlugin).value
    ensures r.Ok? && r.value.order.Some? && r.value.order.value != "Explicit" ==>
      SortedBy(r.value.plugins, PluginName, IsDescending(r.value.order.value))
    ensures r.Ok? && r.value.order.Some? ==>
      var written := OrderListAsWritten(ReadEach(FindAll(e, ["plugins", "plugin"]), ReadPlugin).value, r.value.order.value, PluginName);
      written.Some? ==> r.value.plugins == written.value
    ensures r.Ok? && |FindAll(e, ["plugins", "plugin"])| == 0 ==> r.value.plugins == []
  {
    match Find(e, ["plugins"])
    case None => Err(MissingElement("plugins"))
    case Some(pluginsElement) =>
      var order := Get(pluginsElement, "order");
      match ReadEach(FindAll(e, ["plugins", "plugin"]), ReadPlugin)
      case Err(err) => Err(err)
      case Ok(ps) =>
        var g := GroupAddPlugins(EmptyGroup.(name := Get(e, "name"), groupType := Get(e, "type"), order := order), ps);
        if order.Some? then Ok(g.(plugins := OrderList(g.plugins, order.value, PluginName))) else Ok(g)
  }

  /** A step's name, group order and visibility flags, before its groups. */
  function StepHeader(e: Element, groupOrder: Text): (r: Step)
    ensures r.name == Get(e, "name") && r.groupOrder == groupOrder && r.groups == []
    ensures r.visibility == VisibilityFlags(FindAll(e, ["visible", "flagDependency"]))
  {
    var s0 := EmptyStep.(name := Get(e, "name"), groupOrder := groupOrder);
    var deps := FindAll(e, ["visible", "flagDependency"]);
    if Find(e, ["visible"]).Some? then
      StepAddFlagsFold(s0, deps);
      StepAddFlags(s0, deps)
    else
      // without a `visible` element there is no `visible/flagDependency` either
      assert |deps| == 0 by { VisibleDependenciesNeedVisible(e); }
      s0
  }

  lemma VisibleDependenciesNeedVisible(e: Element)
    requires Find(e, ["visible"]).None?
    ensures FindAll(e, ["visible", "flagDependency"]) == []
  {
    NoTaggedChildNoMatch(e.children, "visible", ["flagDependency"]);
  }

  lemma {:induction false} NoTaggedChildNoMatch(cs: seq<Element>, tag: string, rest: seq<string>)
    requires FindAllIn(cs, tag, []) == []
    ensures FindAllIn(cs, tag, rest) == []
    decreases |cs|
  {
    if |cs| > 0 {
      if cs[0].tag == tag {
        assert false;
      }
      assert FindAllIn(cs, tag, []) == FindAllIn(cs[1..], tag, []);
      NoTaggedChildNoMatch(cs[1..], tag, rest);
    }
  }

  /**
   * One `installSteps/installStep`.  Its `optionalFileGroups` child is
   * required; its `visible/flagDependency` pairs are added as they are;
   * when `optionalFileGroups` carries an `order`, the groups are ordered by name.
   */
  function ReadStep(e: Element): (r: Result<Step, LoadError>)
    ensures r.Err? <==>
      Find(e, ["optionalFileGroups"]).None? || ReadEach(FindAll(e, ["optionalFileGroups", "group"]), ReadGroup).Err?
    ensures r.Ok? ==> r.value.name == Get(e, "name")
    ensures r.Ok? ==> r.value.groupOrder == Get(Find(e, ["optionalFileGroups"]).value, "order")
    ensures r.Ok? ==> r.value.visibility == VisibilityFlags(FindAll(e, ["visible", "flagDependency"]))
    ensures r.Ok? ==> multiset(r.value.groups) == multiset(ReadEach(FindAll(e, ["optionalFileGroups", "group"]), ReadGroup).value)
    ensures r.Ok? && r.value.groupOrder in {None, Some("Explicit")} ==>
      r.value.groups == ReadEach(FindAll(e, ["optionalFileGroups", "group"]), ReadGroup).value
    ensures r.Ok? && r.value.groupOrder.Some? ==>
      var written := OrderListAsWritten(ReadEach(FindAll(e, ["optionalFileGroups", "group"]), ReadGroup).value, r.value.groupOrder.value, GroupName);
      written.Some? ==> r.value.groups == written.value
    ensures r.Ok? && |FindAll(e, ["optionalFileGroups", "group"])| == 0 ==> r.value.groups == []
  {
    match Find(e, ["optionalFileGroups"])
    case None => Err(MissingElement("optionalFileGroups"))
    case Some(groupsElement) =>
      var s1 := StepHeader(e, Get(groupsElement, "order"));
      match ReadEach(FindAll(e, ["optionalFileGroups", "group"]), ReadGroup)
      case Err(err) => Err(err)
      case Ok(gs) =>
        var s2 := StepAddGroups(s1, gs);
        if s2.groupOrder.Some? then Ok(s2.(groups := OrderList(s2.groups, s2.groupOrder.value, GroupName))) else Ok(s2)
  }

  /**
   * `FomodConfig.get_fomod_config`: a missing document or a root that is not
   * `config` yields the default configuration; `moduleName` is required;
   * patterns are read only under a `conditionalFileInstalls` element; one
   * step per `installSteps/installStep`, in document order.
   */
  function LoadConfig(doc: Option<Element>): (r: Result<Config, LoadError>)
    ensures doc.None? ==> r == Ok(DefaultConfig)
    ensures doc.Some? && doc.value.tag != "config" ==> r == Ok(DefaultConfig)
    ensures doc.Some? && doc.value.tag == "config" ==>
      (r.Err? <==> Find(doc.value, ["moduleName"]).None? ||
                   ReadEach(FindAll(doc.value, ["installSteps", "installStep"]), ReadStep).Err?)
    ensures r.Ok? && doc.Some? && doc.value.tag == "config" ==>
      && r.value.moduleName == Find(doc.value, ["moduleName"]).value.text
      && (Find(doc.value, ["moduleImage"]).Some? ==> r.value.moduleImage == Get(Find(doc.value, ["moduleImage"]).value, "path"))
      && (Find(doc.value, ["moduleImage"]).None? ==> r.value.moduleImage == Some(""))
      && r.value.moduleDependencies == "" && r.value.requiredFiles == []
      && |r.value.steps| == |FindAll(doc.value, ["installSteps", "installStep"])|
      && (forall i :: 0 <= i < |r.value.steps| ==>
            ReadStep(FindAll(doc.value, ["installSteps", "installStep"])[i]) == Ok(r.value.steps[i]))
      && (Find(doc.value, ["conditionalFileInstalls"]).None? ==> r.value.patterns == [])
      && (Find(doc.value, ["conditionalFileInstalls"]).Some? ==>
            r.value.patterns == ReadPatterns(FindAll(doc.value, ["conditionalFileInstalls", "patterns", "pattern"])))
  {
    match doc
    case None => Ok(DefaultConfig)
    case Some(root) =>
      if root.tag != "config" then Ok(DefaultConfig)
      else match Find(root, ["moduleName"])
        case None => Err(MissingElement("moduleName"))
        case Some(nameElement) =>
          var image := if Find(root, ["moduleImage"]).Some? then Get(Find(root, ["moduleImage"]).value, "path")
                       else DefaultConfig.moduleImage;
          var patterns := if Find(root, ["conditionalFileInstalls"]).Some?
                          then ReadPatterns(FindAll(root, ["conditionalFileInstalls", "patterns", "pattern"]))
                          else [];
          match ReadEach(FindAll(root, ["installSteps", "installStep"]), ReadStep)
          case Err(err) => Err(err)
          case Ok(steps) =>
            Ok(DefaultConfig.(moduleName := nameElement.text, moduleImage := image, steps := steps, patterns := patterns))
  }

  /** The element `tag` is present but has no text node. */
  predicate WithoutText(root: Element, tag: string)
  {
    Find(root, [tag]).Some? && Find(root, [tag]).value.text.None?
  }

  /** The stripped text of the element `tag`, or "" when it or its text is missing. */
  function FieldText(root: Element, tag: string): string
  {
    match Find(root, [tag])
    case None => ""
    case Some(x) => (match x.text case None => "" case Some(t) => RStrip(t))
  }

  /**
   * An info field read with `find(tag).text.rstrip()` when the element exists:
   * absent keeps the default, present without text aborts.
   */
  function OptionalField(root: Element, tag: string): (r: Result<string, LoadError>)
    ensures Find(root, [tag]).None? ==> r == Ok("")
    ensures Find(root, [tag]).Some? && Find(root, [tag]).value.text.None? ==> r.Err?
    ensures Find(root, [tag]).Some? && Find(root, [tag]).value.text.Some? ==>
      r == Ok(RStrip(Find(root, [tag]).value.text.value))
  {
    match Find(root, [tag])
    case None => Ok("")
    case Some(x) =>
      match x.text
      case None => Err(MissingText(tag))
      case Some(t) => Ok(RStrip(t))
  }

  /**
   * `FomodInfo.get_fomod_info`: a missing document or a root that is not
   * `fomod` yields the defaults with the given name; otherwise `Name` is
   * required, and `Description` without text keeps its default.
   */
  function LoadInfo(modName: string, doc: Option<Element>): (r: Result<Info, LoadError>)
    ensures doc.None? ==> r == Ok(DefaultInfo(modName))
    ensures doc.Some? && doc.value.tag != "fomod" ==> r == Ok(DefaultInfo(modName))
    ensures doc.Some? && doc.value.tag == "fomod" ==>
      (r.Err? <==> Find(doc.value, ["Name"]).None? || WithoutText(doc.value, "Name") || WithoutText(doc.value, "Version")
                   || WithoutText(doc.value, "Author") || WithoutText(doc.value, "Website"))
    ensures r.Ok? && doc.Some? && doc.value.tag == "fomod" ==>
      && r.value.name == RStrip(Find(doc.value, ["Name"]).value.text.value)
      && r.value.version == FieldText(doc.value, "Version")
      && r.value.author == FieldText(doc.value, "Author")
      && r.value.description == FieldText(doc.value, "Description")
      && r.value.website == FieldText(doc.value, "Website")
  {
    match doc
    case None => Ok(DefaultInfo(modName))
    case Some(root) =>
      if root.tag != "fomod" then Ok(DefaultInfo(modName))
      else match Find(root, ["Name"])
        case None => Err(MissingElement("Name"))
        case Some(nameElement) =>
          match nameElement.text
          case None => Err(MissingText("Name"))
          case Some(name) =>
            match OptionalField(root, "Version")
            case Err(err) => Err(err)
            case Ok(version) =>
              match OptionalField(root, "Author")
              case Err(err) => Err(err)
              case Ok(author) =>
                var description :=
                  match Find(root, ["Description"])
                  case None => ""
                  case Some(d) => (match d.text case None => "" case Some(t) => RStrip(t));
                match OptionalField(root, "Website")
                case Err(err) => Err(err)
                case Ok(website) => Ok(Info(RStrip(name), author, version, description, website))
  }

  // Documents written from records, read back

  /** An element holding only a text node. */
  function TextElement(tag: string, text: string): Element
  {
    Element(tag, map[], Some(text), [])
  }

  /** An `info.xml` root spelling out every field of `i`. */
  function InfoDocument(i: Info): Element
  {
    Element("fomod", map[], None, [TextElement("Name", i.name), TextElement("Author", i.author),
      TextElement("Version", i.version), TextElement("Description", i.description), TextElement("Website", i.website)])
  }

  /** No field ends in white space, so reading it back strips nothing. */
  predicate Stripped(i: Info)
  {
    && RStrip(i.name) == i.name && RStrip(i.author) == i.author && RStrip(i.version) == i.version
    && RStrip(i.description) == i.description && RStrip(i.website) == i.website
  }

  /** Writing an info record out and loading it gives the record back. */
  lemma LoadInfoRoundTrip(modName: string, i: Info)
    requires Stripped(i)
    ensures LoadInfo(modName, Some(InfoDocument(i))) == Ok(i)
  {
    var root := InfoDocument(i);
    FindFirstChild(root, "Name", 0);
    FindFirstChild(root, "Author", 1);
    FindFirstChild(root, "Version", 2);
    FindFirstChild(root, "Description", 3);
    FindFirstChild(root, "Website", 4);
  }

  /** A `ModuleConfig.xml` root with a name, an image and the given `installStep` elements. */
  function ConfigDocument(name: string, image: string, steps: seq<Element>): Element
  {
    Element("config", map[], None, [TextElement("moduleName", name), Element("moduleImage", map["path" := image], None, []),
      Element("installSteps", map[], None, steps)])
  }

  /**
   * Loading a document written with a name, an image and readable steps
   * gives that name and image, the steps read in document order, and no
   * patterns.
   */
  lemma LoadConfigRoundTrip(name: string, image: string, steps: seq<Element>)
    requires forall i :: 0 <= i < |steps| ==> steps[i].tag == "installStep" && ReadStep(steps[i]).Ok?
    ensures var r := LoadConfig(Some(ConfigDocument(name, image, steps)));
      && r.Ok? && r.value.moduleName == Some(name) && r.value.moduleImage == Some(image)
      && |r.value.steps| == |steps| && (forall i :: 0 <= i < |steps| ==> r.value.steps[i] == ReadStep(steps[i]).value)
      && r.value.patterns == []
  {
    var root := ConfigDocument(name, image, steps);
    FindFirstChild(root, "moduleName", 0);
    FindFirstChild(root, "moduleImage", 1);
    assert Find(root, ["conditionalFileInstalls"]).None? by {
      NoChildTagged(root.children, "conditionalFileInstalls", []);
    }
    ConfigDocumentSteps(name, image, steps);
    assert ReadEach(FindAll(root, ["installSteps", "installStep"]), ReadStep).Ok?;
  }

  /** The `installSteps/installStep` path of such a document selects exactly the given steps. */
  lemma ConfigDocumentSteps(name: string, image: string, steps: seq<Element>)
    requires forall i :: 0 <= i < |steps| ==> steps[i].tag == "installStep"
    ensures FindAll(ConfigDocument(name, image, steps), ["installSteps", "installStep"]) == steps
  {
    var root := ConfigDocument(name, image, steps);
    ChildrenTaggedAll(steps, "installStep");
    FindAllOneStep(steps, "installStep");
    assert FindAllIn(root.children[2..], "installSteps", ["installStep"]) == steps by {
      NoChildTagged(root.children[2..][1..], "installSteps", ["installStep"]);
    }
    assert root.children[1..][1..] == root.children[2..];
  }
}

=== FILE: navigation.dfy ===
/**
 * The wizard between events: the page shown, its group map, the group maps
 * saved for the steps left with Next, and the files collected for
 * installation.  `Start` opens the first page, `Next` saves the page and
 * moves to the first later step whose visibility flags are set (or
 * collects the files when there is none), `Back` reopens an earlier saved
 * step, and the two click events update one group of the page.
 *
 * A reopened page works on the very group map saved for it, so its changes
 * reach the saved map at once; `aliased` records that.  The orders in which
 * the saved steps and group maps are walked are a dictionary's and are
 * parameters.
 */
module Navigation {
  import opened Wrappers
  import opened Texts
  import opened Seqs
  import opened Descriptor
  import opened InstallerGroups
  import opened Handlers
  import opened StepBuilder
  import opened Resolver

  datatype Wizard = Wizard(
    steps: seq<Step>,
    patterns: seq<Pattern>,
    current: nat,
    groups: map<Text, InstallerGroup>,
    saved: map<nat, map<Text, InstallerGroup>>,
    aliased: bool,
    installed: seq<FileEntry>)

  // Visibility

  /** The (group, flag) pairs of the page whose flag a visibility map asks for, with the same value. */
  function VisiblePairs(vis: map<Text, Text>, groups: map<Text, InstallerGroup>): (r: set<(Text, Text)>)
    ensures forall p :: p in r ==> p.0 in groups && p.1 in vis && p.1 in groups[p.0].flags
  {
    set name, flag | name in groups && flag in groups[name].flags && flag in vis && vis[flag] == groups[name].flags[flag] :: (name, flag)
  }

  /**
   * The visibility test of `next_button_handler` as written: a step is
   * shown when the number of matching (group, flag) pairs of the page
   * equals the number of flags the step asks for.
   */
  predicate VisibleAsWritten(vis: map<Text, Text>, groups: map<Text, InstallerGroup>)
  {
    |VisiblePairs(vis, groups)| == |vis.Keys|
  }

  /** Some group of the page sets `flag` to `value`. */
  predicate SetOnPage(groups: map<Text, InstallerGroup>, flag: Text, value: Text)
  {
    exists name :: name in groups && flag in groups[name].flags && groups[name].flags[flag] == value
  }

  /** The visibility test as intended: every flag the step asks for is set on the page with the value asked for. */
  predicate Visible(vis: map<Text, Text>, groups: map<Text, InstallerGroup>)
  {
    forall flag :: flag in vis ==> SetOnPage(groups, flag, vis[flag])
  }

  /** No flag is set by two groups of the page. */
  predicate FlagsApart(groups: map<Text, InstallerGroup>)
  {
    forall a, b, flag :: a in groups && b in groups && flag in groups[a].flags && flag in groups[b].flags ==> a == b
  }

  /** The flags a visibility map asks for that the page sets as asked. */
  function MetFlags(vis: map<Text, Text>, groups: map<Text, InstallerGroup>): set<Text>
  {
    set p | p in VisiblePairs(vis, groups) :: p.1
  }

  /** Two pairs with the same flag are the same pair when flags are set apart. */
  lemma {:induction false} ProjectionCard(ps: set<(Text, Text)>)
    requires forall a, b :: a in ps && b in ps && a.1 == b.1 ==> a == b
    ensures |set p | p in ps :: p.1| == |ps|
    decreases |ps|
  {
    if ps != {} {
      var x :| x in ps;
      var rest := ps - {x};
      ProjectionCard(rest);
      var img := set p | p in rest :: p.1;
      assert (set p | p in ps :: p.1) == img + {x.1};
      assert x.1 !in img;
    }
  }

  /** A subset as large as its superset is the superset. */
  lemma {:induction false} SubsetSameSize(a: set<Text>, b: set<Text>)
    requires a <= b && |a| == |b|
    ensures a == b
  {
    if a != b {
      var x :| x in b && x !in a;
      assert a <= b - {x};
      assert |a| <= |b - {x}| by { SubsetCard(a, b - {x}); }
    }
  }

  lemma {:induction false} SubsetCard(a: set<Text>, b: set<Text>)
    requires a <= b
    ensures |a| <= |b|
    decreases |b|
  {
    if a != {} {
      var x :| x in a;
      SubsetCard(a - {x}, b - {x});
    }
  }

  /**
   * When no flag is set by two groups of the page, the count of the source
   * decides visibility as intended.
   */
  lemma VisibleAgrees(vis: map<Text, Text>, groups: map<Text, InstallerGroup>)
    requires FlagsApart(groups)
    ensures VisibleAsWritten(vis, groups) <==> Visible(vis, groups)
  {
    var pairs := VisiblePairs(vis, groups);
    var met := MetFlags(vis, groups);
    ProjectionCard(pairs);
    assert met <= vis.Keys;
    if Visible(vis, groups) {
      forall flag | flag in vis ensures flag in met {
        var name :| name in groups && flag in groups[name].flags && groups[name].flags[flag] == vis[flag];
        assert (name, flag) in pairs;
      }
      assert met == vis.Keys;
    }
    if VisibleAsWritten(vis, groups) {
      SubsetSameSize(met, vis.Keys);
      forall flag | flag in vis ensures SetOnPage(groups, flag, vis[flag]) {
        assert flag in met;
        var p :| p in pairs && p.1 == flag;
      }
    }
  }

  /** A step that asks for no flags is always shown, by either test. */
  lemma NoFlagsVisible(groups: map<Text, InstallerGroup>)
    ensures VisibleAsWritten(map[], groups) && Visible(map[], groups)
  {
    assert VisiblePairs(map[], groups) == {};
  }

  /**
   * The count goes wrong when two groups set the same flag: two groups
   * that both set A count twice, so a step asking for A and B is shown
   * although B is set nowhere.
   */
  lemma VisibleAsWrittenCountsTwice()
    ensures var on := Some("On");
      var groups := map[Some("G1") := FlagGroup(Some("G1"), Some("A"), on), Some("G2") := FlagGroup(Some("G2"), Some("A"), on)];
      var vis := map[Some("A") := on, Some("B") := on];
      VisibleAsWritten(vis, groups) && !Visible(vis, groups)
  {
    var on := Some("On");
    var groups := map[Some("G1") := FlagGroup(Some("G1"), Some("A"), on), Some("G2") := FlagGroup(Some("G2"), Some("A"), on)];
    var vis := map[Some("A") := on, Some("B") := on];
    SharedFlagPairs(Some("G1"), Some("G2"), Some("A"), Some("B"), on);
    assert forall name :: name in groups ==> groups[name].flags == map[Some("A") := on];
    assert Some("B") in vis && !SetOnPage(groups, Some("B"), vis[Some("B")]);
  }

  /** A group of the page whose only flag is `flag`, set to `value`. */
  function FlagGroup(name: Text, flag: Text, value: Text): (r: InstallerGroup)
    ensures r.name == name && r.flags == map[flag := value]
  {
    NewGroup(name, Some("SelectAny")).(flags := map[flag := value])
  }

  /** Two groups setting the same flag give two pairs for a step asking for that flag and one more. */
  lemma SharedFlagPairs(n1: Text, n2: Text, a: Text, b: Text, v: Text)
    requires n1 != n2 && a != b
    ensures var groups := map[n1 := FlagGroup(n1, a, v), n2 := FlagGroup(n2, a, v)];
      VisibleAsWritten(map[a := v, b := v], groups)
  {
    var groups := map[n1 := FlagGroup(n1, a, v), n2 := FlagGroup(n2, a, v)];
    var vis := map[a := v, b := v];
    var pairs := VisiblePairs(vis, groups);
    assert (n1, a) in pairs && (n2, a) in pairs;
    assert pairs == {(n1, a), (n2, a)};
    assert |{(n1, a), (n2, a)}| == 2 by {
      assert {(n1, a), (n2, a)} == {(n1, a)} + {(n2, a)};
    }
    assert |vis.Keys| == 2 by {
      assert vis.Keys == {a} + {b};
    }
  }

  // The forward search

  /**
   * The first step at or after `i` that the counting test of
   * `next_button_handler` shows, if any: the candidates `current + count`
   * its loop tries in turn, up to the last step.
   */
  function FirstVisible(steps: seq<Step>, groups: map<Text, InstallerGroup>, i: nat): (r: Option<nat>)
    ensures r.Some? ==> i <= r.value < |steps| && VisibleAsWritten(steps[r.value].visibility, groups)
    ensures forall j :: i <= j < |steps| && (r.None? || j < r.value) ==> !VisibleAsWritten(steps[j].visibility, groups)
    decreases |steps| - i
  {
    if i >= |steps| then None
    else if VisibleAsWritten(steps[i].visibility, groups) then Some(i)
    else FirstVisible(steps, groups, i + 1)
  }

  /** The same search with the intended visibility test. */
  function FirstVisibleIntended(steps: seq<Step>, groups: map<Text, InstallerGroup>, i: nat): (r: Option<nat>)
    ensures r.Some? ==> i <= r.value < |steps| && Visible(steps[r.value].visibility, groups)
    ensures forall j :: i <= j < |steps| && (r.None? || j < r.value) ==> !Visible(steps[j].visibility, groups)
    decreases |steps| - i
  {
    if i >= |steps| then None
    else if Visible(steps[i].visibility, groups) then Some(i)
    else FirstVisibleIntended(steps, groups, i + 1)
  }

  /** When no flag is set by two groups of the page, both searches stop at the same step. */
  lemma {:induction false} FirstVisibleAgrees(steps: seq<Step>, groups: map<Text, InstallerGroup>, i: nat)
    requires FlagsApart(groups)
    ensures FirstVisible(steps, groups, i) == FirstVisibleIntended(steps, groups, i)
    decreases |steps| - i
  {
    if i < |steps| {
      VisibleAgrees(steps[i].visibility, groups);
      FirstVisibleAgrees(steps, groups, i + 1);
    }
  }

  /**
   * The orders in which `get_all_files` walks the saved maps: every saved
   * step once, and for each saved step every group name of its map once.
   */
  predicate WalkOrders(saved: map<nat, map<Text, InstallerGroup>>, stepOrder: seq<nat>, groupOrders: map<nat, seq<Text>>)
  {
    && Enumerates(stepOrder, saved.Keys)
    && forall s :: s in saved ==> s in groupOrders && Enumerates(groupOrders[s], saved[s].Keys)
  }

  /** The saved groups, walked in the given order of steps and, per step, of group names. */
  function Listing(saved: map<nat, map<Text, InstallerGroup>>, stepOrder: seq<nat>, groupOrders: map<nat, seq<Text>>): seq<InstallerGroup>
    decreases |stepOrder|
  {
    if |stepOrder| == 0 then []
    else
      var s := stepOrder[0];
      var here := if s in saved && s in groupOrders then GroupsIn(saved[s], groupOrders[s]) else [];
      here + Listing(saved, stepOrder[1..], groupOrders)
  }

  /** The groups of one saved map, in the given order of names. */
  function GroupsIn(m: map<Text, InstallerGroup>, names: seq<Text>): seq<InstallerGroup>
    decreases |names|
  {
    if |names| == 0 then []
    else (if names[0] in m then [m[names[0]]] else []) + GroupsIn(m, names[1..])
  }

  // Transitions

  /** The first page: step 0 built fresh; with no steps the first page cannot be built. */
  function Start(steps: seq<Step>, patterns: seq<Pattern>): (r: Option<Wizard>)
    ensures r.None? <==> |steps| == 0
    ensures r.Some? ==> r.value.current == 0 && r.value.saved == map[] && r.value.installed == [] && !r.value.aliased
    ensures r.Some? ==> r.value.steps == steps && r.value.patterns == patterns && r.value.groups == FreshStep(steps[0].groups)
  {
    if |steps| == 0 then None
    else Some(Wizard(steps, patterns, 0, FreshStep(steps[0].groups), map[], false, []))
  }

  /**
   * Leaving the page forward: it is saved under its step; then the step
   * found is built fresh, or, when none was found, the files are collected
   * and the page stays, now sharing its map with the saved one.
   */
  function Leave(w: Wizard, found: Option<nat>, stepOrder: seq<nat>, groupOrders: map<nat, seq<Text>>): (r: Wizard)
    requires found.Some? ==> found.value < |w.steps|
    ensures r.saved == w.saved[w.current := w.groups] && r.steps == w.steps && r.patterns == w.patterns
    ensures found.Some? ==>
      r.current == found.value && r.groups == FreshStep(w.steps[found.value].groups) && r.installed == w.installed && !r.aliased
    ensures found.None? ==>
      && r.current == w.current && r.groups == w.groups && r.aliased
      && r.installed == w.installed + GetAllFiles(Listing(r.saved, stepOrder, groupOrders), w.patterns)
  {
    var saved := w.saved[w.current := w.groups];
    match found
    case Some(c) => w.(current := c, groups := FreshStep(w.steps[c].groups), saved := saved, aliased := false)
    case None =>
      var files := GetAllFiles(Listing(saved, stepOrder, groupOrders), w.patterns);
      w.(saved := saved, aliased := true, installed := w.installed + files)
  }

  /**
   * `next_button_handler` as written: it only ever moves forward, to the
   * first later step the counting test shows, skipping only steps it
   * hides; with none left it collects the files, walking the saved maps in
   * the given orders.
   */
  function Next(w: Wizard, stepOrder: seq<nat>, groupOrders: map<nat, seq<Text>>): (r: Wizard)
    requires WalkOrders(w.saved[w.current := w.groups], stepOrder, groupOrders)
    ensures r.saved == w.saved[w.current := w.groups]
    ensures r.steps == w.steps && r.patterns == w.patterns
    ensures r.current != w.current ==>
      && w.current < r.current < |w.steps|
      && VisibleAsWritten(w.steps[r.current].visibility, w.groups)
      && (forall j :: w.current < j < r.current ==> !VisibleAsWritten(w.steps[j].visibility, w.groups))
      && r.groups == FreshStep(w.steps[r.current].groups) && r.installed == w.installed && !r.aliased
    ensures r.current == w.current ==>
      && (forall j :: w.current < j < |w.steps| ==> !VisibleAsWritten(w.steps[j].visibility, w.groups))
      && r.installed == w.installed + GetAllFiles(Listing(r.saved, stepOrder, groupOrders), w.patterns)
      && r.groups == w.groups && r.aliased
  {
    Leave(w, if w.current + 1 < |w.steps| then FirstVisible(w.steps, w.groups, w.current + 1) else None, stepOrder, groupOrders)
  }

  /** `next_button_handler` with the intended visibility test: only steps whose flags are set on the page are shown. */
  function NextIntended(w: Wizard, stepOrder: seq<nat>, groupOrders: map<nat, seq<Text>>): (r: Wizard)
    requires WalkOrders(w.saved[w.current := w.groups], stepOrder, groupOrders)
    ensures r.saved == w.saved[w.current := w.groups]
    ensures r.steps == w.steps && r.patterns == w.patterns
    ensures r.current != w.current ==>
      && w.current < r.current < |w.steps|
      && Visible(w.steps[r.current].visibility, w.groups)
      && (forall j :: w.current < j < r.current ==> !Visible(w.steps[j].visibility, w.groups))
      && r.groups == FreshStep(w.steps[r.current].groups) && r.installed == w.installed && !r.aliased
    ensures r.current == w.current ==>
      && (forall j :: w.current < j < |w.steps| ==> !Visible(w.steps[j].visibility, w.groups))
      && r.installed == w.installed + GetAllFiles(Listing(r.saved, stepOrder, groupOrders), w.patterns)
      && r.groups == w.groups && r.aliased
  {
    Leave(w, if w.current + 1 < |w.steps| then FirstVisibleIntended(w.steps, w.groups, w.current + 1) else None, stepOrder, groupOrders)
  }

  /** When no flag is set by two groups of the page, `next_button_handler` behaves as intended. */
  lemma NextAgrees(w: Wizard, stepOrder: seq<nat>, groupOrders: map<nat, seq<Text>>)
    requires WalkOrders(w.saved[w.current := w.groups], stepOrder, groupOrders)
    requires FlagsApart(w.groups)
    ensures Next(w, stepOrder, groupOrders) == NextIntended(w, stepOrder, groupOrders)
  {
    var found := if w.current + 1 < |w.steps| then FirstVisible(w.steps, w.groups, w.current + 1) else None;
    var intended := if w.current + 1 < |w.steps| then FirstVisibleIntended(w.steps, w.groups, w.current + 1) else None;
    FirstVisibleAgrees(w.steps, w.groups, w.current + 1);
    assert found == intended;
    assert Next(w, stepOrder, groupOrders) == Leave(w, found, stepOrder, groupOrders);
    assert NextIntended(w, stepOrder, groupOrders) == Leave(w, intended, stepOrder, groupOrders);
  }

  /**
   * The step `back_button_handler` reopens: the saved step keys, in their
   * order, with the current step appended; the key before the first
   * occurrence of the current step, wrapping round to the last entry when
   * that occurrence is the first.
   */
  function BackTarget(keys: seq<nat>, current: nat): (r: nat)
    ensures r in keys || r == current
  {
    var all := keys + [current];
    var i := IndexOf(all, current);
    if i == 0 then all[|all| - 1] else all[i - 1]
  }

  /** Position of the first occurrence of `x`, which must occur. */
  function IndexOf(s: seq<nat>, x: nat): (i: nat)
    requires x in s
    ensures i < |s| && s[i] == x && forall j :: 0 <= j < i ==> s[j] != x
  {
    if s[0] == x then 0 else 1 + IndexOf(s[1..], x)
  }

  /**
   * Step `t` can be reopened: it is a step, its saved map holds every one of
   * its groups, and every box the reopened page reads is there.
   */
  predicate Reopenable(w: Wizard, t: nat)
  {
    && t in w.saved && t < |w.steps|
    && (forall gr :: gr in w.steps[t].groups ==> gr.name in w.saved[t])
    && BoxesFound(w.steps[t].groups, w.saved[t])
  }

  /**
   * `back_button_handler`: on the first step nothing happens; otherwise the
   * target step is reopened from its saved map, which must exist, hold
   * every group of that step and a box for every plugin shown.  The page
   * being left is not saved.
   */
  function Back(w: Wizard, keys: seq<nat>): (r: Option<Wizard>)
    ensures w.current == 0 ==> r == Some(w)
    ensures w.current > 0 ==> (r.Some? <==> Reopenable(w, BackTarget(keys, w.current)))
    ensures w.current > 0 && r.Some? ==>
      && r.value.current == BackTarget(keys, w.current) && r.value.current in w.saved
      && r.value.groups.Keys == w.saved[r.value.current].Keys
      && r.value.saved == w.saved[r.value.current := r.value.groups]
      && r.value.aliased && r.value.installed == w.installed && r.value.steps == w.steps && r.value.patterns == w.patterns
    ensures w.current > 0 && r.Some? ==>
      && Reopenable(w, r.value.current)
      && r.value.groups == ReopenStep(w.steps[r.value.current].groups, w.saved[r.value.current])
      && ((forall gr :: gr in w.steps[r.value.current].groups ==> gr.groupType != All) ==>
            r.value.groups == w.saved[r.value.current])
  {
    if w.current == 0 then Some(w)
    else
      var t := BackTarget(keys, w.current);
      if !Reopenable(w, t) then None
      else
        var groups := ReopenStep(w.steps[t].groups, w.saved[t]);
        Some(w.(current := t, groups := groups, saved := w.saved[t := groups], aliased := true))
  }

  /**
   * `r` is `w` once group `g` is stored on the page under its name: the
   * other groups, the step, the files collected and the sharing are kept,
   * and a shared page writes its new map through to the saved one.
   */
  predicate Stored(w: Wizard, g: InstallerGroup, r: Wizard)
  {
    && r.groups.Keys == w.groups.Keys + {g.name} && r.groups[g.name] == g
    && (forall k :: k in w.groups && k != g.name ==> r.groups[k] == w.groups[k])
    && r.current == w.current && r.steps == w.steps && r.patterns == w.patterns
    && r.installed == w.installed && r.aliased == w.aliased
    && (w.aliased ==> r.saved == w.saved[w.current := r.groups])
    && (!w.aliased ==> r.saved == w.saved)
  }

  /** Stores an updated group of the page, and in the saved map too when the page shares it. */
  function Store(w: Wizard, g: InstallerGroup): (r: Wizard)
    ensures r.groups == AddGroup(w.groups, g)
    ensures Stored(w, g, r)
  {
    var groups := AddGroup(w.groups, g);
    if w.aliased then w.(groups := groups, saved := w.saved[w.current := groups]) else w.(groups := groups)
  }

  /** `radio_button_handler` on the page: group `name` takes the click on plugin `chosen`. */
  function ClickRadio(w: Wizard, name: Text, chosen: Text, value: bool): (r: Wizard)
    requires name in w.groups
    ensures Stored(w, RadioButton(w.groups[name], chosen, value), r)
    ensures r.groups.Keys == w.groups.Keys + {w.groups[name].name}
    ensures (w.groups[name].groupType == ExactlyOne || w.groups[name].groupType == All) && value ==>
      forall i :: IsLastNamed(w.groups[name].plugins, chosen, i) ==> SelectedOnly(r.groups[w.groups[name].name], i)
    ensures ExactlyOneConsistent(w.groups[name]) && chosen in PluginNames(w.groups[name].plugins) && value ==>
      ExactlyOneConsistent(r.groups[w.groups[name].name])
  {
    var g := w.groups[name];
    if g.groupType == ExactlyOne || g.groupType == All then
      RadioButtonSelectsLast(g, chosen);
      if ExactlyOneConsistent(g) && chosen in PluginNames(g.plugins) then
        RadioButtonKeepsExactlyOne(g, chosen);
        Store(w, RadioButton(g, chosen, value))
      else Store(w, RadioButton(g, chosen, value))
    else Store(w, RadioButton(g, chosen, value))
  }

  /**
   * `check_box_handler` on the page, as written: switching a box of a
   * consistent at-most-one group on keeps it consistent, while switching
   * its selected box off clears the box and the flags yet leaves the
   * plugin's files carried.
   */
  function ClickCheck(w: Wizard, name: Text, chosen: Text, value: bool): (r: Wizard)
    requires name in w.groups
    ensures Stored(w, CheckBoxAsWritten(w.groups[name], chosen, value), r)
    ensures r.groups.Keys == w.groups.Keys + {w.groups[name].name}
    ensures !ReplacesSelection(w.groups[name].groupType) ==>
      var g := w.groups[name];
      var after := r.groups[g.name];
      && after.boxes[chosen] == value
      && after.flags == ToggleEach(g.flags, Named(g.plugins, chosen))
      && after.files == AppendEachNew(g.files, Named(g.plugins, chosen))
    ensures w.groups[name].groupType == AtMostOne && w.groups[name].registered == w.groups[name].boxes.Keys && value ==>
      forall i :: IsLastNamed(w.groups[name].plugins, chosen, i) ==> SelectedOnly(r.groups[w.groups[name].name], i)
    ensures AtMostOneConsistent(w.groups[name]) && chosen in w.groups[name].boxes && value ==>
      AtMostOneConsistent(r.groups[w.groups[name].name])
    ensures AtMostOneConsistent(w.groups[name]) && chosen in w.groups[name].boxes && w.groups[name].boxes[chosen] && !value ==>
      var after := r.groups[w.groups[name].name];
      && NoneSelected(after) && after.flags == map[]
      && forall i :: 0 <= i < |w.groups[name].plugins| && w.groups[name].plugins[i].name == chosen ==>
           after.files == AppendAllNew([], w.groups[name].plugins[i].files)
  {
    var g := w.groups[name];
    if g.groupType == AtMostOne && g.registered == g.boxes.Keys && value then
      CheckBoxSelectsLast(g, chosen);
      CheckBoxAgrees(g, chosen, value);
      if AtMostOneConsistent(g) && chosen in g.boxes then
        CheckBoxOnKeepsAtMostOne(g, chosen);
        Store(w, CheckBoxAsWritten(g, chosen, value))
      else Store(w, CheckBoxAsWritten(g, chosen, value))
    else if AtMostOneConsistent(g) && chosen in g.boxes && g.boxes[chosen] && !value then
      CheckBoxAsWrittenOff(g, chosen);
      Store(w, CheckBoxAsWritten(g, chosen, value))
    else Store(w, CheckBoxAsWritten(g, chosen, value))
  }

  /** `check_box_handler` on the page, with the at-most-one box switched off cleanly. */
  function ClickCheckIntended(w: Wizard, name: Text, chosen: Text, value: bool): (r: Wizard)
    requires name in w.groups
    ensures Stored(w, CheckBox(w.groups[name], chosen, value), r)
    ensures r.groups.Keys == w.groups.Keys + {w.groups[name].name}
    ensures !ReplacesSelection(w.groups[name].groupType) ==>
      var g := w.groups[name];
      var after := r.groups[g.name];
      && after.boxes[chosen] == value
      && after.flags == ToggleEach(g.flags, Named(g.plugins, chosen))
      && after.files == AppendEachNew(g.files, Named(g.plugins, chosen))
    ensures w.groups[name].groupType == AtMostOne && w.groups[name].registered == w.groups[name].boxes.Keys && value ==>
      forall i :: IsLastNamed(w.groups[name].plugins, chosen, i) ==> SelectedOnly(r.groups[w.groups[name].name], i)
    ensures AtMostOneConsistent(w.groups[name]) && chosen in w.groups[name].boxes && w.groups[name].boxes[chosen] && !value ==>
      var after := r.groups[w.groups[name].name];
      NoneSelected(after) && after.flags == map[] && after.files == []
    ensures AtMostOneConsistent(w.groups[name]) && chosen in w.groups[name].boxes && value == !w.groups[name].boxes[chosen] ==>
      AtMostOneConsistent(r.groups[w.groups[name].name])
  {
    var g := w.groups[name];
    if g.groupType == AtMostOne && g.registered == g.boxes.Keys && value then
      CheckBoxSelectsLast(g, chosen);
      if AtMostOneConsistent(g) && chosen in g.boxes && value == !g.boxes[chosen] then
        CheckBoxKeepsAtMostOne(g, chosen, value);
        Store(w, CheckBox(g, chosen, value))
      else Store(w, CheckBox(g, chosen, value))
    else if AtMostOneConsistent(g) && chosen in g.boxes && g.boxes[chosen] && !value then
      SelectedIsOnly(g, chosen);
      CheckBoxClears(g, chosen);
      CheckBoxKeepsAtMostOne(g, chosen, value);
      Store(w, CheckBox(g, chosen, value))
    else Store(w, CheckBox(g, chosen, value))
  }

  /** Every click except switching an at-most-one box off is handled as intended. */
  lemma ClickCheckAgrees(w: Wizard, name: Text, chosen: Text, value: bool)
    requires name in w.groups && !(w.groups[name].groupType == AtMostOne && !value)
    ensures ClickCheck(w, name, chosen, value) == ClickCheckIntended(w, name, chosen, value)
  {
    CheckBoxAgrees(w.groups[name], chosen, value);
  }

  // The invariant

  /** Every group of a step has an entry in `m`. */
  predicate Holds(step: Step, m: map<Text, InstallerGroup>)
  {
    forall gr :: gr in step.groups ==> gr.name in m
  }

  /** Each group is stored under its own name. */
  predicate Keyed(m: map<Text, InstallerGroup>)
  {
    forall k :: k in m ==> m[k].name == k
  }

  /** A group map fit for its step: keyed by name, holding every group, and boxed when the names are unique. */
  predicate StepState(step: Step, m: map<Text, InstallerGroup>)
  {
    Holds(step, m) && Keyed(m) && (UniqueGroupNames(step.groups) ==> Boxed(step.groups, m))
  }

  /**
   * What every reachable wizard satisfies: the page is a step, its map and
   * every saved map hold their step's groups under their names, a step
   * whose group names are unique has a box for every plugin it shows, a
   * shared page equals its saved map, and past the first step something is
   * saved.
   */
  predicate Valid(w: Wizard)
  {
    && w.current < |w.steps|
    && StepState(w.steps[w.current], w.groups)
    && (forall s :: s in w.saved ==> s < |w.steps| && StepState(w.steps[s], w.saved[s]))
    && (w.aliased ==> w.current in w.saved && w.saved[w.current] == w.groups)
    && (w.current > 0 ==> w.saved != map[])
  }

  /** The map `add_group` builds keeps each group under its own name and holds every group stored. */
  lemma {:induction false} StepMapKeyed(gs: seq<InstallerGroup>)
    ensures Keyed(StepMap(gs))
    decreases |gs|
  {
    if |gs| > 0 {
      StepMapKeyed(gs[..|gs| - 1]);
    }
  }

  /** A step built fresh holds its groups under their names. */
  lemma FreshStepValid(step: Step)
    ensures StepState(step, FreshStep(step.groups))
  {
    StepMapKeyed(FreshGroups(step.groups));
    if UniqueGroupNames(step.groups) {
      FreshStepBoxed(step.groups);
    }
  }

  lemma StartValid(steps: seq<Step>, patterns: seq<Pattern>)
    requires |steps| > 0
    ensures Start(steps, patterns).Some? && Valid(Start(steps, patterns).value)
  {
    FreshStepValid(steps[0]);
  }

  /** A check-box group named `X` holding one plugin. */
  function SharedNameGroup(plugin: string): Group
  {
    EmptyGroup.(name := Some("X"), groupType := Some("SelectAny"), plugins := [EmptyPlugin.(name := Some(plugin))])
  }

  /** Step 0 holds two groups named `X`; step 1 is the page shown; step 0 is saved as built. */
  function SharedNameWizard(): Wizard
  {
    var groups := [SharedNameGroup("a"), SharedNameGroup("b")];
    Wizard([EmptyStep.(groups := groups), EmptyStep], [], 1, FreshStep([]), map[0 := FreshStep(groups)], false, [])
  }

  /** The map built for the two groups named `X` keeps only the second, with the box of `b` alone. */
  lemma SharedNameFreshStep()
    ensures FreshStep([SharedNameGroup("a"), SharedNameGroup("b")]) == map[Some("X") := FreshGroup(SharedNameGroup("b"))]
    ensures FreshGroup(SharedNameGroup("b")).boxes.Keys == {Some("b")}
  {
    var gs := FreshGroups([SharedNameGroup("a"), SharedNameGroup("b")]);
    assert gs[0] == FreshGroup(SharedNameGroup("a")) && gs[1] == FreshGroup(SharedNameGroup("b"));
    assert gs[..1] == [gs[0]] && gs[..1][..0] == [];
    assert StepMap(gs[..1]) == map[Some("X") := gs[0]];
    assert StepMap(gs) == map[Some("X") := gs[0]][Some("X") := gs[1]];
    var second := SharedNameGroup("b");
    assert FreshGroup(second) == UncheckedFrom(NewGroup(Some("X"), Some("SelectAny")), second.plugins, 0, false);
  }

  /**
   * Why `BackValid` asks for unique group names: a step with two check-box
   * groups named `X`, holding plugins `a` and `b`, keeps only the second
   * group under `X`; reopening it reads the box of `a`, which is missing,
   * so going back to it fails although the wizard is valid.
   */
  lemma BackFailsOnSharedGroupName()
    ensures Valid(SharedNameWizard()) && Back(SharedNameWizard(), [0]).None?
  {
    SharedNameWizardValid();
    var w := SharedNameWizard();
    SharedNameFreshStep();
    assert BackTarget([0], 1) == 0;
    assert Some("a") !in w.saved[0][Some("X")].boxes;
    assert !BoxesFound(w.steps[0].groups, w.saved[0]);
  }

  /** The wizard with the shared group name is reachable in the sense of `Valid`. */
  lemma SharedNameWizardValid()
    ensures Valid(SharedNameWizard())
  {
    var w := SharedNameWizard();
    FreshStepValid(w.steps[0]);
    FreshStepValid(w.steps[1]);
  }

  /** Saving a valid page keeps every saved map fit for its step. */
  lemma SavePageValid(w: Wizard)
    requires Valid(w)
    ensures var saved := w.saved[w.current := w.groups];
      w.current in saved && forall s :: s in saved ==> s < |w.steps| && StepState(w.steps[s], saved[s])
  {
  }

  lemma NextValid(w: Wizard, stepOrder: seq<nat>, groupOrders: map<nat, seq<Text>>)
    requires Valid(w) && WalkOrders(w.saved[w.current := w.groups], stepOrder, groupOrders)
    ensures Valid(Next(w, stepOrder, groupOrders))
  {
    var r := Next(w, stepOrder, groupOrders);
    SavePageValid(w);
    if r.current != w.current {
      FreshStepValid(w.steps[r.current]);
    }
  }

  lemma NextIntendedValid(w: Wizard, stepOrder: seq<nat>, groupOrders: map<nat, seq<Text>>)
    requires Valid(w) && WalkOrders(w.saved[w.current := w.groups], stepOrder, groupOrders)
    ensures Valid(NextIntended(w, stepOrder, groupOrders))
  {
    var r := NextIntended(w, stepOrder, groupOrders);
    SavePageValid(w);
    if r.current != w.current {
      FreshStepValid(w.steps[r.current]);
    }
  }

  /** Reopening keeps a step's map keyed and holding its groups. */
  lemma ReopenValid(step: Step, m: map<Text, InstallerGroup>)
    requires StepState(step, m)
    ensures StepState(step, ReopenStep(step.groups, m))
  {
    ReopenKeyed(step.groups, m);
    if UniqueGroupNames(step.groups) {
      ReopenStepBoxed(step.groups, m);
    }
  }

  lemma {:induction false} ReopenKeyed(groups: seq<Group>, m: map<Text, InstallerGroup>)
    requires (forall gr :: gr in groups ==> gr.name in m) && Keyed(m)
    ensures Keyed(ReopenStep(groups, m))
    decreases |groups|
  {
    if |groups| > 0 {
      var gr := groups[0];
      var m2 := m[gr.name := ReopenGroup(m[gr.name], gr)];
      assert forall h :: h in groups[1..] ==> h in groups;
      ReopenKeyed(groups[1..], m2);
    }
  }

  /**
   * On a reachable wizard whose steps each have unique group names, going
   * back never fails: the target step is saved, with all its groups and a
   * box for every plugin shown.
   */
  lemma BackValid(w: Wizard, keys: seq<nat>)
    requires Valid(w) && Enumerates(keys, w.saved.Keys)
    requires forall s :: 0 <= s < |w.steps| ==> UniqueGroupNames(w.steps[s].groups)
    ensures Back(w, keys).Some? && Valid(Back(w, keys).value)
  {
    if w.current > 0 {
      var t := BackTarget(keys, w.current);
      BackTargetSaved(keys, w.current);
      BoxedFound(w.steps[t].groups, w.saved[t]);
      ReopenValid(w.steps[t], w.saved[t]);
      var groups := ReopenStep(w.steps[t].groups, w.saved[t]);
      assert Back(w, keys) == Some(w.(current := t, groups := groups, saved := w.saved[t := groups], aliased := true));
    }
  }

  /** With at least one saved step, the target is a saved step. */
  lemma BackTargetSaved(keys: seq<nat>, current: nat)
    requires |keys| > 0
    ensures BackTarget(keys, current) in keys
  {
    var all := keys + [current];
    var i := IndexOf(all, current);
    if i == 0 {
      assert all[0] == keys[0];
    } else {
      assert all[i - 1] == keys[i - 1];
    }
  }

  /** Storing a group of the page under its own, existing name keeps the wizard valid. */
  lemma StoreValid(w: Wizard, g: InstallerGroup)
    requires Valid(w) && g.name in w.groups && w.groups[g.name].boxes.Keys <= g.boxes.Keys
    ensures Valid(Store(w, g))
  {
    var groups := AddGroup(w.groups, g);
    assert groups.Keys == w.groups.Keys;
    assert Keyed(groups);
  }

  lemma ClickRadioValid(w: Wizard, name: Text, chosen: Text, value: bool)
    requires Valid(w) && name in w.groups
    ensures Valid(ClickRadio(w, name, chosen, value))
  {
    StoreValid(w, RadioButton(w.groups[name], chosen, value));
  }

  lemma ClickCheckValid(w: Wizard, name: Text, chosen: Text, value: bool)
    requires Valid(w) && name in w.groups
    ensures Valid(ClickCheck(w, name, chosen, value))
  {
    StoreValid(w, CheckBoxAsWritten(w.groups[name], chosen, value));
  }

  lemma ClickCheckIntendedValid(w: Wizard, name: Text, chosen: Text, value: bool)
    requires Valid(w) && name in w.groups
    ensures Valid(ClickCheckIntended(w, name, chosen, value))
  {
    StoreValid(w, CheckBox(w.groups[name], chosen, value));
  }

  // What the transitions do

  /** Going back from a step saved after others reopens the step saved just before it. */
  lemma BackTargetPrevious(keys: seq<nat>, current: nat, i: int)
    requires 0 < i < |keys| && keys[i] == current && forall j :: 0 <= j < i ==> keys[j] != current
    ensures BackTarget(keys, current) == keys[i - 1]
  {
    var all := keys + [current];
    assert all[i] == current && forall j :: 0 <= j < i ==> all[j] != current;
    var k := IndexOf(all, current);
    assert k == i;
  }

  /** Going back from the step saved first wraps round to that same step. */
  lemma BackTargetWraps(keys: seq<nat>, current: nat)
    requires |keys| > 0 && keys[0] == current
    ensures BackTarget(keys, current) == current
  {
    var all := keys + [current];
    assert all[0] == current;
  }

  /** Going back from a step not yet saved reopens the step saved last. */
  lemma BackTargetUnsaved(keys: seq<nat>, current: nat)
    requires |keys| > 0 && current !in keys
    ensures BackTarget(keys, current) == keys[|keys| - 1]
  {
    var all := keys + [current];
    assert forall j :: 0 <= j < |keys| ==> all[j] != current;
    assert all[|keys|] == current;
    var k := IndexOf(all, current);
    assert k == |keys|;
  }

  /** The groups listed for one step are its saved groups, when the names are walked in full. */
  lemma {:induction false} GroupsInMember(m: map<Text, InstallerGroup>, names: seq<Text>, g: InstallerGroup)
    ensures g in GroupsIn(m, names) <==> exists i :: 0 <= i < |names| && names[i] in m && m[names[i]] == g
    decreases |names|
  {
    if |names| > 0 {
      GroupsInMember(m, names[1..], g);
      assert forall i :: 1 <= i < |names| ==> names[1..][i - 1] == names[i];
    }
  }

  /**
   * With the saved steps and each saved map walked in full, the listing
   * `get_all_files` walks holds exactly the saved groups.
   */
  lemma {:induction false} ListingMember(saved: map<nat, map<Text, InstallerGroup>>, stepOrder: seq<nat>, groupOrders: map<nat, seq<Text>>, g: InstallerGroup)
    requires forall s :: s in saved ==> s in groupOrders && Enumerates(groupOrders[s], saved[s].Keys)
    ensures g in Listing(saved, stepOrder, groupOrders) <==>
      exists i, name :: 0 <= i < |stepOrder| && stepOrder[i] in saved && name in saved[stepOrder[i]] && saved[stepOrder[i]][name] == g
    decreases |stepOrder|
  {
    if |stepOrder| > 0 {
      var s := stepOrder[0];
      ListingMember(saved, stepOrder[1..], groupOrders, g);
      assert forall i :: 1 <= i < |stepOrder| ==> stepOrder[1..][i - 1] == stepOrder[i];
      if s in saved {
        GroupsInMember(saved[s], groupOrders[s], g);
        var here := GroupsIn(saved[s], groupOrders[s]);
        if g in here {
          var k :| 0 <= k < |groupOrders[s]| && groupOrders[s][k] in saved[s] && saved[s][groupOrders[s][k]] == g;
          assert 0 <= 0 < |stepOrder| && stepOrder[0] in saved && groupOrders[s][k] in saved[stepOrder[0]];
        }
        if name :| name in saved[s] && saved[s][name] == g {
          assert name in groupOrders[s];
          var k :| 0 <= k < |groupOrders[s]| && groupOrders[s][k] == name;
          assert g in here;
        }
      }
    }
  }
}

=== FILE: ordering.dfy ===
/**
 * The ordering rule for plugins within a group and groups within a step
 * (`order_list`): `Explicit` keeps descriptor order, `Ascending` sorts by
 * name, any other order word sorts by name descending.  Python's `sorted`
 * is stable in both directions, and so is the insertion sort below.
 */
module Ordering {
  import opened Wrappers
  import opened Texts

  /** May an element with key `a` stand before one with key `b`? */
  predicate Precedes(a: Text, b: Text, descending: bool)
  {
    if descending then LessEqText(b, a) else LessEqText(a, b)
  }

  lemma PrecedesTotal(a: Text, b: Text, descending: bool)
    ensures Precedes(a, b, descending) || Precedes(b, a, descending)
  {
    LessEqTextTotal(a, b);
  }

  lemma PrecedesTransitive(a: Text, b: Text, c: Text, descending: bool)
    requires Precedes(a, b, descending) && Precedes(b, c, descending)
    ensures Precedes(a, c, descending)
  {
    if descending { LessEqTextTransitive(c, b, a); } else { LessEqTextTransitive(a, b, c); }
  }

  /** Keys never step backwards along `s`. */
  predicate SortedBy<T>(s: seq<T>, key: T -> Text, descending: bool)
  {
    forall i, j :: 0 <= i < j < |s| ==> Precedes(key(s[i]), key(s[j]), descending)
  }

  /** The entries of `s` whose key is `k`, in their order in `s`. */
  function WithKey<T>(s: seq<T>, key: T -> Text, k: Text): (r: seq<T>)
    ensures |r| <= |s|
  {
    if |s| == 0 then []
    else (if key(s[0]) == k then [s[0]] else []) + WithKey(s[1..], key, k)
  }

  /** Inserts `x` before the first entry it may precede. */
  function Insert<T>(x: T, s: seq<T>, key: T -> Text, descending: bool): (r: seq<T>)
    ensures multiset(r) == multiset(s) + multiset{x}
    ensures |r| == |s| + 1
    decreases |s|
  {
    if |s| == 0 || Precedes(key(x), key(s[0]), descending) then [x] + s
    else
      assert s == [s[0]] + s[1..];
      [s[0]] + Insert(x, s[1..], key, descending)
  }

  /** Stable sort by key. */
  function SortBy<T>(xs: seq<T>, key: T -> Text, descending: bool): (r: seq<T>)
    ensures multiset(r) == multiset(xs)
    ensures |r| == |xs|
    decreases |xs|
  {
    if |xs| == 0 then []
    else
      assert xs == [xs[0]] + xs[1..];
      Insert(xs[0], SortBy(xs[1..], key, descending), key, descending)
  }

  lemma {:induction false} InsertSorted<T>(x: T, s: seq<T>, key: T -> Text, descending: bool)
    requires SortedBy(s, key, descending)
    ensures SortedBy(Insert(x, s, key, descending), key, descending)
    decreases |s|
  {
    var r := Insert(x, s, key, descending);
    if |s| == 0 || Precedes(key(x), key(s[0]), descending) {
      forall i, j | 0 <= i < j < |r| ensures Precedes(key(r[i]), key(r[j]), descending) {
        if i == 0 {
          if j > 1 { PrecedesTransitive(key(x), key(s[0]), key(s[j - 1]), descending); }
        } else {
          assert r[i] == s[i - 1] && r[j] == s[j - 1];
        }
      }
    } else {
      PrecedesTotal(key(x), key(s[0]), descending);
      var t := Insert(x, s[1..], key, descending);
      InsertSorted(x, s[1..], key, descending);
      assert r == [s[0]] + t;
      forall i, j | 0 <= i < j < |r| ensures Precedes(key(r[i]), key(r[j]), descending) {
        if i == 0 {
          // every entry of t is x or an entry of s[1..]
          assert r[j] in multiset(t);
          assert r[j] in multiset(s[1..]) + multiset{x};
          if r[j] == x {
          } else {
            assert r[j] in s[1..];
            var k :| 0 <= k < |s[1..]| && s[1..][k] == r[j];
            assert s[k + 1] == r[j];
          }
        } else {
          assert r[i] == t[i - 1] && r[j] == t[j - 1];
        }
      }
    }
  }

  /** The result of `SortBy` is ordered by key. */
  lemma {:induction false} SortBySorted<T>(xs: seq<T>, key: T -> Text, descending: bool)
    ensures SortedBy(SortBy(xs, key, descending), key, descending)
    decreases |xs|
  {
    if |xs| > 0 {
      SortBySorted(xs[1..], key, descending);
      InsertSorted(xs[0], SortBy(xs[1..], key, descending), key, descending);
    }
  }

  lemma {:induction false} WithKeyAppend<T>(a: seq<T>, b: seq<T>, key: T -> Text, k: Text)
    ensures WithKey(a + b, key, k) == WithKey(a, key, k) + WithKey(b, key, k)
    decreases |a|
  {
    if |a| == 0 {
      assert a + b == b;
    } else {
      var h := if key(a[0]) == k then [a[0]] else [];
      assert (a + b)[0] == a[0];
      assert (a + b)[1..] == a[1..] + b;
      WithKeyAppend(a[1..], b, key, k);
      assert WithKey(a + b, key, k) == h + WithKey(a[1..] + b, key, k);
      assert WithKey(a, key, k) == h + WithKey(a[1..], key, k);
    }
  }

  /** Inserting `x` places it before every entry with an equal key. */
  lemma {:induction false} InsertWithKey<T>(x: T, s: seq<T>, key: T -> Text, descending: bool, k: Text)
    ensures WithKey(Insert(x, s, key, descending), key, k)
         == (if key(x) == k then [x] else []) + WithKey(s, key, k)
    decreases |s|
  {
    if |s| == 0 || Precedes(key(x), key(s[0]), descending) {
      assert Insert(x, s, key, descending) == [x] + s;
      WithKeyAppend([x], s, key, k);
    } else {
      var t := Insert(x, s[1..], key, descending);
      assert Insert(x, s, key, descending) == [s[0]] + t;
      InsertWithKey(x, s[1..], key, descending, k);
      WithKeyAppend([s[0]], t, key, k);
      WithKeyAppend([s[0]], s[1..], key, k);
      assert s == [s[0]] + s[1..];
      // s[0] stands strictly before x, so their keys differ
      PrecedesTotal(key(x), key(s[0]), descending);
      assert key(x) != key(s[0]);
    }
  }

  /** Stability: entries sharing a key keep their relative order. */
  lemma {:induction false} SortByStable<T>(xs: seq<T>, key: T -> Text, descending: bool, k: Text)
    ensures WithKey(SortBy(xs, key, descending), key, k) == WithKey(xs, key, k)
    decreases |xs|
  {
    if |xs| > 0 {
      SortByStable(xs[1..], key, descending, k);
      InsertWithKey(xs[0], SortBy(xs[1..], key, descending), key, descending, k);
      WithKeyAppend([xs[0]], xs[1..], key, k);
      assert xs == [xs[0]] + xs[1..];
    }
  }

  /** Sorting an already ordered list leaves it as it is. */
  lemma {:induction false} SortBySortedIdentity<T>(xs: seq<T>, key: T -> Text, descending: bool)
    requires SortedBy(xs, key, descending)
    ensures SortBy(xs, key, descending) == xs
    decreases |xs|
  {
    if |xs| > 0 {
      assert SortedBy(xs[1..], key, descending) by {
        forall i, j | 0 <= i < j < |xs[1..]|
          ensures Precedes(key(xs[1..][i]), key(xs[1..][j]), descending)
        {
          assert xs[1..][i] == xs[i + 1] && xs[1..][j] == xs[j + 1];
        }
      }
      SortBySortedIdentity(xs[1..], key, descending);
      assert xs == [xs[0]] + xs[1..];
      if |xs| > 1 {
        assert Precedes(key(xs[0]), key(xs[1..][0]), descending);
      }
    }
  }

  /** Whether an order word asks for a descending sort (`reverse=True`). */
  predicate IsDescending(order: string)
  {
    order != "Ascending"
  }

  /**
   * `order_list`, with the empty-list case corrected to return the empty
   * list: `Explicit` keeps the list; otherwise a stable sort by key.
   */
  function OrderList<T>(xs: seq<T>, order: string, key: T -> Text): (r: seq<T>)
    ensures order == "Explicit" ==> r == xs
    ensures multiset(r) == multiset(xs)
    ensures order != "Explicit" ==> SortedBy(r, key, IsDescending(order))
    ensures order != "Explicit" ==> forall k :: WithKey(r, key, k) == WithKey(xs, key, k)
  {
    if order == "Explicit" then xs
    else
      SortBySorted(xs, key, IsDescending(order));
      forall k ensures WithKey(SortBy(xs, key, IsDescending(order)), key, k) == WithKey(xs, key, k) {
        SortByStable(xs, key, IsDescending(order), k);
      }
      SortBy(xs, key, IsDescending(order))
  }

  /** Ordering twice with the same order word is ordering once. */
  lemma OrderListIdempotent<T>(xs: seq<T>, order: string, key: T -> Text)
    ensures OrderList(OrderList(xs, order, key), order, key) == OrderList(xs, order, key)
  {
    if order != "Explicit" {
      var once := OrderList(xs, order, key);
      SortBySortedIdentity(once, key, IsDescending(order));
    }
  }

  /**
   * `order_list` as written: a non-Explicit order applied to an empty list
   * falls off the end of the function and yields None instead of a list.
   */
  function OrderListAsWritten<T>(xs: seq<T>, order: string, key: T -> Text): (r: Option<seq<T>>)
    ensures order == "Explicit" ==> r == Some(xs)
    ensures r.None? <==> order != "Explicit" && |xs| == 0
    ensures r.Some? ==> r.value == OrderList(xs, order, key)
  {
    if order == "Explicit" then Some(xs)
    else if |xs| != 0 then Some(SortBy(xs, key, IsDescending(order)))
    else None
  }

  /** The input that shows it: an empty plugin list with order Ascending. */
  lemma OrderListAsWrittenLosesEmptyList<T>(key: T -> Text)
    ensures OrderListAsWritten([], "Ascending", key) == None
    ensures OrderList([], "Ascending", key) == []
  {
  }
}

=== FILE: resolver.dfy ===
/**
 * `get_all_files`: the list of files to install once the last page is
 * left.  It takes every file with a source from the saved groups, merges
 * the saved groups' flags into one map, and adds the files of every
 * conditional pattern once for each of the pattern's flags that the merged
 * map carries with the same value.
 *
 * The saved groups are given as one listing, in the order the saved steps
 * and their group maps are walked; that order is a dictionary's and so a
 * parameter here.
 */
module Resolver {
  import opened Wrappers
  import opened Texts
  import opened Seqs
  import opened Descriptor
  import opened InstallerGroups

  /** The files of one group that are installed: those whose source is not empty. */
  function SourcedFiles(files: seq<FileEntry>): (r: seq<FileEntry>)
    ensures forall x :: x in r <==> x in files && x.source != ""
    ensures |r| <= |files|
    decreases |files|
  {
    if |files| == 0 then []
    else
      var rest := SourcedFiles(files[1..]);
      assert forall x :: x in files <==> x == files[0] || x in files[1..];
      (if files[0].source != "" then [files[0]] else []) + rest
  }

  /** The first stage of `get_all_files`: the sourced files of every saved group, group by group. */
  function GroupFiles(gs: seq<InstallerGroup>): (r: seq<FileEntry>)
    decreases |gs|
  {
    if |gs| == 0 then [] else GroupFiles(gs[..|gs| - 1]) + SourcedFiles(gs[|gs| - 1].files)
  }

  /** The group flag map: later groups overwrite earlier ones, and the name `''` is skipped. */
  function MergedFlags(gs: seq<InstallerGroup>): map<Text, Text>
    decreases |gs|
  {
    if |gs| == 0 then map[]
    else
      var g := gs[|gs| - 1];
      MergedFlags(gs[..|gs| - 1]) + map name | name in g.flags && name != Some("") :: g.flags[name]
  }

  /** `i` is the last group of the listing that sets flag `name`. */
  predicate SetsFlagLast(gs: seq<InstallerGroup>, name: Text, i: int)
  {
    0 <= i < |gs| && name in gs[i].flags && forall j :: i < j < |gs| ==> name !in gs[j].flags
  }

  /** The flags of a pattern that the merged map carries with the pattern's value. */
  function Matching(p: Pattern, merged: map<Text, Text>): (r: set<string>)
    ensures forall f :: f in r <==> f in p.flags && Some(f) in merged && merged[Some(f)] == Some(p.flags[f])
  {
    set f | f in p.flags && Some(f) in merged && merged[Some(f)] == Some(p.flags[f])
  }

  /** `n` copies of `s`, one after the other. */
  function Repeat(s: seq<FileEntry>, n: nat): (r: seq<FileEntry>)
    ensures |r| == |s| * n
    ensures forall x :: x in r <==> x in s && n > 0
  {
    if n == 0 then [] else s + Repeat(s, n - 1)
  }

  /**
   * The files one pattern adds: the pattern's flags are walked once each,
   * and for a flag the merged map carries with the same value the whole
   * file list is appended, so once per matching flag.
   */
  function PatternFiles(p: Pattern, merged: map<Text, Text>): seq<FileEntry>
  {
    Repeat(p.files, |Matching(p, merged)|)
  }

  /** The second stage: the patterns' files, pattern by pattern. */
  function ConditionalFiles(ps: seq<Pattern>, merged: map<Text, Text>): seq<FileEntry>
    decreases |ps|
  {
    if |ps| == 0 then [] else PatternFiles(ps[0], merged) + ConditionalFiles(ps[1..], merged)
  }

  /** `get_all_files`: what it appends to the list of files to install. */
  function GetAllFiles(gs: seq<InstallerGroup>, patterns: seq<Pattern>): seq<FileEntry>
  {
    GroupFiles(gs) + ConditionalFiles(patterns, MergedFlags(gs))
  }

  // Group files

  /** Every group file has a source and comes from some group. */
  lemma {:induction false} GroupFilesSound(gs: seq<InstallerGroup>, x: FileEntry) returns (i: int)
    requires x in GroupFiles(gs)
    ensures x.source != "" && 0 <= i < |gs| && x in gs[i].files
    decreases |gs|
  {
    var n := |gs| - 1;
    if x in SourcedFiles(gs[n].files) {
      i := n;
    } else {
      i := GroupFilesSound(gs[..n], x);
      assert gs[..n][i] == gs[i];
    }
  }

  /** Every file with a source of every group is among the group files. */
  lemma {:induction false} GroupFilesComplete(gs: seq<InstallerGroup>, i: int, x: FileEntry)
    requires 0 <= i < |gs| && x in gs[i].files && x.source != ""
    ensures x in GroupFiles(gs)
    decreases |gs|
  {
    var n := |gs| - 1;
    if i < n {
      assert gs[..n][i] == gs[i];
      GroupFilesComplete(gs[..n], i, x);
    } else {
      assert x in SourcedFiles(gs[n].files);
    }
  }

  // The merged flag map

  /** The merged map holds the value of the last group that sets a flag. */
  lemma {:induction false} MergedFlagsLast(gs: seq<InstallerGroup>, name: Text, i: int)
    requires name != Some("") && SetsFlagLast(gs, name, i)
    ensures name in MergedFlags(gs) && MergedFlags(gs)[name] == gs[i].flags[name]
    decreases |gs|
  {
    var n := |gs| - 1;
    if i < n {
      assert gs[..n][i] == gs[i];
      assert SetsFlagLast(gs[..n], name, i);
      MergedFlagsLast(gs[..n], name, i);
    }
  }

  /** Every merged flag has a non-empty name and comes from the last group that sets it. */
  lemma {:induction false} MergedFlagsSource(gs: seq<InstallerGroup>, name: Text) returns (i: int)
    requires name in MergedFlags(gs)
    ensures name != Some("") && SetsFlagLast(gs, name, i) && MergedFlags(gs)[name] == gs[i].flags[name]
    decreases |gs|
  {
    var n := |gs| - 1;
    if name in gs[n].flags && name != Some("") {
      i := n;
    } else {
      i := MergedFlagsSource(gs[..n], name);
      assert gs[..n][i] == gs[i];
    }
  }

  // Pattern files

  /** A pattern whose flags match nothing, in particular one with no flags, adds no files. */
  lemma PatternWithoutMatchAddsNothing(p: Pattern, merged: map<Text, Text>)
    requires forall f :: f in p.flags ==> Some(f) !in merged || merged[Some(f)] != Some(p.flags[f])
    ensures PatternFiles(p, merged) == []
  {
    assert Matching(p, merged) == {};
  }

  /** One matching flag is enough: then every file of the pattern is added. */
  lemma PatternAnyMatch(p: Pattern, merged: map<Text, Text>, f: string)
    requires f in p.flags && Some(f) in merged && merged[Some(f)] == Some(p.flags[f])
    ensures forall x :: x in p.files ==> x in PatternFiles(p, merged)
    ensures |PatternFiles(p, merged)| == |p.files| * |Matching(p, merged)|
  {
    assert f in Matching(p, merged);
  }

  /** Every conditional file comes from a pattern with a matching flag. */
  lemma {:induction false} ConditionalFilesSound(ps: seq<Pattern>, merged: map<Text, Text>, x: FileEntry) returns (i: int)
    requires x in ConditionalFiles(ps, merged)
    ensures 0 <= i < |ps| && x in ps[i].files && |Matching(ps[i], merged)| > 0
    decreases |ps|
  {
    if x in PatternFiles(ps[0], merged) {
      i := 0;
    } else {
      var j := ConditionalFilesSound(ps[1..], merged, x);
      i := j + 1;
    }
  }

  /** Every file of a pattern with a matching flag is among the conditional files. */
  lemma {:induction false} ConditionalFilesComplete(ps: seq<Pattern>, merged: map<Text, Text>, i: int, x: FileEntry)
    requires 0 <= i < |ps| && x in ps[i].files && |Matching(ps[i], merged)| > 0
    ensures x in ConditionalFiles(ps, merged)
    decreases |ps|
  {
    if i > 0 {
      ConditionalFilesComplete(ps[1..], merged, i - 1, x);
    } else {
      assert x in PatternFiles(ps[0], merged);
    }
  }

  /**
   * A file is installed exactly when a saved group holds it with a source,
   * or a pattern lists it and one of that pattern's flags is set, with the
   * pattern's value, by the last saved group setting that flag.
   */
  lemma GetAllFilesMember(gs: seq<InstallerGroup>, patterns: seq<Pattern>, x: FileEntry)
    ensures x in GetAllFiles(gs, patterns) <==>
      || (x.source != "" && exists i :: 0 <= i < |gs| && x in gs[i].files)
      || (exists i :: 0 <= i < |patterns| && x in patterns[i].files && |Matching(patterns[i], MergedFlags(gs))| > 0)
  {
    var merged := MergedFlags(gs);
    if x in GroupFiles(gs) {
      var i := GroupFilesSound(gs, x);
    }
    if x in ConditionalFiles(patterns, merged) {
      var i := ConditionalFilesSound(patterns, merged, x);
    }
    if x.source != "" && exists i :: 0 <= i < |gs| && x in gs[i].files {
      var i :| 0 <= i < |gs| && x in gs[i].files;
      GroupFilesComplete(gs, i, x);
    }
    if exists i :: 0 <= i < |patterns| && x in patterns[i].files && |Matching(patterns[i], merged)| > 0 {
      var i :| 0 <= i < |patterns| && x in patterns[i].files && |Matching(patterns[i], merged)| > 0;
      ConditionalFilesComplete(patterns, merged, i, x);
    }
  }

  // The literal flag loop

  /** The pattern flag `f` is set with the pattern's value in the merged map. */
  predicate Matches(p: Pattern, merged: map<Text, Text>, f: string)
    requires f in p.flags
  {
    Some(f) in merged && merged[Some(f)] == Some(p.flags[f])
  }

  /**
   * The pattern loop of `get_all_files` as written, walking the pattern's
   * flags in the order `keys`: for each flag the inner loop over the merged
   * map meets at most one equal name, and on an equal value appends the
   * pattern's files.
   */
  function PatternLoop(p: Pattern, merged: map<Text, Text>, keys: seq<string>): seq<FileEntry>
    requires forall f :: f in keys ==> f in p.flags
    decreases |keys|
  {
    if |keys| == 0 then []
    else (if Matches(p, merged, keys[0]) then p.files else []) + PatternLoop(p, merged, keys[1..])
  }

  /** The matching flags among `keys`. */
  function MatchingIn(p: Pattern, merged: map<Text, Text>, keys: seq<string>): set<string>
    requires forall f :: f in keys ==> f in p.flags
  {
    set f | f in keys && Matches(p, merged, f)
  }

  /** The matching flags among a list: the head when it matches, and those of the tail. */
  lemma MatchingInCons(p: Pattern, merged: map<Text, Text>, keys: seq<string>)
    requires |keys| > 0 && forall f :: f in keys ==> f in p.flags
    ensures MatchingIn(p, merged, keys) ==
      (if Matches(p, merged, keys[0]) then {keys[0]} else {}) + MatchingIn(p, merged, keys[1..])
  {
    assert forall f :: f in keys <==> f == keys[0] || f in keys[1..];
  }

  lemma {:induction false} PatternLoopCounts(p: Pattern, merged: map<Text, Text>, keys: seq<string>)
    requires NoDuplicates(keys) && forall f :: f in keys ==> f in p.flags
    ensures PatternLoop(p, merged, keys) == Repeat(p.files, |MatchingIn(p, merged, keys)|)
    decreases |keys|
  {
    if |keys| > 0 {
      var rest := keys[1..];
      NoDuplicatesTail(keys);
      PatternLoopCounts(p, merged, rest);
      MatchingInCons(p, merged, keys);
      assert keys[0] !in MatchingIn(p, merged, rest);
    }
  }

  /**
   * Whatever order the pattern's flags are walked in, the loop as written
   * appends exactly the files `PatternFiles` gives: the pattern's files,
   * once per matching flag.
   */
  lemma PatternLoopAgrees(p: Pattern, merged: map<Text, Text>, keys: seq<string>)
    requires Enumerates(keys, p.flags.Keys)
    ensures PatternLoop(p, merged, keys) == PatternFiles(p, merged)
  {
    PatternLoopCounts(p, merged, keys);
    assert MatchingIn(p, merged, keys) == Matching(p, merged);
  }

  /**
   * Nothing is de-duplicated: a pattern whose two flags both match adds its
   * file twice.
   */
  lemma TwoMatchesAddTwice()
    ensures var f := FileEntry("a.esp", "", "", "", None);
      var p := Pattern(map["x" := "On", "y" := "On"], [f]);
      PatternFiles(p, map[Some("x") := Some("On"), Some("y") := Some("On")]) == [f, f]
  {
    var f := FileEntry("a.esp", "", "", "", None);
    var p := Pattern(map["x" := "On", "y" := "On"], [f]);
    var merged := map[Some("x") := Some("On"), Some("y") := Some("On")];
    assert Matching(p, merged) == {"x", "y"};
    assert |{"x", "y"}| == 2 by {
      assert "x" != "y";
      assert {"x", "y"} == {"x"} + {"y"};
    }
    assert Repeat([f], 1) == [f];
    assert Repeat([f], 2) == [f] + [f];
  }
}

=== FILE: seqs.dfy ===
/**
 * Append-if-absent, the list discipline the descriptor and the installer
 * groups share (`if not x in lst: lst.append(x)`).
 */
module Seqs {

  /** No element occurs twice. */
  predicate NoDuplicates<T(==)>(s: seq<T>)
  {
    forall i, j :: 0 <= i < j < |s| ==> s[i] != s[j]
  }

  /** `keys` lists the elements of `s`, each once: the order in which a dictionary's keys are walked. */
  predicate Enumerates<T(==)>(keys: seq<T>, s: set<T>)
  {
    && NoDuplicates(keys)
    && (forall i :: 0 <= i < |keys| ==> keys[i] in s)
    && (forall k :: k in s ==> k in keys)
  }

  /** The tail of a list without duplicates has none, and lacks the head. */
  lemma NoDuplicatesTail<T>(s: seq<T>)
    requires NoDuplicates(s) && |s| > 0
    ensures NoDuplicates(s[1..]) && s[0] !in s[1..]
  {
    var rest := s[1..];
    forall i, j | 0 <= i < j < |rest| ensures rest[i] != rest[j] {
      assert rest[i] == s[i + 1] && rest[j] == s[j + 1];
    }
    forall i | 0 <= i < |rest| ensures rest[i] != s[0] {
      assert rest[i] == s[i + 1];
    }
  }

  /** Appends `x` unless it is already an entry of `s`. */
  function AppendIfAbsent<T(==)>(s: seq<T>, x: T): (r: seq<T>)
    ensures |s| <= |r| <= |s| + 1
    ensures r[..|s|] == s
    ensures x in r
    ensures forall y :: y in r ==> y in s || y == x
    ensures forall y :: y in s ==> y in r
    ensures |r| == |s| + 1 <==> x !in s
    ensures NoDuplicates(s) ==> NoDuplicates(r)
  {
    if x in s then s else s + [x]
  }

  /** Appends, in order, every entry of `xs` that is not yet present. */
  function AppendAllNew<T(==)>(s: seq<T>, xs: seq<T>): (r: seq<T>)
    ensures |s| <= |r| <= |s| + |xs|
    ensures r[..|s|] == s
    ensures forall y :: y in r ==> y in s || y in xs
    ensures forall y :: y in s ==> y in r
    ensures forall y :: y in xs ==> y in r
    ensures NoDuplicates(s) ==> NoDuplicates(r)
    decreases |xs|
  {
    if |xs| == 0 then s else AppendAllNew(AppendIfAbsent(s, xs[0]), xs[1..])
  }

  /** Adding entries that are all present already changes nothing. */
  lemma {:induction false} AppendAllNewPresent<T>(s: seq<T>, xs: seq<T>)
    requires forall y :: y in xs ==> y in s
    ensures AppendAllNew(s, xs) == s
    decreases |xs|
  {
    if |xs| > 0 {
      assert xs[0] in xs;
      forall y | y in xs[1..] ensures y in s {
        assert y in xs;
      }
      AppendAllNewPresent(s, xs[1..]);
    }
  }

  /** A duplicate-free list of distinct entries is kept as it is. */
  lemma {:induction false} AppendAllNewDistinct<T>(xs: seq<T>)
    requires NoDuplicates(xs)
    ensures AppendAllNew([], xs) == xs
  {
    AppendAllNewDistinctFrom([], xs);
  }

  lemma {:induction false} AppendAllNewDistinctFrom<T>(s: seq<T>, xs: seq<T>)
    requires NoDuplicates(s + xs)
    ensures AppendAllNew(s, xs) == s + xs
    decreases |xs|
  {
    if |xs| > 0 {
      assert (s + xs)[|s|] == xs[0];
      assert xs[0] !in s by {
        forall i | 0 <= i < |s| ensures s[i] != xs[0] {
          assert (s + xs)[i] == s[i];
        }
      }
      assert s + [xs[0]] + xs[1..] == s + xs;
      AppendAllNewDistinctFrom(s + [xs[0]], xs[1..]);
    }
  }
}

=== FILE: step_builder.dfy ===
/**
 * The selection state `construct_step` builds for each group of a step: a
 * fresh build when a step is entered going forward, and the re-selection of
 * `SelectAll` groups when a saved step is reopened going back.  Only the
 * group state is modelled; the widgets are not.
 *
 * `construct_step` tests the group's type once per plugin; as the type is
 * the group's, the model tests it once per group and then walks the
 * plugins with the per-plugin work of that type.
 */
module StepBuilder {
  import opened Wrappers
  import opened Texts
  import opened Seqs
  import opened Descriptor
  import opened InstallerGroups
  import opened Handlers

  /**
   * A radio button that starts selected: `update_radio_value` as the first
   * of its group, then the plugin's flags and files.
   */
  function SelectFirst(g: InstallerGroup, name: Text): (r: InstallerGroup)
    ensures r.boxes.Keys == g.boxes.Keys + {name} && r.boxes[name]
    ensures forall k :: k in g.boxes && k != name ==> r.boxes[k] == g.boxes[k]
    ensures r.name == g.name && r.groupType == g.groupType && r.plugins == g.plugins && r.registered == g.registered
  {
    UpdateFiles(UpdateFlags(UpdateRadioValue(g, name, true, true), name, false), name)
  }

  /** When `name` is last carried by plugin `i`, a radio-style selection carries that plugin's flags and files. */
  lemma SelectFirstCarries(g: InstallerGroup, name: Text, i: int)
    requires g.groupType == ExactlyOne || g.groupType == All
    requires IsLastNamed(g.plugins, name, i)
    ensures SelectFirst(g, name).flags == g.plugins[i].flags
    ensures SelectFirst(g, name).files == AppendAllNew([], g.plugins[i].files)
  {
    var g1 := UpdateRadioValue(g, name, true, true);
    assert g1.plugins == g.plugins && g1.groupType == g.groupType;
    var g2 := UpdateFlags(g1, name, false);
    assert g2.flags == g.plugins[i].flags;
  }

  /** `add_element`: an at-most-one check box is registered under its plugin's name. */
  function Register(g: InstallerGroup, name: Text): (r: InstallerGroup)
    ensures r.registered == g.registered + {name}
    ensures r.(registered := g.registered) == g
  {
    g.(registered := g.registered + {name})
  }

  /** A plugin of an exactly-one group after the first: added, its radio button off. */
  function AddRadioOff(g: InstallerGroup, p: Plugin): (r: InstallerGroup)
    ensures r.boxes.Keys == g.boxes.Keys + {p.name} && !r.boxes[p.name]
    ensures forall k :: k in g.boxes && k != p.name ==> r.boxes[k] == g.boxes[k]
    ensures r.plugins == AppendIfAbsent(g.plugins, p)
    ensures r.flags == g.flags && r.files == g.files && r.name == g.name && r.groupType == g.groupType
  {
    UpdateRadioValue(AddPlugin(g, p), p.name, false, false)
  }

  /** A plugin of a select-all group, or the first of an exactly-one group: added and selected. */
  function AddSelected(g: InstallerGroup, p: Plugin): (r: InstallerGroup)
    ensures r.boxes.Keys == g.boxes.Keys + {p.name} && r.boxes[p.name]
    ensures forall k :: k in g.boxes && k != p.name ==> r.boxes[k] == g.boxes[k]
    ensures r.plugins == AppendIfAbsent(g.plugins, p) && r.name == g.name && r.groupType == g.groupType
  {
    SelectFirst(AddPlugin(g, p), p.name)
  }

  /** A plugin of any other group: added, its check box off, and registered in an at-most-one group. */
  function AddUnchecked(g: InstallerGroup, p: Plugin, register: bool): (r: InstallerGroup)
    ensures r.boxes.Keys == g.boxes.Keys + {p.name} && !r.boxes[p.name]
    ensures forall k :: k in g.boxes && k != p.name ==> r.boxes[k] == g.boxes[k]
    ensures r.plugins == AppendIfAbsent(g.plugins, p)
    ensures r.registered == if register then g.registered + {p.name} else g.registered
    ensures r.flags == g.flags && r.files == g.files && r.name == g.name && r.groupType == g.groupType
  {
    var g1 := UpdateBoxValue(AddPlugin(g, p), p.name, false);
    if register then Register(g1, p.name) else g1
  }

  function RadioOffFrom(g: InstallerGroup, ps: seq<Plugin>, k: nat): (r: InstallerGroup)
    requires k <= |ps|
    ensures r.name == g.name && r.groupType == g.groupType
    ensures g.boxes.Keys <= r.boxes.Keys && forall j :: k <= j < |ps| ==> ps[j].name in r.boxes
    decreases |ps| - k
  {
    if k == |ps| then g else RadioOffFrom(AddRadioOff(g, ps[k]), ps, k + 1)
  }

  function SelectedFrom(g: InstallerGroup, ps: seq<Plugin>, k: nat): (r: InstallerGroup)
    requires k <= |ps|
    ensures r.name == g.name && r.groupType == g.groupType
    ensures g.boxes.Keys <= r.boxes.Keys && forall j :: k <= j < |ps| ==> ps[j].name in r.boxes
    decreases |ps| - k
  {
    if k == |ps| then g else SelectedFrom(AddSelected(g, ps[k]), ps, k + 1)
  }

  function UncheckedFrom(g: InstallerGroup, ps: seq<Plugin>, k: nat, register: bool): (r: InstallerGroup)
    requires k <= |ps|
    ensures r.name == g.name && r.groupType == g.groupType
    ensures g.boxes.Keys <= r.boxes.Keys && forall j :: k <= j < |ps| ==> ps[j].name in r.boxes
    decreases |ps| - k
  {
    if k == |ps| then g else UncheckedFrom(AddUnchecked(g, ps[k], register), ps, k + 1, register)
  }

  /**
   * The `InstallerGroup` `construct_step` builds for a group on a forward
   * visit: an exactly-one group selects its first plugin and adds the
   * others off, a select-all group selects every plugin in turn, and any
   * other group adds every plugin off, registering the boxes of an
   * at-most-one group.
   */
  function FreshGroup(gr: Group): (r: InstallerGroup)
    ensures r.name == gr.name && r.groupType == gr.groupType
    ensures forall p :: p in gr.plugins ==> p.name in r.boxes
  {
    var g0 := NewGroup(gr.name, gr.groupType);
    var ps := gr.plugins;
    if gr.groupType == ExactlyOne then
      if |ps| == 0 then g0 else RadioOffFrom(AddSelected(g0, ps[0]), ps, 1)
    else if gr.groupType == All then SelectedFrom(g0, ps, 0)
    else UncheckedFrom(g0, ps, 0, gr.groupType == AtMostOne)
  }

  /** `add_group`: stores a group under its name, replacing any group of that name. */
  function AddGroup(m: map<Text, InstallerGroup>, g: InstallerGroup): (r: map<Text, InstallerGroup>)
    ensures r.Keys == m.Keys + {g.name} && r[g.name] == g
    ensures forall key :: key in m && key != g.name ==> r[key] == m[key]
  {
    m[g.name := g]
  }

  /** The map `add_group` leaves after storing each group in turn. */
  function StepMap(gs: seq<InstallerGroup>): (r: map<Text, InstallerGroup>)
    ensures forall i :: 0 <= i < |gs| ==> gs[i].name in r
    decreases |gs|
  {
    if |gs| == 0 then map[]
    else
      var n := |gs| - 1;
      var r := AddGroup(StepMap(gs[..n]), gs[n]);
      assert forall i :: 0 <= i < n ==> gs[..n][i] == gs[i];
      r
  }

  /** The groups of a step, each built fresh. */
  function FreshGroups(groups: seq<Group>): (r: seq<InstallerGroup>)
    ensures |r| == |groups|
    ensures forall i :: 0 <= i < |groups| ==> r[i].name == groups[i].name
  {
    seq(|groups|, i requires 0 <= i < |groups| => FreshGroup(groups[i]))
  }

  /** The group map of a step on a forward visit, keyed by group name; a later group of the same name replaces an earlier one. */
  function FreshStep(groups: seq<Group>): (r: map<Text, InstallerGroup>)
    ensures forall gr :: gr in groups ==> gr.name in r
  {
    var gs := FreshGroups(groups);
    assert forall i :: 0 <= i < |groups| ==> gs[i].name == groups[i].name;
    StepMap(gs)
  }

  /** Re-selects every plugin of a select-all group from position `k` on; a reopened step does this and nothing else. */
  function ReselectFrom(g: InstallerGroup, ps: seq<Plugin>, k: nat): (r: InstallerGroup)
    requires k <= |ps|
    ensures (forall j :: k <= j < |ps| ==> ps[j].name in g.boxes) ==> r.boxes.Keys == g.boxes.Keys
    ensures r.name == g.name && r.groupType == g.groupType && r.plugins == g.plugins && r.registered == g.registered
    decreases |ps| - k
  {
    if k == |ps| then g else ReselectFrom(SelectFirst(g, ps[k].name), ps, k + 1)
  }

  /**
   * A saved group when its step is reopened: a select-all group re-selects
   * all its plugins; the others are only displayed, so their state is
   * unchanged.
   */
  function ReopenGroup(g: InstallerGroup, gr: Group): (r: InstallerGroup)
    ensures gr.groupType != All ==> r == g
    ensures r.name == g.name && r.groupType == g.groupType && r.plugins == g.plugins && r.registered == g.registered
  {
    if gr.groupType == All then ReselectFrom(g, gr.plugins, 0) else g
  }

  /** The saved group map of a step being reopened; every group of the step must have a saved entry. */
  function ReopenStep(groups: seq<Group>, saved: map<Text, InstallerGroup>): (r: map<Text, InstallerGroup>)
    requires forall gr :: gr in groups ==> gr.name in saved
    ensures r.Keys == saved.Keys
    ensures (forall gr :: gr in groups ==> gr.groupType != All) ==> r == saved
    decreases |groups|
  {
    if |groups| == 0 then saved
    else
      var gr := groups[0];
      ReopenStep(groups[1..], saved[gr.name := ReopenGroup(saved[gr.name], gr)])
  }

  // Facts about prefixes

  /** One more plugin adds its name to the names of a prefix. */
  lemma PluginNamesPrefix(ps: seq<Plugin>, k: int)
    requires 0 <= k < |ps|
    ensures PluginNames(ps[..k + 1]) == PluginNames(ps[..k]) + {ps[k].name}
  {
    assert ps[..k + 1] == ps[..k] + [ps[k]];
  }

  /** With distinct plugins, the next plugin is not yet in the prefix. */
  lemma AddNextPlugin(ps: seq<Plugin>, k: int)
    requires NoDuplicates(ps) && 0 <= k < |ps|
    ensures AppendIfAbsent(ps[..k], ps[k]) == ps[..k + 1]
  {
    assert ps[k] !in ps[..k];
    assert ps[..k + 1] == ps[..k] + [ps[k]];
  }

  /** Distinct names make distinct plugins. */
  lemma UniqueNamesNoDuplicates(ps: seq<Plugin>)
    requires UniqueNames(ps)
    ensures NoDuplicates(ps)
  {
  }

  /** The prefix of `k` plugins has been added: one box per name, and distinct plugins kept in order. */
  predicate BuiltSoFar(g: InstallerGroup, ps: seq<Plugin>, k: int)
  {
    && 0 <= k <= |ps|
    && g.boxes.Keys == PluginNames(ps[..k])
    && (NoDuplicates(ps) ==> g.plugins == ps[..k])
  }

  lemma BuiltNext(g: InstallerGroup, r: InstallerGroup, ps: seq<Plugin>, k: int)
    requires BuiltSoFar(g, ps, k) && k < |ps|
    requires r.boxes.Keys == g.boxes.Keys + {ps[k].name} && r.plugins == AppendIfAbsent(g.plugins, ps[k])
    ensures BuiltSoFar(r, ps, k + 1)
  {
    PluginNamesPrefix(ps, k);
    if NoDuplicates(ps) {
      AddNextPlugin(ps, k);
    }
  }

  lemma BuiltAll(g: InstallerGroup, ps: seq<Plugin>)
    requires BuiltSoFar(g, ps, |ps|)
    ensures g.boxes.Keys == PluginNames(ps) && (NoDuplicates(ps) ==> g.plugins == ps)
  {
    assert ps[..|ps|] == ps;
  }

  // Exactly-one groups

  /** Exactly the box of `first` is on. */
  predicate FirstOn(g: InstallerGroup, first: Text)
  {
    && first in g.boxes
    && (forall key :: key in g.boxes ==> (g.boxes[key] <==> key == first))
  }

  /** Later plugins whose names differ from the first's leave the first's box the only one on. */
  lemma {:induction false} RadioOffFromKeepsFirst(g: InstallerGroup, ps: seq<Plugin>, k: nat)
    requires 1 <= k <= |ps| && (forall j :: 0 < j < |ps| ==> ps[j].name != ps[0].name)
    requires FirstOn(g, ps[0].name)
    ensures FirstOn(RadioOffFrom(g, ps, k), ps[0].name)
    decreases |ps| - k
  {
    if k < |ps| {
      RadioOffFromKeepsFirst(AddRadioOff(g, ps[k]), ps, k + 1);
    }
  }

  lemma {:induction false} RadioOffFromBuilt(g: InstallerGroup, ps: seq<Plugin>, k: nat)
    requires BuiltSoFar(g, ps, k)
    ensures BuiltSoFar(RadioOffFrom(g, ps, k), ps, |ps|)
    decreases |ps| - k
  {
    if k < |ps| {
      BuiltNext(g, AddRadioOff(g, ps[k]), ps, k);
      RadioOffFromBuilt(AddRadioOff(g, ps[k]), ps, k + 1);
    }
  }

  /** Adding the later plugins of an exactly-one group leaves its flags and files alone. */
  lemma {:induction false} RadioOffFromKeepsCarried(g: InstallerGroup, ps: seq<Plugin>, k: nat)
    requires k <= |ps|
    ensures RadioOffFrom(g, ps, k).flags == g.flags && RadioOffFrom(g, ps, k).files == g.files
    decreases |ps| - k
  {
    if k < |ps| {
      RadioOffFromKeepsCarried(AddRadioOff(g, ps[k]), ps, k + 1);
    }
  }

  /** The first plugin of a fresh exactly-one group: selected, carrying its flags and files. */
  lemma FirstSelected(gr: Group)
    requires gr.groupType == ExactlyOne && |gr.plugins| > 0
    ensures var g1 := AddSelected(NewGroup(gr.name, gr.groupType), gr.plugins[0]);
      && FirstOn(g1, gr.plugins[0].name) && BuiltSoFar(g1, gr.plugins, 1)
      && g1.flags == gr.plugins[0].flags && g1.files == AppendAllNew([], gr.plugins[0].files)
  {
    var ps := gr.plugins;
    var g0 := NewGroup(gr.name, gr.groupType);
    var g1 := AddPlugin(g0, ps[0]);
    assert g1.plugins == [ps[0]] == ps[..1];
    SelectFirstCarries(g1, ps[0].name, 0);
    BuiltNext(g0, AddSelected(g0, ps[0]), ps, 0);
  }

  /**
   * A fresh exactly-one group with distinct plugin names starts with its
   * first plugin selected, alone, carrying that plugin's flags and files.
   */
  lemma FreshExactlyOne(gr: Group)
    requires gr.groupType == ExactlyOne && UniqueNames(gr.plugins) && |gr.plugins| > 0
    ensures SelectedOnly(FreshGroup(gr), 0) && ExactlyOneConsistent(FreshGroup(gr))
  {
    var ps := gr.plugins;
    var g1 := AddSelected(NewGroup(gr.name, gr.groupType), ps[0]);
    FirstSelected(gr);
    forall j | 0 < j < |ps| ensures ps[j].name != ps[0].name {
      LaterNameDiffers(ps, j);
    }
    RadioOffFromKeepsFirst(g1, ps, 1);
    RadioOffFromBuilt(g1, ps, 1);
    RadioOffFromKeepsCarried(g1, ps, 1);
    UniqueNamesNoDuplicates(ps);
    BuiltAll(FreshGroup(gr), ps);
    FirstOnConsistent(FreshGroup(gr));
  }

  /** With distinct names, a later plugin differs in name from the first. */
  lemma LaterNameDiffers(ps: seq<Plugin>, k: int)
    requires UniqueNames(ps) && 0 < k < |ps|
    ensures ps[k].name != ps[0].name
  {
  }

  lemma FirstOnConsistent(g: InstallerGroup)
    requires g.groupType == ExactlyOne && UniqueNames(g.plugins) && |g.plugins| > 0
    requires g.boxes.Keys == PluginNames(g.plugins) && FirstOn(g, g.plugins[0].name)
    requires g.flags == g.plugins[0].flags && g.files == AppendAllNew([], g.plugins[0].files)
    ensures SelectedOnly(g, 0) && ExactlyOneConsistent(g)
  {
  }

  // Select-all groups

  /** Every box is on. */
  predicate AllOn(g: InstallerGroup)
  {
    forall key :: key in g.boxes ==> g.boxes[key]
  }

  /** The plugins so far are kept in order, and the group carries the flags and files of the last of them, or none. */
  predicate CarriesLast(g: InstallerGroup, ps: seq<Plugin>, k: int)
  {
    && 0 <= k <= |ps|
    && g.groupType == All
    && g.plugins == ps[..k]
    && (k == 0 ==> g.flags == map[] && g.files == [])
    && (k > 0 ==> g.flags == ps[k - 1].flags && g.files == AppendAllNew([], ps[k - 1].files))
  }

  lemma {:induction false} SelectedFromKeepsOn(g: InstallerGroup, ps: seq<Plugin>, k: nat)
    requires k <= |ps| && AllOn(g)
    ensures AllOn(SelectedFrom(g, ps, k))
    decreases |ps| - k
  {
    if k < |ps| {
      SelectedFromKeepsOn(AddSelected(g, ps[k]), ps, k + 1);
    }
  }

  lemma {:induction false} SelectedFromBuilt(g: InstallerGroup, ps: seq<Plugin>, k: nat)
    requires BuiltSoFar(g, ps, k)
    ensures BuiltSoFar(SelectedFrom(g, ps, k), ps, |ps|)
    decreases |ps| - k
  {
    if k < |ps| {
      BuiltNext(g, AddSelected(g, ps[k]), ps, k);
      SelectedFromBuilt(AddSelected(g, ps[k]), ps, k + 1);
    }
  }

  /** With distinct names the plugin just added is the last carrying its name. */
  lemma AddedIsLast(ps: seq<Plugin>, k: int)
    requires UniqueNames(ps) && 0 <= k < |ps|
    ensures IsLastNamed(ps[..k + 1], ps[k].name, k) && NoDuplicates(ps)
  {
  }

  lemma SelectedCarriesNext(g: InstallerGroup, ps: seq<Plugin>, k: nat)
    requires CarriesLast(g, ps, k) && k < |ps|
    requires NoDuplicates(ps) && IsLastNamed(ps[..k + 1], ps[k].name, k)
    ensures CarriesLast(AddSelected(g, ps[k]), ps, k + 1)
  {
    AddNextPlugin(ps, k);
    SelectFirstCarries(AddPlugin(g, ps[k]), ps[k].name, k);
  }

  lemma {:induction false} SelectedFromCarries(g: InstallerGroup, ps: seq<Plugin>, k: nat)
    requires UniqueNames(ps) && CarriesLast(g, ps, k)
    ensures CarriesLast(SelectedFrom(g, ps, k), ps, |ps|)
    decreases |ps| - k
  {
    if k < |ps| {
      AddedIsLast(ps, k);
      SelectedCarriesNext(g, ps, k);
      SelectedFromCarries(AddSelected(g, ps[k]), ps, k + 1);
    }
  }

  /**
   * A fresh select-all group with distinct plugin names has one box per
   * plugin, every box on, and carries the flags and files of its last
   * plugin only.
   */
  lemma FreshAll(gr: Group)
    requires gr.groupType == All && UniqueNames(gr.plugins)
    ensures AllOn(FreshGroup(gr)) && CarriesLast(FreshGroup(gr), gr.plugins, |gr.plugins|)
    ensures FreshGroup(gr).boxes.Keys == PluginNames(gr.plugins) && FreshGroup(gr).plugins == gr.plugins
  {
    var g0 := NewGroup(gr.name, gr.groupType);
    assert gr.plugins[..0] == [];
    SelectedFromKeepsOn(g0, gr.plugins, 0);
    SelectedFromBuilt(g0, gr.plugins, 0);
    SelectedFromCarries(g0, gr.plugins, 0);
    UniqueNamesNoDuplicates(gr.plugins);
    BuiltAll(FreshGroup(gr), gr.plugins);
  }

  // At-most-one and independent groups

  /** Every box is off, nothing is carried, and, when registering, the boxes built so far are registered. */
  predicate AllOffSoFar(g: InstallerGroup, ps: seq<Plugin>, k: int, register: bool)
  {
    && BuiltSoFar(g, ps, k)
    && NoneSelected(g)
    && g.flags == map[] && g.files == []
    && g.registered == (if register then PluginNames(ps[..k]) else {})
  }

  lemma UncheckedNext(g: InstallerGroup, ps: seq<Plugin>, k: nat, register: bool)
    requires AllOffSoFar(g, ps, k, register) && k < |ps|
    ensures AllOffSoFar(AddUnchecked(g, ps[k], register), ps, k + 1, register)
  {
    PluginNamesPrefix(ps, k);
    BuiltNext(g, AddUnchecked(g, ps[k], register), ps, k);
  }

  lemma {:induction false} UncheckedFromAllOff(g: InstallerGroup, ps: seq<Plugin>, k: nat, register: bool)
    requires AllOffSoFar(g, ps, k, register)
    ensures AllOffSoFar(UncheckedFrom(g, ps, k, register), ps, |ps|, register)
    decreases |ps| - k
  {
    if k < |ps| {
      UncheckedNext(g, ps, k, register);
      UncheckedFromAllOff(AddUnchecked(g, ps[k], register), ps, k + 1, register);
    }
  }

  /**
   * A fresh group of any other type has one box per plugin, every box off,
   * no flags and no files; only at-most-one boxes are registered, all of
   * them.
   */
  lemma FreshUnselected(gr: Group)
    requires !(gr.groupType == ExactlyOne || gr.groupType == All)
    ensures NoneSelected(FreshGroup(gr)) && FreshGroup(gr).flags == map[] && FreshGroup(gr).files == []
    ensures FreshGroup(gr).boxes.Keys == PluginNames(gr.plugins)
    ensures FreshGroup(gr).registered == if gr.groupType == AtMostOne then PluginNames(gr.plugins) else {}
    ensures NoDuplicates(gr.plugins) ==> FreshGroup(gr).plugins == gr.plugins
  {
    assert gr.plugins[..0] == [];
    UncheckedFromAllOff(NewGroup(gr.name, gr.groupType), gr.plugins, 0, gr.groupType == AtMostOne);
    BuiltAll(FreshGroup(gr), gr.plugins);
    assert gr.plugins[..|gr.plugins|] == gr.plugins;
  }

  /** A fresh at-most-one group with distinct plugin names starts consistent, with nothing selected. */
  lemma FreshAtMostOne(gr: Group)
    requires gr.groupType == AtMostOne && UniqueNames(gr.plugins)
    ensures AtMostOneConsistent(FreshGroup(gr)) && NoneSelected(FreshGroup(gr))
  {
    UniqueNamesNoDuplicates(gr.plugins);
    FreshUnselected(gr);
  }

  // Reopening a step

  /** Re-selecting boxes that are already on leaves the boxes as they are. */
  lemma {:induction false} ReselectFromKeepsBoxes(g: InstallerGroup, ps: seq<Plugin>, k: nat)
    requires k <= |ps|
    requires forall j :: k <= j < |ps| ==> ps[j].name in g.boxes && g.boxes[ps[j].name]
    ensures ReselectFrom(g, ps, k).boxes == g.boxes
    decreases |ps| - k
  {
    if k < |ps| {
      var next := SelectFirst(g, ps[k].name);
      assert next.boxes == g.boxes;
      ReselectFromKeepsBoxes(next, ps, k + 1);
    }
  }

  /** Re-selecting the plugins of a select-all group leaves it carrying the last plugin's flags and files. */
  lemma {:induction false} ReselectFromCarries(g: InstallerGroup, ps: seq<Plugin>, k: nat)
    requires g.groupType == All && g.plugins == ps && UniqueNames(ps) && k < |ps|
    ensures ReselectFrom(g, ps, k).flags == ps[|ps| - 1].flags
    ensures ReselectFrom(g, ps, k).files == AppendAllNew([], ps[|ps| - 1].files)
    decreases |ps| - k
  {
    var next := SelectFirst(g, ps[k].name);
    if k == |ps| - 1 {
      UniqueNamesLast(ps, k);
      SelectFirstCarries(g, ps[k].name, k);
      assert ReselectFrom(next, ps, k + 1) == next;
    } else {
      ReselectFromCarries(next, ps, k + 1);
    }
  }

  /**
   * Reopening a group straight after building it changes nothing: the
   * re-selection of a select-all group finds every box on and ends on the
   * flags and files the build ended on.
   */
  lemma ReopenFreshGroup(gr: Group)
    requires UniqueNames(gr.plugins)
    ensures ReopenGroup(FreshGroup(gr), gr) == FreshGroup(gr)
  {
    if gr.groupType == All {
      var g := FreshGroup(gr);
      var ps := gr.plugins;
      FreshAll(gr);
      forall j | 0 <= j < |ps| ensures ps[j].name in g.boxes && g.boxes[ps[j].name] {
        assert ps[j] in ps;
      }
      ReselectFromKeepsBoxes(g, ps, 0);
      if |ps| > 0 {
        ReselectFromCarries(g, ps, 0);
      }
    }
  }

  /** Group names are unique within a step. */
  predicate UniqueGroupNames(groups: seq<Group>)
  {
    forall i, j :: 0 <= i < j < |groups| ==> groups[i].name != groups[j].name
  }

  /** No two stored groups share a name. */
  predicate DistinctNames(gs: seq<InstallerGroup>)
  {
    forall i, j :: 0 <= i < j < |gs| ==> gs[i].name != gs[j].name
  }

  /** A prefix keeps its names distinct. */
  lemma DistinctNamesPrefix(gs: seq<InstallerGroup>, n: int)
    requires DistinctNames(gs) && 0 <= n <= |gs|
    ensures DistinctNames(gs[..n])
  {
    var init := gs[..n];
    forall a, b | 0 <= a < b < |init| ensures init[a].name != init[b].name {
      assert init[a] == gs[a] && init[b] == gs[b];
    }
  }

  /** With distinct names, every stored group is found under its own name. */
  lemma {:induction false} StepMapLookup(gs: seq<InstallerGroup>, i: int)
    requires DistinctNames(gs) && 0 <= i < |gs|
    ensures StepMap(gs)[gs[i].name] == gs[i]
    decreases |gs|
  {
    var n := |gs| - 1;
    if i < n {
      DistinctNamesPrefix(gs, n);
      assert gs[..n][i] == gs[i];
      StepMapLookup(gs[..n], i);
    }
  }

  /** With unique group names, each group of a step is found under its own name, built fresh. */
  lemma FreshStepLookup(groups: seq<Group>, i: int)
    requires UniqueGroupNames(groups) && 0 <= i < |groups|
    ensures groups[i].name in FreshStep(groups) && FreshStep(groups)[groups[i].name] == FreshGroup(groups[i])
  {
    var gs := FreshGroups(groups);
    assert DistinctNames(gs);
    StepMapLookup(gs, i);
  }

  /** Reopening groups whose saved state each re-selects to itself leaves the step's map unchanged. */
  lemma {:induction false} ReopenStepFixed(groups: seq<Group>, saved: map<Text, InstallerGroup>)
    requires forall gr :: gr in groups ==> gr.name in saved && ReopenGroup(saved[gr.name], gr) == saved[gr.name]
    ensures ReopenStep(groups, saved) == saved
    decreases |groups|
  {
    if |groups| > 0 {
      var gr := groups[0];
      assert saved[gr.name := ReopenGroup(saved[gr.name], gr)] == saved;
      assert forall h :: h in groups[1..] ==> h in groups;
      ReopenStepFixed(groups[1..], saved);
    }
  }

  /**
   * Going back to a step that was left straight after it was built shows
   * the same selection state: reopening is a fixed point of building, when
   * group names and plugin names are unique.
   */
  lemma ReopenFreshStep(groups: seq<Group>)
    requires UniqueGroupNames(groups)
    requires forall gr :: gr in groups ==> UniqueNames(gr.plugins)
    ensures ReopenStep(groups, FreshStep(groups)) == FreshStep(groups)
  {
    var saved := FreshStep(groups);
    forall gr | gr in groups
      ensures gr.name in saved && ReopenGroup(saved[gr.name], gr) == saved[gr.name]
    {
      var i :| 0 <= i < |groups| && groups[i] == gr;
      FreshStepLookup(groups, i);
      ReopenFreshGroup(gr);
    }
    ReopenStepFixed(groups, saved);
  }

  // The boxes a reopened step reads

  /** Every plugin of every group of the step that is not select-all has a box in the group stored under its name. */
  predicate Boxed(groups: seq<Group>, m: map<Text, InstallerGroup>)
  {
    forall gr :: gr in groups && gr.groupType != All ==>
      gr.name in m && forall p :: p in gr.plugins ==> p.name in m[gr.name].boxes
  }

  /**
   * Reopening a step reads, with `get_box_value`, the box of every plugin of
   * each group that is not select-all, from the saved map as the earlier
   * select-all groups of the step have left it; a missing box raises.
   */
  predicate BoxesFound(groups: seq<Group>, m: map<Text, InstallerGroup>)
    requires forall gr :: gr in groups ==> gr.name in m
    decreases |groups|
  {
    if |groups| == 0 then true
    else
      var gr := groups[0];
      assert forall h :: h in groups[1..] ==> h in groups;
      && (gr.groupType == All || forall p :: p in gr.plugins ==> p.name in m[gr.name].boxes)
      && BoxesFound(groups[1..], m[gr.name := ReopenGroup(m[gr.name], gr)])
  }

  /** The groups after the first of a step with unique names have unique names, none of them the first's. */
  lemma UniqueGroupNamesTail(groups: seq<Group>)
    requires UniqueGroupNames(groups) && |groups| > 0
    ensures UniqueGroupNames(groups[1..])
    ensures forall h :: h in groups[1..] ==> h.name != groups[0].name
  {
    var rest := groups[1..];
    forall a, b | 0 <= a < b < |rest| ensures rest[a].name != rest[b].name {
      assert rest[a] == groups[a + 1] && rest[b] == groups[b + 1];
    }
    forall h | h in rest ensures h.name != groups[0].name {
      var j :| 0 <= j < |rest| && rest[j] == h;
      assert groups[j + 1] == h;
    }
  }

  /** With unique group names, every box the step's groups show is found on reopening. */
  lemma {:induction false} BoxedFound(groups: seq<Group>, m: map<Text, InstallerGroup>)
    requires UniqueGroupNames(groups) && (forall gr :: gr in groups ==> gr.name in m) && Boxed(groups, m)
    ensures BoxesFound(groups, m)
    decreases |groups|
  {
    if |groups| > 0 {
      var gr := groups[0];
      var m' := m[gr.name := ReopenGroup(m[gr.name], gr)];
      UniqueGroupNamesTail(groups);
      assert forall h :: h in groups[1..] ==> h in groups;
      BoxedFound(groups[1..], m');
    }
  }

  /** Reopening leaves alone the entry of a name that no select-all group of the step carries. */
  lemma {:induction false} ReopenStepKeeps(groups: seq<Group>, m: map<Text, InstallerGroup>, name: Text)
    requires forall gr :: gr in groups ==> gr.name in m
    requires forall gr :: gr in groups && gr.name == name ==> gr.groupType != All
    requires name in m
    ensures name in ReopenStep(groups, m) && ReopenStep(groups, m)[name] == m[name]
    decreases |groups|
  {
    if |groups| > 0 {
      var gr := groups[0];
      var m' := m[gr.name := ReopenGroup(m[gr.name], gr)];
      assert m'[name] == m[name];
      assert forall h :: h in groups[1..] ==> h in groups;
      ReopenStepKeeps(groups[1..], m', name);
    }
  }

  /** With unique group names, reopening keeps every box the step's groups show. */
  lemma ReopenStepBoxed(groups: seq<Group>, m: map<Text, InstallerGroup>)
    requires UniqueGroupNames(groups) && (forall gr :: gr in groups ==> gr.name in m) && Boxed(groups, m)
    ensures Boxed(groups, ReopenStep(groups, m))
  {
    forall gr | gr in groups && gr.groupType != All
      ensures gr.name in ReopenStep(groups, m) && ReopenStep(groups, m)[gr.name] == m[gr.name]
    {
      forall h | h in groups && h.name == gr.name ensures h.groupType != All {
        var a :| 0 <= a < |groups| && groups[a] == h;
        var b :| 0 <= b < |groups| && groups[b] == gr;
        assert a == b;
      }
      ReopenStepKeeps(groups, m, gr.name);
    }
  }

  /** A step built fresh with unique group names has a box for every plugin it shows. */
  lemma FreshStepBoxed(groups: seq<Group>)
    requires UniqueGroupNames(groups)
    ensures Boxed(groups, FreshStep(groups))
  {
    forall gr | gr in groups && gr.groupType != All
      ensures gr.name in FreshStep(groups) && FreshStep(groups)[gr.name] == FreshGroup(gr)
    {
      var i :| 0 <= i < |groups| && groups[i] == gr;
      FreshStepLookup(groups, i);
    }
  }
}

=== FILE: text.dfy ===
/**
 * Text values as the descriptor hands them over: a string, or Python's
 * `None` when an attribute or a text node is missing.  Also the ordering
 * Python 2 applies to such values when sorting, and `rstrip`.
 */
module Texts {
  import opened Wrappers

  /** An attribute value or text node: `None` when it is absent. */
  type Text = Option<string>

  /** Code-point lexicographic order on strings, as Python 2 compares them. */
  predicate LessEqString(a: string, b: string)
  {
    |a| == 0 || (|b| > 0 && (a[0] < b[0] || (a[0] == b[0] && LessEqString(a[1..], b[1..]))))
  }

  /** Python 2 orders `None` below every string. */
  predicate LessEqText(a: Text, b: Text)
  {
    match a
    case None => true
    case Some(x) => b.Some? && LessEqString(x, b.value)
  }

  lemma {:induction false} LessEqStringTotal(a: string, b: string)
    ensures LessEqString(a, b) || LessEqString(b, a)
  {
    if |a| > 0 && |b| > 0 && a[0] == b[0] {
      LessEqStringTotal(a[1..], b[1..]);
    }
  }

  lemma {:induction false} LessEqStringAntisymmetric(a: string, b: string)
    requires LessEqString(a, b) && LessEqString(b, a)
    ensures a == b
  {
    if |a| > 0 && |b| > 0 {
      LessEqStringAntisymmetric(a[1..], b[1..]);
      assert a == [a[0]] + a[1..];
      assert b == [b[0]] + b[1..];
    }
  }

  lemma {:induction false} LessEqStringTransitive(a: string, b: string, c: string)
    requires LessEqString(a, b) && LessEqString(b, c)
    ensures LessEqString(a, c)
  {
    if |a| > 0 && |b| > 0 && |c| > 0 && a[0] == b[0] && b[0] == c[0] {
      LessEqStringTransitive(a[1..], b[1..], c[1..]);
    }
  }

  lemma LessEqTextTotal(a: Text, b: Text)
    ensures LessEqText(a, b) || LessEqText(b, a)
  {
    if a.Some? && b.Some? {
      LessEqStringTotal(a.value, b.value);
    }
  }

  lemma LessEqTextAntisymmetric(a: Text, b: Text)
    requires LessEqText(a, b) && LessEqText(b, a)
    ensures a == b
  {
    if a.Some? && b.Some? {
      LessEqStringAntisymmetric(a.value, b.value);
    }
  }

  lemma LessEqTextTransitive(a: Text, b: Text, c: Text)
    requires LessEqText(a, b) && LessEqText(b, c)
    ensures LessEqText(a, c)
  {
    if a.Some? && b.Some? && c.Some? {
      LessEqStringTransitive(a.value, b.value, c.value);
    }
  }

  /** The characters `str.rstrip()` removes from a byte string. */
  predicate IsSpace(c: char)
  {
    c == ' ' || c == '\t' || c == '\n' || c == '\r' || c == '\U{000B}' || c == '\U{000C}'
  }

  /** `rstrip()`: drops trailing whitespace and keeps everything before it. */
  function RStrip(s: string): (r: string)
    ensures r <= s
    ensures |r| == 0 || !IsSpace(r[|r| - 1])
    ensures forall i :: |r| <= i < |s| ==> IsSpace(s[i])
    decreases |s|
  {
    if |s| > 0 && IsSpace(s[|s| - 1]) then RStrip(s[..|s| - 1]) else s
  }

  /** Stripping twice changes nothing more. */
  lemma RStripIdempotent(s: string)
    ensures RStrip(RStrip(s)) == RStrip(s)
  {
  }
}

=== FILE: wrappers.dfy ===
/** Option and Result types shared by the whole model. */
module Wrappers {

  /** A value that may be absent; `None` also stands for Python's `None`. */
  datatype Option<+T> = None | Some(value: T)

  /** The outcome of a step that the source may abort with an exception. */
  datatype Result<+T, +E> = Ok(value: T) | Err(error: E)
}
